=== FILE: README.md ===
# Operation Starfall — a Dafny model of the game core

Operation Starfall is a vertical arcade shooter. Each frame, a single
callback (`OnUserUpdate`) dispatches on the current screen:

- the menu, with a difficulty selector;
- five story arcs, which are slide shows;
- the level-intro card;
- play, pause, and the game-over screen.

While playing, `updateCurrentLevel` runs one frame of the simulation:

- timers and power-up buffs;
- player movement and auto-fire;
- spawners for asteroids, enemies and bullets;
- entity updates;
- eight ordered collision passes;
- compaction of dead entities.

This project models that core as pure Dafny functions over an immutable
`Session` record and proves properties of it.

Modules, in dependency order:

| module | file | models |
|---|---|---|
| `Config` | config.dfy | the `GameConfig` constants, the `Difficulty` and `PowerUpType` enums, the difficulty multiplier, and `Dist2` |
| `Entities` | entities.dfy | entity records, spawn constructors, `Asteroid::Update`, `PowerUp::Update`, the "update only the live ones" loops, and compaction |
| `Collision` | collision.dfy | the inclusive circle test, bullet-versus-collection passes (first hit only), bullet-versus-boss (one hit per frame), and hazard-versus-player passes |
| `PowerUps` | powerups.dfy | `applyPowerUp`, `updatePowerUpTimers`, and the pickup pass |
| `Story` | story.dfy | the state-changing part of `renderStorySlide`, `resetStorySlideState`, and one frame of an arc |
| `Session` | session.dfy | the session record, `handlePlayerHit`, `saveHighScore` (the value only), the bullet and power-up spawners, `startLevel` and `ResetGame` |
| `Frame` | frame.dfy | `updateCurrentLevel`, as a chain of phases in the source's order |
| `Screens` | screens.dfy | `OnUserUpdate`: every screen, the level-complete check, and the screen graph; the menu both as written and corrected (see Findings) |

The entity code whose bodies are not part of this model is passed in as
function-valued fields of the record `Session.Unseen`:

- `Player::Update` and `Player::Reset`;
- `Bullet`, `Enemy`, `EnemyBullet` and `Boss` updates;
- `Boss::Reset`.

The random draws of a frame are an input (`Frame.Draws`):

- the asteroid's position, velocity and radius;
- the enemy's position and velocity;
- one drop roll per enemy killed.

Behaviours of the code that are easy to misread, kept as written:

- **Defeat threshold.** Defeat is triggered at `lives <= 0`, after the
  decrement.
- **Skip timer.** `resetStorySlideState` keeps the skip timer, and
  entering an arc does not reset it. As a result, holding ESC keeps
  skipping into the next arc (`Story.SkipCarriesIntoNextArc`).
- **Bullet radius.** Spawned bullets use a radius of 4, not
  `BULLET_RADIUS` (6).
- **Level-2 stall.** The level-2 spawn gate counts spawns, not kills.
  Enemies that ram the player die without counting as kills. Once 15 have
  spawned and any of them was lost that way, the kill target can no longer
  be reached (`Frame.Level2Stall`, `Screens.Level2StallNeverCompletes`).

## Model

| member | source | states |
|---|---|---|
| Config.ConfigSanity | src/GameConfig.h:9-75 | the tuning constants the rules depend on are positive, and the asteroid radius range is non-empty |
| Config.MultiplierIncreasing | Operation_Starfall_2DGame.cpp:281-288 | a strictly harder difficulty has a strictly larger multiplier, in both directions |
| Config.SpawnIntervalShrinks | Operation_Starfall_2DGame.cpp:1022-1027 | the asteroid interval (rate divided by the multiplier) is positive, and strictly shorter on a harder difficulty |
| Config.KindIndexRoundTrip | Operation_Starfall_2DGame.cpp:630-631 | the cast from a drawn index 0..3 to a power-up kind is a bijection: ordinal and cast are mutual inverses |
| Config.Dist2 | src/GameConfig.h:98-101 | the squared distance is never negative, and is zero between equal points |
| Config.Dist2Symmetric | src/GameConfig.h:98-101 | the squared distance is symmetric |
| Config.ContactIffWithin | Operation_Starfall_2DGame.cpp:1112-1113 | the squared test `Dist2 <= R*R` holds exactly when the distance is at most R (boundary inclusive) |
| Entities.AsteroidUpdateRules | src/asteroid.cpp:4-9 | an update moves by exactly vel·dt, keeps velocity and radius, never revives, and kills exactly when the top edge passes the bottom by the minimum asteroid radius |
| Entities.AsteroidLivenessIgnoresX | src/asteroid.cpp:4-9 | horizontal position and velocity do not affect asteroid liveness |
| Entities.PowerUpUpdateRules | Operation_Starfall_2DGame.cpp:164-169 | a power-up moves by vel·dt, keeps its kind, and dies exactly when it passes the bottom by 20 pixels |
| Entities.AdvanceLive | Operation_Starfall_2DGame.cpp:1055-1068 | live entities take their own update; dead ones are untouched; the live count never grows |
| Entities.AgeExplosions | Operation_Starfall_2DGame.cpp:1100-1103 | every explosion timer runs down by dt |
| Entities.Filter | Operation_Starfall_2DGame.cpp:1222-1255 | compaction keeps exactly the survivors: its length is their count, every element survives, and every survivor is kept |
| Entities.FilterAppend | Operation_Starfall_2DGame.cpp:1222-1255 | compaction distributes over concatenation, so survivors keep their relative order |
| Entities.FilterIdempotent | Operation_Starfall_2DGame.cpp:1222-1255 | compacting twice equals compacting once |
| Entities.CompactKeepsLive | Operation_Starfall_2DGame.cpp:1234-1238 | compacting enemies keeps the live count, and every survivor is alive |
| Entities.CountUpdate | Operation_Starfall_2DGame.cpp:1114-1117 | killing one element lowers the live count by exactly one |
| Collision.TouchingSymmetric | Operation_Starfall_2DGame.cpp:1112-1113 | the contact test does not depend on the order of the two discs |
| Collision.BulletMeetsAsteroidExample | Operation_Starfall_2DGame.cpp:1112-1113 | a spawned player bullet (r 4) 24 pixels from an asteroid (r 30) collides with it |
| Collision.FirstStruck | Operation_Starfall_2DGame.cpp:1109-1121 | the inner scan finds the first live target the bullet touches; none is skipped before it, and none exists if the scan fails |
| Collision.Shoot | Operation_Starfall_2DGame.cpp:1108-1122 | a live bullet hits exactly when some live target touches it; then it kills itself and exactly the first such target and records that target's position; otherwise nothing changes |
| Collision.Fire | Operation_Starfall_2DGame.cpp:1107-1123 | a whole pass: bullets and targets die in equal numbers, one per hit; nothing is revived; afterwards no live bullet touches a live target; every killed target was touched by a killed bullet and every killed bullet touched a killed target; every recorded hit is the position of a target the pass killed |
| Collision.FireTargetsSound | Operation_Starfall_2DGame.cpp:1107-1123 | one bullet's scan followed by the rest of the pass keeps the rule that each killed target was touched by a killed bullet |
| Collision.FireShotsSound | Operation_Starfall_2DGame.cpp:1107-1123 | one bullet's scan followed by the rest of the pass keeps the rule that each killed bullet touched a killed target |
| Collision.FireHitsSound | Operation_Starfall_2DGame.cpp:1113-1117 | one bullet's scan followed by the rest of the pass keeps the rule that each recorded hit is the position of a killed target |
| Collision.FireOne | Operation_Starfall_2DGame.cpp:1108-1122 | a pass with one bullet is exactly that bullet's scan (`Shoot`) |
| Collision.FireAppend | Operation_Starfall_2DGame.cpp:1107-1123 | bullets are processed strictly in order: the pass over `a + b` is the pass over `a`, then the pass over `b` at the targets `a` left (bullets, targets and hits concatenate) |
| Collision.GreedyFirstHitExample | Operation_Starfall_2DGame.cpp:1109-1121 | the matching is greedy, not maximal: with b1 touching t1 and t2 and b2 touching only t1, b1 takes t1 and the pass scores one hit where two were possible |
| Collision.Damaged | Operation_Starfall_2DGame.cpp:1195-1206 | boss HP after a hit is HP minus the damage, clamped at zero; it stays positive exactly when HP exceeded the damage |
| Collision.FirstStriker | Operation_Starfall_2DGame.cpp:1190-1195 | the first live bullet touching the boss, with no earlier one touching it |
| Collision.BossFire | Operation_Starfall_2DGame.cpp:1189-1211 | at most one bullet hits the boss per frame, and it is the first live bullet touching the boss: nothing changes without one; with one, that bullet dies, the boss takes one hit and dies when HP reaches zero |
| Collision.HitsOfEmpty | Operation_Starfall_2DGame.cpp:1155-1187 | a hazard pass records a hit exactly when some live body of the collection touches the player |
| Collision.Ram | Operation_Starfall_2DGame.cpp:1155-1187 | every live hazard touching the player dies (no break) and every other body is left exactly as it was; the hits are the rammers' positions in collection order; no survivor touches the player |
| PowerUps.ApplyPowerUp | Operation_Starfall_2DGame.cpp:643-665 | a timed kind restarts only its own timer at the full duration and is active; EXTRA_LIFE adds exactly one life and leaves the timers alone |
| PowerUps.PickupRestartsTimer | Operation_Starfall_2DGame.cpp:643-665 | a second pickup of a timed kind restarts its timer rather than adding to it: picking twice is picking once, and the timer is the same whatever was left |
| PowerUps.ExtraLivesStack | Operation_Starfall_2DGame.cpp:660-662 | each EXTRA_LIFE adds exactly one life, so two add two |
| PowerUps.TickBuffs | Operation_Starfall_2DGame.cpp:667-671 | each timed buff's timer runs down by dt only while it is positive |
| PowerUps.TickNeverActivates | Operation_Starfall_2DGame.cpp:667-671 | ticking never switches a buff on (for dt ≥ 0), leaves inactive timers alone, and strictly lowers active ones |
| PowerUps.BuffLastsItsTimer | Operation_Starfall_2DGame.cpp:667-671 | after any run of non-negative frame times, a buff is active exactly when the accumulated time is below what was left on its timer |
| PowerUps.PickupLastsDuration | Operation_Starfall_2DGame.cpp:643-671 | a fresh pickup stays active exactly while less than POWERUP_DURATION has elapsed |
| PowerUps.Collect | Operation_Starfall_2DGame.cpp:1145-1153 | exactly the live power-ups touching the player are consumed; the kinds picked are exactly theirs, in field order (`GrabbedKinds`); lives grow by the extra lives picked; each timed kind is 8 s if picked, else unchanged |
| PowerUps.NoExtraLifeGrabbed | Operation_Starfall_2DGame.cpp:1145-1153 | a field without an EXTRA_LIFE yields no EXTRA_LIFE pick, wherever the player stands |
| Story.ResetSlide | Operation_Starfall_2DGame.cpp:328-333 | the typewriter, fade and slide timers restart and the fade-in is set; parallax and skip survive |
| Story.RenderSlide | Operation_Starfall_2DGame.cpp:344-459 | every timer advances by dt; holding ESC accumulates the skip timer and releasing clears it; the slide advances exactly on skip, ENTER/SPACE, or the 8 s timeout |
| Story.ArcFrame | Operation_Starfall_2DGame.cpp:1320-1347 | an out-of-range index does nothing; otherwise: no advance ⇔ stay on the slide; skip ⇔ leave skipped, with the slide state as it is; a normal leave ⇔ advancing past the last slide, with the slide state reset; an advance before the last slide stays on the next index with reset timers |
| Story.HoldingEscapeLeaves | Operation_Starfall_2DGame.cpp:418-433 | holding ESC until the skip timer reaches 1.5 s leaves the arc, however many slides remain |
| Story.EnterWalksSlides | Operation_Starfall_2DGame.cpp:1334-1345 | pressing ENTER every frame walks one slide per frame and leaves, unskipped, after exactly the remaining slide count |
| Story.AutoAdvance | Operation_Starfall_2DGame.cpp:450-459 | with no keys, whatever the skip timer holds, the slide stays exactly while its timer is below the auto-advance time |
| Story.SkipCarriesIntoNextArc | Operation_Starfall_2DGame.cpp:328-333 | with the skip timer already at the hold time and ESC still held, a new arc is skipped in its first frame |
| Session.TriggerShake | Operation_Starfall_2DGame.cpp:303-306 | a new shake replaces the old one with the given intensity and duration |
| Session.TickShake | Operation_Starfall_2DGame.cpp:671 | the shake timer runs down by dt only while positive; the intensity is kept |
| Session.ShakeLastsItsTimer | Operation_Starfall_2DGame.cpp:667-671 | after any run of non-negative frame times the screen shakes exactly while the accumulated time is below what was left on the shake timer |
| Session.ShakeLastsDuration | Operation_Starfall_2DGame.cpp:303-306 | a triggered shake lasts exactly its duration, at its intensity, whatever shake it replaced |
| Session.SaveHighScore | Operation_Starfall_2DGame.cpp:561-571 | the high score becomes the larger of itself and the score; nothing else changes |
| Session.SaveHighScoreIdempotent | Operation_Starfall_2DGame.cpp:1737-1738 | saving again (every GAME_OVER frame) changes nothing |
| Session.SaveHighScoreMonotone | Operation_Starfall_2DGame.cpp:561-571 | a higher score never yields a lower saved high score |
| Session.HandlePlayerHit | Operation_Starfall_2DGame.cpp:590-619 | a guarded hit is a no-op; otherwise one life and one hit are counted and invincibility starts; the last life enters the defeat story at slide 0 with the slide state reset, appends the ship explosion and a large shake, and its stats are the hit-counted stats with wins cleared, then saved; otherwise the world and everything but the hit count are unchanged and the shake is medium |
| Session.HitIdempotent | Operation_Starfall_2DGame.cpp:590-600 | a second hit right after the first does nothing |
| Session.DefeatExactlyOnLastLife | Operation_Starfall_2DGame.cpp:605-618 | the defeat story is entered exactly when an unguarded hit lands with at most one life left |
| Session.HitCostsAtMostOneLife | Operation_Starfall_2DGame.cpp:592-598 | a hit costs at most one life, and costs one exactly when unguarded |
| Session.PlayerVolley | Operation_Starfall_2DGame.cpp:718-730 | one bullet, or two with double shot, from the ship's nose, symmetric about it and 2×spread apart |
| Session.BossPair | Operation_Starfall_2DGame.cpp:742-760 | no bullets from a dead boss; otherwise a left-then-right pair at the boss position offset by (-30, r/2) and (+30, r/2), alive, falling at the boss bullet speed with radius 4 |
| Session.BossPairFollowsBoss | Operation_Starfall_2DGame.cpp:742-760 | moving a live boss moves both bullets by the same vector, and the muzzles are 60 px apart |
| Session.EnemyVolley | Operation_Starfall_2DGame.cpp:1073-1078 | one bullet per live enemy, from its muzzle, in enemy order |
| Session.Drop | Operation_Starfall_2DGame.cpp:624-641 | a drop happens exactly when the roll is within the 15% chance, with the drawn kind, at the kill position |
| Session.StartLevel | Operation_Starfall_2DGame.cpp:962-996 | only level, timers, boss, kill and spawn counters, four collections and the player change: bullets, asteroids, enemies and enemy bullets are cleared, the counters zeroed, the clock and spawn countdowns zeroed; per-level rates are set (and kept where the level does not set them); the boss and its gun are reset only on level 3; the player gets the reset pose and keeps everything else; power-ups, explosions, buffs, shake, indices, slide, score, hits and lives carry over |
| Session.StartLevelForgetsField | Operation_Starfall_2DGame.cpp:962-975 | starting a level is idempotent and ignores the previous field and counters |
| Session.ResetGame | Operation_Starfall_2DGame.cpp:932-960 | the result is a new game: stats cleared except the high score, lives to PLAYER_STARTING_LIVES, every collection but the explosions emptied, buffs cleared, shake timer 0, the boss at full HP and dead, the enemy and boss countdowns zeroed, the level-1 rate set; screen, difficulty, story indices, slide state and the fire, cooldown and enemy-cap settings are kept |
| Session.ResetGameForgetsSession | Operation_Starfall_2DGame.cpp:932-960 | a reset game does not depend on the finished game's score, lives, field or buffs, and resetting is idempotent |
| Frame.Clocks | Operation_Starfall_2DGame.cpp:999-1002 | the level clock advances by exactly dt, the buffs tick as updatePowerUpTimers says and the shake runs down; no other timer and nothing else in the session changes |
| Frame.MoveSpeed | Operation_Starfall_2DGame.cpp:1005-1010 | the boosted speed is used exactly while speed boost is active |
| Frame.MovePlayer | Operation_Starfall_2DGame.cpp:1005-1012 | only the player changes: its position and invincibility countdown are those of the player update run at this frame's speed, and its stored speed, lives and radius are restored |
| Frame.AutoFire | Operation_Starfall_2DGame.cpp:1015-1019 | only the bullets and the fire countdown change: when the countdown expires, the volley is appended and the countdown restarts at the cooldown; otherwise the world is unchanged and the countdown is t − dt |
| Frame.SpawnAsteroids | Operation_Starfall_2DGame.cpp:1021-1027 | only the asteroids and the spawn countdown change: when the countdown expires, one asteroid is appended and the countdown restarts at the difficulty-scaled interval; otherwise the world is unchanged and the countdown is t − dt |
| Frame.MovePowerUps | Operation_Starfall_2DGame.cpp:1029-1032 | only the power-ups change, and they become `AdvancePowerUps` of the old ones: each live one takes its own update and the dead ones are untouched |
| Frame.SpawnEnemies | Operation_Starfall_2DGame.cpp:1034-1053 | off levels 2–3 nothing changes; otherwise the countdown is t − dt while positive and restarts at the enemy spawn rate when it expires; an enemy is appended and counted exactly on levels 2–3, when the countdown expired, the level-2 spawn cap is not reached and fewer than maxEnemies are alive; only the enemies, that countdown and the spawn count change |
| Frame.MoveBodies | Operation_Starfall_2DGame.cpp:1055-1068 | only the bullets, asteroids and enemies change, each becoming `AdvanceLive` (or `AdvanceAsteroids`) of the old collection: live ones take their own update, dead ones are untouched |
| Frame.EnemiesFire | Operation_Starfall_2DGame.cpp:1071-1081 | no fire outside levels 2–3; when the countdown expires, every live enemy fires once and the countdown restarts at the cooldown; otherwise the world is unchanged and the countdown runs down |
| Frame.MoveEnemyBullets | Operation_Starfall_2DGame.cpp:1083-1086 | only the enemy bullets change, becoming `AdvanceLive` of the old ones under their own update |
| Frame.BossTurn | Operation_Starfall_2DGame.cpp:1088-1097 | nothing happens unless on level 3 with the boss alive; then the boss takes its own update, and when the countdown expires the pair is fired from the moved boss and the countdown restarts, otherwise only the countdown runs down; boss HP is untouched |
| Frame.AgeAll | Operation_Starfall_2DGame.cpp:1100-1103 | only the explosions change, becoming `AgeExplosions` of the old ones: every timer runs down by dt |
| Frame.SimulateFacts | Operation_Starfall_2DGame.cpp:998-1103 | the simulation half of the frame keeps level, difficulty, state and lives, advances the level clock by dt, ticks the buffs, leaves the boss's HP alone, and counts no enemy spawn outside levels 2–3 or past the level-2 cap |
| Frame.Booms | Operation_Starfall_2DGame.cpp:1115-1116 | one explosion per recorded hit position, in order, each with the given duration |
| Frame.Drops | Operation_Starfall_2DGame.cpp:1137 | at most one drop per kill, every drop alive, and no EXTRA_LIFE when no roll names that kind |
| Frame.ShootAsteroids | Operation_Starfall_2DGame.cpp:1107-1123 | the bullets and asteroids become those of the bullet-versus-asteroid pass, one small explosion per hit is appended, and the score rises by SCORE_ASTEROID per hit; nothing else in the world changes |
| Frame.ShootEnemies | Operation_Starfall_2DGame.cpp:1125-1143 | the bullets and enemies become those of the bullet-versus-enemy pass, one ship explosion and one drop roll per hit are appended; score rises by SCORE_ENEMY and kills by one per hit; the enemy ledger slack is unchanged |
| Frame.PickUp | Operation_Starfall_2DGame.cpp:1145-1153 | the power-ups, player and buffs become exactly those of the pickup pass and nothing else changes; lives grow by exactly the number of EXTRA_LIFE power-ups grabbed, and the shield timer is either unchanged or restarted at full duration |
| Frame.Suffer | Operation_Starfall_2DGame.cpp:1155-1187 | no hits change nothing; a run of hits is one handlePlayerHit, with the explosions of the first rammer, then the ship's own if that hit ends the game, then the remaining rammers'; a guarded player only gains the rammers' explosions; an unguarded one loses exactly one life |
| Frame.RamAsteroids | Operation_Starfall_2DGame.cpp:1155-1165 | apart from the explosions, the world is the old one with the asteroids of the asteroid ram pass; the explosions gain the first rammer's, then the ship wreck when that hit ends the game, then the other rammers' (`SufferBlasts`); a touching live asteroid makes the rest of the session one handlePlayerHit (a life when unguarded); with no asteroid touching, nothing changes |
| Frame.RamEnemies | Operation_Starfall_2DGame.cpp:1167-1177 | apart from the explosions, the world is the old one with the enemies of the enemy ram pass; the explosions gain the first rammer's, then the ship wreck when that hit ends the game, then the other rammers'; a touching live enemy makes the rest of the session one handlePlayerHit (a life when unguarded); with no enemy touching, nothing changes |
| Frame.RamEnemyBullets | Operation_Starfall_2DGame.cpp:1179-1187 | apart from the explosions, the world is the old one with the enemy bullets of the ram pass; the explosions gain only the ship wreck, when a landing bullet ends the game; a touching live enemy bullet makes the rest of the session one handlePlayerHit (a life when unguarded); with none touching, nothing changes |
| Frame.RamPlayer | Operation_Starfall_2DGame.cpp:1155-1187 | apart from the explosions, the world has the asteroids, enemies and enemy bullets of the three ram passes; the explosions are the old ones followed by `RamExplosions` (one per rammed asteroid and enemy in pass order, with the wreck after the first rammer's when the first hit ends the game), so the count grows by exactly the rammed asteroids and enemies plus the wreck; any touching hazard makes the rest of the session one handlePlayerHit, so an unguarded player loses exactly one life however many touch; with no hazard touching, nothing changes |
| Frame.ShootBoss | Operation_Starfall_2DGame.cpp:1189-1211 | nothing happens off level 3, with the boss dead, or with no live bullet touching it; on level 3 with the boss alive, the boss becomes that of the bullet-versus-boss pass; with a striker, exactly that bullet dies, HP takes one clamped hit, the score rises by SCORE_BOSS_HIT and nothing else in the stats, the shake is small, and a killing hit adds the boss explosion and a large shake; nothing else in the session changes |
| Frame.BossRamsPlayer | Operation_Starfall_2DGame.cpp:1214-1219 | a live level-3 boss touching the player is exactly one player hit (a life when unguarded); otherwise nothing changes |
| Frame.Compact | Operation_Starfall_2DGame.cpp:1222-1255 | only the world changes: each of the six collections keeps exactly its live members (explosions: those still burning) in order |
| Frame.UpdateCurrentLevel | Operation_Starfall_2DGame.cpp:998-1256 | a frame keeps level and difficulty; score, kills and high score never drop; state changes only into the defeat story; the level clock advances by dt; the boss takes at most one hit and is untouched off level 3; the world ends compacted |
| Frame.ResolveFacts | Operation_Starfall_2DGame.cpp:1105-1219 | the collision half keeps level, difficulty and every timer, costs at most one life (none with shield up), and gives the boss at most one hit |
| Frame.FrameKeepsLedger | Operation_Starfall_2DGame.cpp:1035-1143 | kills plus live enemies never exceed enemies spawned this level |
| Frame.AtMostOneLifePerFrame | Operation_Starfall_2DGame.cpp:1155-1219 | a frame costs at most one life; with more than a frame's worth of shield left, it costs none |
| Frame.LivesOnlyFromExtraLife | Operation_Starfall_2DGame.cpp:643-665 | lives rise only through EXTRA_LIFE: a frame with no EXTRA_LIFE on the field and no drop roll naming it never adds a life |
| Frame.BossHitOncePerFrame | Operation_Starfall_2DGame.cpp:1189-1211 | the boss loses at most one hit of HP per frame, HP never goes negative, and the boss is untouched off level 3 |
| Frame.EnemySpawnGated | Operation_Starfall_2DGame.cpp:1035-1053 | no enemy is spawned on level 1, and level 2 never counts past its kill target |
| Frame.Level2Stall | Operation_Starfall_2DGame.cpp:1043-1047 | once level 2 has spawned its quota with kills plus live enemies below target, every later frame stays below it |
| Screens.SelectorSaturates | Operation_Starfall_2DGame.cpp:1289-1298 | LEFT and RIGHT move one place and saturate at EASY and HARD; away from the ends each undoes the other |
| Screens.BothArrows | Operation_Starfall_2DGame.cpp:1289-1298 | with both arrows in one frame, LEFT applies first: EASY becomes NORMAL and the other settings are unchanged |
| Screens.MenuAsWritten | Operation_Starfall_2DGame.cpp:1289-1309 | ENTER/SPACE enter the opening story at slide 0 with the slide state reset (skip kept) and everything else, stats, player, world, buffs and level included, exactly as the last game left it; Q stops the game; otherwise only the difficulty changes |
| Screens.MenuKeepsOldGame | Operation_Starfall_2DGame.cpp:1300-1306 | as written, the score, hits and lives of the previous game survive into the next game's first level |
| Screens.MenuKeepsOldGameExample | Operation_Starfall_2DGame.cpp:1300-1306 | a lost game with score 50 and no lives starts the next game with score 50 and no lives |
| Screens.MenuStep | Operation_Starfall_2DGame.cpp:932-960 | the corrected menu: key handling as written, but a started game satisfies the new-game predicate, keeps the high score, and enters the opening story at slide 0 with the slide state reset |
| Screens.MenuStartsNewGame | Operation_Starfall_2DGame.cpp:932-960 | with the reset, every started game has score 0, full lives, no buffs or power-ups, and keeps the high score and chosen difficulty |
| Screens.WithIndex | Operation_Starfall_2DGame.cpp:1313-1490 | setting one arc's slide index leaves the other arcs' indices alone |
| Screens.LeaveArc | Operation_Starfall_2DGame.cpp:1326-1331 | a pre-level arc starts its level with the intro timer at 0 on the intro card, keeping score, hits, lives, buffs, shake, power-ups, explosions, story indices, slide state and difficulty (only the kill and spawn counters reset); a closing arc goes to the game-over screen with nothing else changed |
| Screens.StoryStep | Operation_Starfall_2DGame.cpp:1313-1490 | a story frame stays on its arc's screen exactly when the arc frame stays, and then the arc's index and the slide state are the arc frame's; on leaving, the slide state is the arc frame's, the arc's index moves on by one unless skipped, and score, hits, lives, buffs and difficulty are kept; every other arc's index is kept either way |
| Screens.SkipCarriesIntoLevel | Operation_Starfall_2DGame.cpp:1326-1331 | skipping a pre-level arc with ESC enters its level with score, hits and lives untouched, the arc's index unchanged and the skip timer still past the hold time |
| Screens.ArcLeadsToItsLevel | Operation_Starfall_2DGame.cpp:1352-1424 | leaving a pre-level arc, whether read or skipped, always lands on that level's freshly started intro card |
| Screens.LevelComplete | Operation_Starfall_2DGame.cpp:1670-1704 | with lives left and the level's goal met (25 s, 15 kills, boss dead), the next arc starts at slide 0 with the slide state reset and the other arcs' indices kept; level 3 sets wins and then saves the high score, other levels keep the stats; nothing else changes; otherwise nothing changes at all |
| Screens.CompleteFollowsGraph | Operation_Starfall_2DGame.cpp:1670-1704 | after a frame of play, the level-complete check keeps level, score and compaction, and only moves to a story that follows a level |
| Screens.PlayingStep | Operation_Starfall_2DGame.cpp:1521-1704 | ESC or P pauses with nothing simulated; otherwise the frame keeps level and difficulty, never lowers score or high score, compacts the world, and moves only along the screen graph |
| Screens.IntroWaitsForEnter | Operation_Starfall_2DGame.cpp:1492-1519 | the intro card only advances its timer; play starts exactly on ENTER, and the started level is untouched |
| Screens.PausedStep | Operation_Starfall_2DGame.cpp:1709-1733 | Q saves the high score and returns to the menu, ESC or P resumes, otherwise the screen stays; only the state and (on Q) the saved high score change |
| Screens.GameOverStep | Operation_Starfall_2DGame.cpp:1735-1775 | the high score is saved every frame, ENTER returns to the menu, and nothing else changes |
| Screens.Step | Operation_Starfall_2DGame.cpp:1258-1779 | every frame stays on its screen or follows an edge of the independent screen graph; only the menu's Q stops the game; the intro card, pause and game-over screens leave world, player and level alone |
| Screens.StepKeepsLedger | Operation_Starfall_2DGame.cpp:1258-1779 | the enemy ledger holds across every screen |
| Screens.PauseRoundTrip | Operation_Starfall_2DGame.cpp:1526-1530 | pausing then resuming returns exactly the session that was paused |
| Screens.Level1EndsOnTime | Operation_Starfall_2DGame.cpp:1671-1680 | an unpaused level-1 frame hands over to the level-2 story exactly when the frame's clock reaches 25 s with lives left |
| Screens.Level2StallNeverCompletes | Operation_Starfall_2DGame.cpp:1681-1690 | a frame of a stalled level 2 never reaches the level-3 story |

## Left out

- **Presentation and I/O.** Rendering, sound, story music flags, the background scroll (`bgOffset`), `getShakeOffset` and the intro-card blink are left out. Loading assets and the high-score file are also left out, because none of them affects game state. `saveHighScore` keeps only its value.
- **Explosion scale and sprite handles.** Explosions keep position and timers only.
- **Typewriter reveal.** The typewriter text reveal and the slide captions are presentation; only the slide counts (5, 3, 3, 3, 4) are kept.
- **Unseen entity code.** The code of `Player`, `Bullet`, `Enemy`, `EnemyBullet` and `Boss` (except their fields) is not part of this model. Those updates and resets are function parameters.
  - The player's update and reset are assumed to change only position and the invincibility countdown, never lives.
  - The boss update is assumed to act on its body, never its HP.
- **Randomness.** `std::mt19937` is left out. Every random draw is a frame input.
- **Floating point.** `float` arithmetic is modelled as exact `real` arithmetic. Rounding is not modelled.
- **Engine start-up.** `OnUserCreate`, `main` and the engine's handling of a `false` return are left out. The menu's Q is modelled only as the frame returning `running == false`.
- **Enemy-spawn limit.** `maxEnemies` is a session field. The model does not fix it to `MAX_ENEMIES_ON_SCREEN`, because the source never assigns it outside its initializer.
- Screens.Step: dispatches the menu to the corrected `MenuStep`, which starts each game with `ResetGame`, not to `MenuAsWritten`. The code as written is kept as `Screens.MenuAsWritten` and its consequence in `Screens.MenuKeepsOldGame` (see Findings).
- Screens.Level1EndsOnTime: is stated for the PLAYING screen's frame (`PlayingStep`), which is what `Step` runs in that state.
- Screens.Level2StallNeverCompletes: is stated for the PLAYING screen's frame (`PlayingStep`), for the same reason.
- Frame.Drops: states the drop count bound, liveness and the absence of EXTRA_LIFE, not each drop. `Session.Drop` states each drop exactly.

## Findings

| source | as written | input that shows it | evidently intended | confidence | as-written member | corrected member |
|---|---|---|---|---|---|---|
| Operation_Starfall_2DGame.cpp:1300-1306 | Starting a game from the menu never calls `ResetGame` (defined at 932-960 but never called). The next game inherits the previous game's score and hit count. If `Player::Reset` leaves lives alone, it also inherits the lives: after a defeat that is 0, so the first unguarded hit ends the new game and no level can complete while lives are 0. | A game lost with score 50 and lives 0; then ENTER at the menu, and the opening story is left. Level 1 starts with score 50 and lives 0. | Starting a game runs `ResetGame`: score 0, hits 0, full lives, no power-ups or buffs. | not executed; high for score and hits, medium for lives (`Player::Reset` is not part of this model) | Screens.MenuKeepsOldGameExample | Screens.MenuStartsNewGame |

=== FILE: collision.dfy ===
/** Circle-circle collision and the ordered resolution passes of one frame:
    player bullets against a target collection (first hit only, no piercing),
    player bullets against the boss (one hit per frame), and the passes in
    which hostile bodies ram the player. */
module Collision {
  import opened Config
  import opened Entities

  datatype Option<T> = None | Some(value: T)

  /** The inclusive contact test `Dist2(p, q) <= (rp + rq)^2`. */
  predicate Touching(p: Vec2, rp: real, q: Vec2, rq: real)
  {
    Dist2(p, q) <= (rp + rq) * (rp + rq)
  }

  /** The test is symmetric in its two discs. */
  lemma TouchingSymmetric(p: Vec2, rp: real, q: Vec2, rq: real)
    ensures Touching(p, rp, q, rq) <==> Touching(q, rq, p, rp)
  {
    Dist2Symmetric(p, q);
  }

  /** A player bullet (spawned with radius 4) at (100,124) and an asteroid
      of radius 30 at (100,100) are 24 apart with combined radius 34: they
      collide. */
  lemma BulletMeetsAsteroidExample()
    ensures Touching(Vec2(100.0, 124.0), SpawnedBulletRadius, Vec2(100.0, 100.0), 30.0)
  {
    assert Dist2(Vec2(100.0, 124.0), Vec2(100.0, 100.0)) == 576.0 by {
      assert Vec2(100.0, 124.0).Minus(Vec2(100.0, 100.0)) == Vec2(0.0, 24.0);
      assert Sq(0.0) == 0.0 && Sq(24.0) == 576.0;
    }
  }

  /** A live target that a shot's disc touches. */
  predicate Strikes(shot: Body, t: Body)
  {
    t.alive && Touching(shot.pos, shot.r, t.pos, t.r)
  }

  /** `after` is `before`, or `before` was alive and has just been killed. */
  predicate KilledOrSame(before: Body, after: Body)
  {
    after == before || (before.alive && after == Kill(before))
  }

  /** The inner scan of a bullet: the first live target it touches, from
      index `from` on. */
  function FirstStruck(shot: Body, targets: seq<Body>, from: nat): (r: Option<nat>)
    requires from <= |targets|
    ensures r.Some? ==> from <= r.value < |targets| && Strikes(shot, targets[r.value])
    ensures r.Some? ==> forall k :: from <= k < r.value ==> !Strikes(shot, targets[k])
    ensures r.None? ==> forall k :: from <= k < |targets| ==> !Strikes(shot, targets[k])
    decreases |targets| - from
  {
    if from == |targets| then None
    else if Strikes(shot, targets[from]) then Some(from)
    else FirstStruck(shot, targets, from + 1)
  }

  datatype Shot = Shot(shot: Body, targets: seq<Body>, hits: seq<Vec2>)

  /** One bullet's scan: a live bullet that touches a live target kills
      itself and the first such target and scores one hit. */
  function Shoot(b: Body, targets: seq<Body>): (r: Shot)
    ensures |r.targets| == |targets| && |r.hits| <= 1
    ensures KilledOrSame(b, r.shot)
    ensures forall j :: 0 <= j < |targets| ==> KilledOrSame(targets[j], r.targets[j])
    ensures (if b.alive then 1 else 0) == (if r.shot.alive then 1 else 0) + |r.hits|
    ensures Alive(targets) == Alive(r.targets) + |r.hits|
    ensures r.shot.alive ==> r.targets == targets && forall j :: 0 <= j < |targets| ==> !Strikes(r.shot, targets[j])
    ensures r.hits != [] <==> b.alive && FirstStruck(b, targets, 0).Some?
    ensures r.hits == [] ==> r.shot == b && r.targets == targets
    ensures r.hits != [] ==>
      var j := FirstStruck(b, targets, 0).value;
      && r.shot == Kill(b)
      && r.targets == targets[j := Kill(targets[j])]
      && r.hits == [targets[j].pos]
  {
    var hit := if b.alive then FirstStruck(b, targets, 0) else None;
    match hit
    case None => Shot(b, targets, [])
    case Some(j) =>
      CountUpdate(targets, j, Kill(targets[j]), IsAlive);
      Shot(Kill(b), targets[j := Kill(targets[j])], [targets[j].pos])
  }

  /** Every target killed between `targets` and `after` was touched by a
      bullet killed between `shots` and `spent`. */
  predicate KillsTouched(shots: seq<Body>, targets: seq<Body>, spent: seq<Body>, after: seq<Body>)
    requires |spent| == |shots| && |after| == |targets|
  {
    forall j :: 0 <= j < |targets| && targets[j].alive && !after[j].alive ==>
      exists i :: 0 <= i < |shots| && shots[i].alive && !spent[i].alive && Strikes(shots[i], targets[j])
  }

  /** Every bullet killed between `shots` and `spent` touched a target
      killed between `targets` and `after`. */
  predicate SpentOnKills(shots: seq<Body>, targets: seq<Body>, spent: seq<Body>, after: seq<Body>)
    requires |spent| == |shots| && |after| == |targets|
  {
    forall i :: 0 <= i < |shots| && shots[i].alive && !spent[i].alive ==>
      exists j :: 0 <= j < |targets| && !after[j].alive && Strikes(shots[i], targets[j])
  }

  /** Every position in `hits` is that of a target killed between `targets`
      and `after`. */
  predicate HitsAreKills(targets: seq<Body>, after: seq<Body>, hits: seq<Vec2>)
    requires |after| == |targets|
  {
    forall k :: 0 <= k < |hits| ==> KilledAt(targets, after, hits[k])
  }

  /** `p` is the position of a target killed between `targets` and `after`. */
  predicate KilledAt(targets: seq<Body>, after: seq<Body>, p: Vec2)
    requires |after| == |targets|
  {
    exists j :: 0 <= j < |targets| && targets[j].alive && !after[j].alive && p == targets[j].pos
  }

  datatype Volley = Volley(shots: seq<Body>, targets: seq<Body>, hits: seq<Vec2>)

  /** Two passes run back to back: the second fires at what the first left. */
  function Then(x: Volley, y: Volley): Volley
  {
    Volley(x.shots + y.shots, y.targets, x.hits + y.hits)
  }

  /** One bullet-versus-collection pass: each live bullet, in order, kills
      itself and the first live target it touches, then stops scanning.
      `hits` lists the killed targets' positions in kill order.

      The contract says each bullet hits at most one target (as many bullets
      die as targets do, one per hit), that the pass is complete (no bullet
      that is still alive touches a target that is still alive), and that it
      is sound: every target it kills was touched by a bullet it killed, and
      every bullet it kills touched a target it killed. */
  function Fire(shots: seq<Body>, targets: seq<Body>): (r: Volley)
    ensures |r.shots| == |shots| && |r.targets| == |targets|
    ensures forall i :: 0 <= i < |shots| ==> KilledOrSame(shots[i], r.shots[i])
    ensures forall j :: 0 <= j < |targets| ==> KilledOrSame(targets[j], r.targets[j])
    ensures Alive(shots) == Alive(r.shots) + |r.hits|
    ensures Alive(targets) == Alive(r.targets) + |r.hits|
    ensures forall i, j :: 0 <= i < |r.shots| && 0 <= j < |r.targets| && r.shots[i].alive ==>
      !Strikes(r.shots[i], r.targets[j])
    ensures KillsTouched(shots, targets, r.shots, r.targets)
    ensures SpentOnKills(shots, targets, r.shots, r.targets)
    ensures HitsAreKills(targets, r.targets, r.hits)
  {
    PassResolved(shots, targets);
    Pass(shots, targets)
  }

  /** The loop of `Fire` itself: the first bullet's scan, then the rest of
      the bullets at the targets it left. */
  function Pass(shots: seq<Body>, targets: seq<Body>): Volley
    decreases |shots|
  {
    if |shots| == 0 then Volley([], targets, [])
    else
      var first := Shoot(shots[0], targets);
      var rest := Pass(shots[1..], first.targets);
      Volley([first.shot] + rest.shots, rest.targets, first.hits + rest.hits)
  }

  lemma {:induction false} PassResolved(shots: seq<Body>, targets: seq<Body>)
    ensures Resolved(shots, targets, Pass(shots, targets))
    decreases |shots|
  {
    if |shots| > 0 {
      var first := Shoot(shots[0], targets);
      PassResolved(shots[1..], first.targets);
      FireStepAll(shots, targets, first, Pass(shots[1..], first.targets), Pass(shots, targets));
    }
  }

  /** The whole contract of one pass, as one predicate (see `Fire`). */
  predicate Resolved(shots: seq<Body>, targets: seq<Body>, r: Volley)
  {
    && |r.shots| == |shots| && |r.targets| == |targets|
    && (forall i :: 0 <= i < |shots| ==> KilledOrSame(shots[i], r.shots[i]))
    && (forall j :: 0 <= j < |targets| ==> KilledOrSame(targets[j], r.targets[j]))
    && Alive(shots) == Alive(r.shots) + |r.hits|
    && Alive(targets) == Alive(r.targets) + |r.hits|
    && (forall i, j :: 0 <= i < |r.shots| && 0 <= j < |r.targets| && r.shots[i].alive ==>
          !Strikes(r.shots[i], r.targets[j]))
    && KillsTouched(shots, targets, r.shots, r.targets)
    && SpentOnKills(shots, targets, r.shots, r.targets)
    && HitsAreKills(targets, r.targets, r.hits)
  }

  /** One step of `Fire`: the first bullet's scan, then the rest of the pass
      at the targets it left. */
  lemma FireStepAll(shots: seq<Body>, targets: seq<Body>, first: Shot, rest: Volley, r: Volley)
    requires |shots| > 0 && first == Shoot(shots[0], targets)
    requires Resolved(shots[1..], first.targets, rest)
    requires r == Volley([first.shot] + rest.shots, rest.targets, first.hits + rest.hits)
    ensures Resolved(shots, targets, r)
  {
    assert KillsTouched(shots, targets, r.shots, r.targets) by {
      FireTargetsSound(shots, targets, first, rest, r);
    }
    assert SpentOnKills(shots, targets, r.shots, r.targets) by {
      FireShotsSound(shots, targets, first, rest, r);
    }
    assert HitsAreKills(targets, r.targets, r.hits) by {
      FireHitsSound(shots, targets, first, rest, r);
    }
    FireStep(shots, targets, first, rest, r);
  }

  /** `Fire` is the left fold of `Shoot`: one bullet is one scan, and a
      pass over `a + b` is the pass over `a` followed by the pass over `b`
      at the targets `a` left. So each bullet takes the first live target
      it touches among those still alive when its turn comes. */
  lemma FireOne(b: Body, targets: seq<Body>)
    ensures Fire([b], targets) == Volley([Shoot(b, targets).shot], Shoot(b, targets).targets, Shoot(b, targets).hits)
  {
    var first := Shoot(b, targets);
    assert [b][1..] == [];
    assert Pass([b], targets) == Volley([first.shot] + [], first.targets, first.hits + []);
    assert [first.shot] + [] == [first.shot] && first.hits + [] == first.hits;
  }

  /** Firing `a + b` is firing `a`, then `b` at what `a` left. */
  lemma FireAppend(a: seq<Body>, b: seq<Body>, targets: seq<Body>)
    ensures Fire(a + b, targets) == Then(Fire(a, targets), Fire(b, Fire(a, targets).targets))
  {
    PassAppend(a, b, targets);
  }

  lemma {:induction false} PassAppend(a: seq<Body>, b: seq<Body>, targets: seq<Body>)
    ensures Pass(a + b, targets) == Then(Pass(a, targets), Pass(b, Pass(a, targets).targets))
    decreases |a|
  {
    if |a| == 0 {
      assert a + b == b;
    } else {
      var first := Shoot(a[0], targets);
      TailOfAppend(a, b);
      PassAppend(a[1..], b, first.targets);
      ThenCons(first, Pass(a[1..], first.targets), Pass(b, Pass(a[1..], first.targets).targets));
    }
  }

  /** Putting one scan in front of two passes run back to back. */
  lemma ThenCons(f: Shot, x: Volley, y: Volley)
    ensures var z := Then(x, y);
      Volley([f.shot] + z.shots, z.targets, f.hits + z.hits)
        == Then(Volley([f.shot] + x.shots, x.targets, f.hits + x.hits), y)
  {
    AppendAssoc([f.shot], x.shots, y.shots);
    AppendAssoc(f.hits, x.hits, y.hits);
  }

  lemma TailOfAppend<T>(a: seq<T>, b: seq<T>)
    requires |a| > 0
    ensures (a + b)[0] == a[0] && (a + b)[1..] == a[1..] + b
  {
  }

  lemma AppendAssoc<T>(a: seq<T>, b: seq<T>, c: seq<T>)
    ensures a + (b + c) == (a + b) + c
  {
  }

  // The bodies of the greedy-matching example below.
  const GreedyB1 := Body(Vec2(5.0, 0.0), Vec2(0.0, 0.0), 1.0, true)
  const GreedyB2 := Body(Vec2(-10.0, 0.0), Vec2(0.0, 0.0), 1.0, true)
  const GreedyT1 := Body(Vec2(0.0, 0.0), Vec2(0.0, 0.0), 10.0, true)
  const GreedyT2 := Body(Vec2(15.0, 0.0), Vec2(0.0, 0.0), 10.0, true)

  /** Bullet b1 sits 5 from t1 along the x axis: within their combined
      radius 11. */
  lemma B1ReachesT1()
    ensures Strikes(GreedyB1, GreedyT1)
  {
    AxisStrikes(GreedyB1, GreedyT1, 5.0, 25.0, 121.0);
  }

  /** Bullet b1 sits 10 from t2: within 11. */
  lemma B1ReachesT2()
    ensures Strikes(GreedyB1, GreedyT2)
  {
    AxisStrikes(GreedyB1, GreedyT2, -10.0, 100.0, 121.0);
  }

  /** Bullet b2 sits 10 from t1: within 11. */
  lemma B2ReachesT1()
    ensures Strikes(GreedyB2, GreedyT1)
  {
    AxisStrikes(GreedyB2, GreedyT1, -10.0, 100.0, 121.0);
  }

  /** Bullet b2 sits 25 from t2: out of reach. */
  lemma B2MissesT2()
    ensures !Strikes(GreedyB2, GreedyT2)
  {
    AxisStrikes(GreedyB2, GreedyT2, -25.0, 625.0, 121.0);
  }

  /** A bullet and a live target centred on the x axis, `d` apart (`dd`
      squared), strike exactly when `dd` is within `rr`, the square of their
      combined radius. */
  lemma AxisStrikes(b: Body, t: Body, d: real, dd: real, rr: real)
    requires b.pos.y == 0.0 && t.pos.y == 0.0 && t.alive
    requires d == b.pos.x - t.pos.x && dd == d * d && rr == (b.r + t.r) * (b.r + t.r)
    ensures Strikes(b, t) <==> dd <= rr
  {
    assert b.pos.Minus(t.pos) == Vec2(d, 0.0);
  }

  /** The first bullet takes the first target; the second then finds none. */
  lemma GreedyShots()
    ensures Shoot(GreedyB1, [GreedyT1, GreedyT2]).targets == [Kill(GreedyT1), GreedyT2]
    ensures |Shoot(GreedyB1, [GreedyT1, GreedyT2]).hits| == 1
    ensures Shoot(GreedyB2, [Kill(GreedyT1), GreedyT2]).hits == []
  {
    B1ReachesT1();
    B2ReachesT1();
    B2MissesT2();
    assert FirstStruck(GreedyB1, [GreedyT1, GreedyT2], 0) == Some(0);
    var ts := [Kill(GreedyT1), GreedyT2];
    assert !Strikes(GreedyB2, ts[0]) && !Strikes(GreedyB2, ts[1]);
    assert FirstStruck(GreedyB2, ts, 0).None?;
  }

  /** The matching is greedy, not maximal: bullet b1 touches targets t1 and
      t2 and bullet b2 touches only t1. b1 takes t1 (its first), so b2 finds
      nothing left and the pass scores one hit where two were possible. */
  lemma GreedyFirstHitExample()
    ensures Strikes(GreedyB1, GreedyT1) && Strikes(GreedyB1, GreedyT2)
    ensures Strikes(GreedyB2, GreedyT1) && !Strikes(GreedyB2, GreedyT2)
    ensures |Fire([GreedyB1, GreedyB2], [GreedyT1, GreedyT2]).hits| == 1
  {
    B1ReachesT1();
    B1ReachesT2();
    B2ReachesT1();
    B2MissesT2();
    GreedyShots();
    FireAppend([GreedyB1], [GreedyB2], [GreedyT1, GreedyT2]);
    PairIsAppend(GreedyB1, GreedyB2);
    FireOne(GreedyB1, [GreedyT1, GreedyT2]);
    FireOne(GreedyB2, [Kill(GreedyT1), GreedyT2]);
  }

  lemma PairIsAppend<T>(x: T, y: T)
    ensures [x] + [y] == [x, y]
  {
  }

  /** One step of `Fire` for the hit list: each recorded hit is the position
      of a target the pass killed. */
  lemma FireHitsSound(shots: seq<Body>, targets: seq<Body>, first: Shot, rest: Volley, r: Volley)
    requires |shots| > 0 && first == Shoot(shots[0], targets)
    requires |rest.targets| == |targets|
    requires forall j :: 0 <= j < |targets| ==> KilledOrSame(first.targets[j], rest.targets[j])
    requires HitsAreKills(first.targets, rest.targets, rest.hits)
    requires r == Volley([first.shot] + rest.shots, rest.targets, first.hits + rest.hits)
    ensures HitsAreKills(targets, r.targets, r.hits)
  {
    forall k | 0 <= k < |r.hits|
      ensures KilledAt(targets, r.targets, r.hits[k])
    {
      if k < |first.hits| {
        assert first.hits != [] && r.hits[k] == first.hits[k];
        var j := FirstStruck(shots[0], targets, 0).value;
        assert r.hits[k] == targets[j].pos;
        assert !first.targets[j].alive && KilledOrSame(first.targets[j], rest.targets[j]);
        assert targets[j].alive && !r.targets[j].alive;
      } else {
        assert r.hits[k] == rest.hits[k - |first.hits|];
        var j :| 0 <= j < |targets| && first.targets[j].alive && !rest.targets[j].alive
                 && rest.hits[k - |first.hits|] == first.targets[j].pos;
        assert first.targets[j] == targets[j];
        assert targets[j].alive && !r.targets[j].alive && r.hits[k] == targets[j].pos;
      }
    }
  }

  lemma FireStep(shots: seq<Body>, targets: seq<Body>, first: Shot, rest: Volley, r: Volley)
    requires |shots| > 0 && first == Shoot(shots[0], targets)
    requires |rest.shots| == |shots| - 1 && |rest.targets| == |targets|
    requires forall i :: 0 <= i < |shots| - 1 ==> KilledOrSame(shots[1..][i], rest.shots[i])
    requires forall j :: 0 <= j < |targets| ==> KilledOrSame(first.targets[j], rest.targets[j])
    requires Alive(shots[1..]) == Alive(rest.shots) + |rest.hits|
    requires Alive(first.targets) == Alive(rest.targets) + |rest.hits|
    requires forall i, j :: 0 <= i < |rest.shots| && 0 <= j < |rest.targets| && rest.shots[i].alive ==>
      !Strikes(rest.shots[i], rest.targets[j])
    requires r == Volley([first.shot] + rest.shots, rest.targets, first.hits + rest.hits)
    ensures |r.shots| == |shots| && |r.targets| == |targets|
    ensures forall i :: 0 <= i < |shots| ==> KilledOrSame(shots[i], r.shots[i])
    ensures forall j :: 0 <= j < |targets| ==> KilledOrSame(targets[j], r.targets[j])
    ensures Alive(shots) == Alive(r.shots) + |r.hits|
    ensures Alive(targets) == Alive(r.targets) + |r.hits|
    ensures forall i, j :: 0 <= i < |r.shots| && 0 <= j < |r.targets| && r.shots[i].alive ==>
      !Strikes(r.shots[i], r.targets[j])
  {
    assert r.shots[1..] == rest.shots;
    forall i | 1 <= i < |shots|
      ensures KilledOrSame(shots[i], r.shots[i])
    {
      assert shots[i] == shots[1..][i - 1] && r.shots[i] == rest.shots[i - 1];
    }
    forall i, j | 0 <= i < |r.shots| && 0 <= j < |r.targets| && r.shots[i].alive
      ensures !Strikes(r.shots[i], r.targets[j])
    {
      if i > 0 {
        assert r.shots[i] == rest.shots[i - 1];
      } else if r.targets[j].alive {
        assert first.targets == targets;
        assert r.targets[j] == targets[j];
      }
    }
  }

  /** Soundness of one step of `Fire` for targets: every target the whole
      pass kills was touched by a bullet the pass killed. */
  lemma FireTargetsSound(shots: seq<Body>, targets: seq<Body>, first: Shot, rest: Volley, r: Volley)
    requires |shots| > 0 && first == Shoot(shots[0], targets)
    requires |rest.shots| == |shots| - 1 && |rest.targets| == |targets|
    requires KillsTouched(shots[1..], first.targets, rest.shots, rest.targets)
    requires r == Volley([first.shot] + rest.shots, rest.targets, first.hits + rest.hits)
    ensures KillsTouched(shots, targets, r.shots, r.targets)
  {
    forall j | 0 <= j < |targets| && targets[j].alive && !r.targets[j].alive
      ensures exists i :: 0 <= i < |shots| && shots[i].alive && !r.shots[i].alive && Strikes(shots[i], targets[j])
    {
      if !first.targets[j].alive {
        // the first bullet made this kill
        assert r.shots[0] == first.shot == Kill(shots[0]);
        assert Strikes(shots[0], targets[j]);
      } else {
        assert first.targets[j] == targets[j];
        var i :| 0 <= i < |shots| - 1 && shots[1..][i].alive && !rest.shots[i].alive && Strikes(shots[1..][i], first.targets[j]);
        assert shots[i + 1] == shots[1..][i] && r.shots[i + 1] == rest.shots[i];
      }
    }
  }

  /** Soundness of one step of `Fire` for bullets: every bullet the whole
      pass kills touched a target the pass killed. */
  lemma FireShotsSound(shots: seq<Body>, targets: seq<Body>, first: Shot, rest: Volley, r: Volley)
    requires |shots| > 0 && first == Shoot(shots[0], targets)
    requires |rest.shots| == |shots| - 1 && |rest.targets| == |targets|
    requires forall j :: 0 <= j < |targets| ==> KilledOrSame(first.targets[j], rest.targets[j])
    requires SpentOnKills(shots[1..], first.targets, rest.shots, rest.targets)
    requires r == Volley([first.shot] + rest.shots, rest.targets, first.hits + rest.hits)
    ensures SpentOnKills(shots, targets, r.shots, r.targets)
  {
    forall i | 0 <= i < |shots| && shots[i].alive && !r.shots[i].alive
      ensures exists j :: 0 <= j < |targets| && !r.targets[j].alive && Strikes(shots[i], targets[j])
    {
      if i == 0 {
        var k := FirstStruck(shots[0], targets, 0).value;
        assert !first.targets[k].alive && KilledOrSame(first.targets[k], rest.targets[k]);
        assert !r.targets[k].alive && Strikes(shots[0], targets[k]);
      } else {
        assert shots[i] == shots[1..][i - 1] && r.shots[i] == rest.shots[i - 1];
        var j :| 0 <= j < |targets| && !rest.targets[j].alive && Strikes(shots[1..][i - 1], first.targets[j]);
        assert first.targets[j] == targets[j];
      }
    }
  }

  datatype BossVolley = BossVolley(shots: seq<Body>, boss: Boss, striker: Option<nat>)

  /** The first live bullet whose disc touches the boss. */
  function FirstStriker(shots: seq<Body>, boss: Body, from: nat): (r: Option<nat>)
    requires from <= |shots|
    ensures r.Some? ==>
      from <= r.value < |shots| && shots[r.value].alive && Touching(shots[r.value].pos, shots[r.value].r, boss.pos, boss.r)
    ensures r.Some? ==> forall k :: from <= k < r.value ==>
      !(shots[k].alive && Touching(shots[k].pos, shots[k].r, boss.pos, boss.r))
    ensures r.None? ==> forall k :: from <= k < |shots| ==>
      !(shots[k].alive && Touching(shots[k].pos, shots[k].r, boss.pos, boss.r))
    decreases |shots| - from
  {
    if from == |shots| then None
    else if shots[from].alive && Touching(shots[from].pos, shots[from].r, boss.pos, boss.r) then Some(from)
    else FirstStriker(shots, boss, from + 1)
  }

  /** HP after one hit: damage, clamped at zero. */
  function Damaged(hp: int): (r: int)
    ensures r >= 0
    ensures r == 0 || r == hp - BossDamagePerHit
    ensures r > 0 <==> hp > BossDamagePerHit
  {
    if hp - BossDamagePerHit <= 0 then 0 else hp - BossDamagePerHit
  }

  /** Bullets against the boss: the first live bullet touching it dies and
      deals one hit, then the scan stops, so at most one bullet damages the
      boss per frame. A hit that brings HP to zero or below clamps it to 0
      and kills the boss. The striker is exactly the first live bullet
      whose disc touches the boss. */
  function BossFire(shots: seq<Body>, boss: Boss): (r: BossVolley)
    ensures r.striker == FirstStriker(shots, boss.body, 0)
    ensures |r.shots| == |shots| && r.boss.maxHp == boss.maxHp
    ensures r.striker.None? ==> r.shots == shots && r.boss == boss
    ensures r.striker.None? ==> forall k :: 0 <= k < |shots| ==>
      !(shots[k].alive && Touching(shots[k].pos, shots[k].r, boss.body.pos, boss.body.r))
    ensures r.striker.Some? ==>
      var j := r.striker.value;
      && j < |shots| && shots[j].alive
      && r.shots == shots[j := Kill(shots[j])]
      && r.boss.hp == Damaged(boss.hp)
      && r.boss.body == (if boss.hp - BossDamagePerHit <= 0 then Kill(boss.body) else boss.body)
    ensures Alive(r.shots) + (if r.striker.Some? then 1 else 0) == Alive(shots)
  {
    match FirstStriker(shots, boss.body, 0)
    case None => BossVolley(shots, boss, None)
    case Some(j) =>
      CountUpdate(shots, j, Kill(shots[j]), IsAlive);
      var hp := boss.hp - BossDamagePerHit;
      var b := if hp <= 0 then boss.(hp := 0, body := Kill(boss.body)) else boss.(hp := hp);
      BossVolley(shots[j := Kill(shots[j])], b, Some(j))
  }

  /** A live hostile body whose disc touches the player's. */
  predicate Rams(a: Body, pos: Vec2, r: real)
  {
    a.alive && Touching(a.pos, a.r, pos, r)
  }

  /** Reference definition of a hazard pass's hits: the positions of the
      bodies that ram the player, in collection order. */
  function HitsOf(bodies: seq<Body>, pos: Vec2, r: real): (h: seq<Vec2>)
    ensures |h| <= |bodies|
    decreases |bodies|
  {
    if |bodies| == 0 then []
    else (if Rams(bodies[0], pos, r) then [bodies[0].pos] else []) + HitsOf(bodies[1..], pos, r)
  }

  /** Some body of the collection rams the player. */
  predicate Endangers(bodies: seq<Body>, pos: Vec2, r: real)
  {
    exists i :: 0 <= i < |bodies| && Rams(bodies[i], pos, r)
  }

  /** A pass scores a hit exactly when some body rams the player. */
  lemma {:induction false} HitsOfEmpty(bodies: seq<Body>, pos: Vec2, r: real)
    ensures HitsOf(bodies, pos, r) != [] <==> Endangers(bodies, pos, r)
    decreases |bodies|
  {
    if |bodies| > 0 {
      HitsOfEmpty(bodies[1..], pos, r);
      assert forall i :: 1 <= i < |bodies| ==> bodies[i] == bodies[1..][i - 1];
    }
  }

  datatype RamPass = RamPass(bodies: seq<Body>, hits: seq<Vec2>)

  /** Hostile bodies against the player: every live body whose disc touches
      the player's dies (no break here), every other body is left exactly as
      it was, and `hits` lists the rammers' positions in order; the caller
      applies one player hit per entry. */
  function Ram(bodies: seq<Body>, pos: Vec2, r: real): (res: RamPass)
    ensures |res.bodies| == |bodies|
    ensures forall i :: 0 <= i < |bodies| ==>
      res.bodies[i] == (if Rams(bodies[i], pos, r) then Kill(bodies[i]) else bodies[i])
    ensures forall i :: 0 <= i < |res.bodies| && res.bodies[i].alive ==>
      !Touching(res.bodies[i].pos, res.bodies[i].r, pos, r)
    ensures res.hits == HitsOf(bodies, pos, r)
    ensures Alive(bodies) == Alive(res.bodies) + |res.hits|
    decreases |bodies|
  {
    if |bodies| == 0 then RamPass([], [])
    else
      var a := bodies[0];
      var rest := Ram(bodies[1..], pos, r);
      var hit := Rams(a, pos, r);
      var res := RamPass([if hit then Kill(a) else a] + rest.bodies, (if hit then [a.pos] else []) + rest.hits);
      assert res.bodies[1..] == rest.bodies;
      assert forall i :: 1 <= i < |bodies| ==> bodies[i] == bodies[1..][i - 1];
      res
  }
}

=== FILE: config.dfy ===
/** Tuning constants, the difficulty and power-up enumerations, plane vectors
    and the squared-distance helper used by every collision test. */
module Config {

  // Player
  const PlayerSpeed: real := 180.0
  const PlayerRadius: real := 30.0
  const PlayerStartingLives: int := 3
  const InvincibilityDuration: real := 2.0

  // Bullets. The spawners use a radius of 4, not BulletRadius.
  const BulletRadius: real := 6.0
  const SpawnedBulletRadius: real := 4.0
  const PlayerBulletSpeed: real := 350.0
  const EnemyBulletSpeed: real := 220.0
  const BossBulletSpeed: real := 260.0
  const PlayerFireCooldown: real := 0.30
  const EnemyFireCooldown: real := 1.5
  const BossFireCooldown: real := 1.0

  // Enemies and boss
  const EnemyRadius: real := 20.0
  const BossMaxHp: int := 200
  const BossRadius: real := 60.0
  const BossDamagePerHit: int := 5

  // Scoring
  const ScoreAsteroid: int := 5
  const ScoreEnemy: int := 10
  const ScoreBossHit: int := 25

  // Levels
  const Level1Duration: real := 25.0
  const Level2KillTarget: int := 15
  const MaxEnemiesOnScreen: int := 4

  // Explosions
  const ExplosionAsteroidDuration: real := 0.25
  const ExplosionShipDuration: real := 0.35

  // Power-ups
  const PowerUpSpawnChance: real := 0.15
  const PowerUpSpeed: real := 80.0
  const PowerUpRadius: real := 15.0
  const PowerUpDuration: real := 8.0
  const SpeedBoostMultiplier: real := 1.5
  const DoubleShotSpread: real := 15.0

  // Screen shake
  const ShakeIntensitySmall: real := 3.0
  const ShakeIntensityMedium: real := 6.0
  const ShakeIntensityLarge: real := 10.0
  const ShakeDurationShort: real := 0.15
  const ShakeDurationMedium: real := 0.3

  // Difficulty multipliers
  const DifficultyEasyMult: real := 0.7
  const DifficultyNormalMult: real := 1.0
  const DifficultyHardMult: real := 1.4

  // Asteroids
  const AsteroidRadiusMin: real := 24.0
  const AsteroidRadiusMax: real := 40.0

  /** The constants the rules rely on: a fresh hit or pickup is active at
      once, the kill target and enemy ceiling are positive, and the asteroid
      radius range is not empty. */
  lemma ConfigSanity()
    ensures InvincibilityDuration > 0.0 && PowerUpDuration > 0.0
    ensures Level2KillTarget > 0 && MaxEnemiesOnScreen > 0
    ensures AsteroidRadiusMin <= AsteroidRadiusMax
    ensures BossDamagePerHit > 0 && ScoreAsteroid > 0 && ScoreEnemy > 0 && ScoreBossHit > 0
  {
  }

  // ---------------------------------------------------------------------
  // Difficulty
  // ---------------------------------------------------------------------

  datatype Difficulty = Easy | Normal | Hard

  /** Position of a difficulty in the selector, left to right. */
  function Rank(d: Difficulty): nat
  {
    match d
    case Easy => 0
    case Normal => 1
    case Hard => 2
  }

  /** Scale applied to the asteroid spawn frequency. */
  function Multiplier(d: Difficulty): (m: real)
    ensures m > 0.0
  {
    match d
    case Easy => DifficultyEasyMult
    case Normal => DifficultyNormalMult
    case Hard => DifficultyHardMult
  }

  /** Harder difficulties have strictly larger multipliers. */
  lemma MultiplierIncreasing(d1: Difficulty, d2: Difficulty)
    ensures Rank(d1) < Rank(d2) <==> Multiplier(d1) < Multiplier(d2)
  {
  }

  /** Seconds between two asteroid spawns at the given base rate. */
  function SpawnInterval(rate: real, d: Difficulty): real
  {
    rate / Multiplier(d)
  }

  /** A positive base rate gives a positive interval, and a harder difficulty
      gives a strictly shorter one. */
  lemma {:induction false} SpawnIntervalShrinks(rate: real, d1: Difficulty, d2: Difficulty)
    requires rate > 0.0
    ensures SpawnInterval(rate, d1) > 0.0
    ensures Rank(d1) < Rank(d2) ==> SpawnInterval(rate, d2) < SpawnInterval(rate, d1)
  {
    var m1, m2 := Multiplier(d1), Multiplier(d2);
    assert rate / m1 > 0.0 by { DivPositive(rate, m1); }
    if Rank(d1) < Rank(d2) {
      MultiplierIncreasing(d1, d2);
      DivAntitone(rate, m1, m2);
    }
  }

  lemma DivPositive(a: real, m: real)
    requires a > 0.0 && m > 0.0
    ensures a / m > 0.0
  {
  }

  lemma DivAntitone(a: real, m1: real, m2: real)
    requires a > 0.0 && 0.0 < m1 < m2
    ensures a / m2 < a / m1
  {
    DivPositive(a, m2);
  }

  // ---------------------------------------------------------------------
  // Power-up kinds
  // ---------------------------------------------------------------------

  datatype PowerUpKind = DoubleShot | SpeedBoost | Shield | ExtraLife

  /** The values a uniform draw over 0..3 can produce. */
  type KindIndex = i: int | 0 <= i < 4

  /** Ordinal of a kind in declaration order. */
  function KindOrdinal(k: PowerUpKind): KindIndex
  {
    match k
    case DoubleShot => 0
    case SpeedBoost => 1
    case Shield => 2
    case ExtraLife => 3
  }

  /** The cast from a drawn index to a kind; total on 0..3. */
  function KindFromIndex(i: KindIndex): (k: PowerUpKind)
    ensures KindOrdinal(k) == i
  {
    if i == 0 then DoubleShot
    else if i == 1 then SpeedBoost
    else if i == 2 then Shield
    else ExtraLife
  }

  /** Every kind is reachable from exactly one index. */
  lemma KindIndexRoundTrip(k: PowerUpKind, i: KindIndex)
    ensures KindFromIndex(KindOrdinal(k)) == k
    ensures KindFromIndex(i) == k <==> KindOrdinal(k) == i
  {
  }

  // ---------------------------------------------------------------------
  // Plane geometry
  // ---------------------------------------------------------------------

  datatype Vec2 = Vec2(x: real, y: real)
  {
    function Plus(o: Vec2): Vec2 { Vec2(x + o.x, y + o.y) }
    function Minus(o: Vec2): Vec2 { Vec2(x - o.x, y - o.y) }
    function Times(k: real): Vec2 { Vec2(x * k, y * k) }
  }

  function Sq(a: real): (r: real)
    ensures r >= 0.0
  {
    a * a
  }

  /** Squared Euclidean distance between two points. */
  function Dist2(a: Vec2, b: Vec2): (r: real)
    ensures r >= 0.0
    ensures a == b ==> r == 0.0
  {
    var d := a.Minus(b);
    Sq(d.x) + Sq(d.y)
  }

  lemma Dist2Symmetric(a: Vec2, b: Vec2)
    ensures Dist2(a, b) == Dist2(b, a)
  {
    assert Sq(a.x - b.x) == Sq(b.x - a.x);
    assert Sq(a.y - b.y) == Sq(b.y - a.y);
  }

  lemma SquareMonotone(a: real, b: real)
    requires 0.0 <= a && 0.0 <= b
    ensures a <= b <==> a * a <= b * b
  {
    if a < b {
      SquareStrict(a, b);
    } else if b < a {
      SquareStrict(b, a);
    }
  }

  lemma SquareStrict(b: real, a: real)
    requires 0.0 <= b < a
    ensures b * b < a * a
  {
    var d := a - b;
    assert a * a == b * b + 2.0 * b * d + d * d;
    assert d * d > 0.0;
    assert b * d >= 0.0;
  }

  /** The squared test `Dist2 <= R*R` accepts exactly the pairs whose distance
      `d` (the non-negative root of Dist2) is at most `R`; contact at the
      boundary counts. */
  lemma {:induction false} ContactIffWithin(a: Vec2, b: Vec2, d: real, range: real)
    requires d >= 0.0 && range >= 0.0
    requires d * d == Dist2(a, b)
    ensures Dist2(a, b) <= range * range <==> d <= range
  {
    SquareMonotone(d, range);
  }
}

=== FILE: entities.dfy ===
/** Entity records, their kinematics, the spawn constructors, and the
    counting and compaction discipline shared by every entity collection. */
module Entities {
  import opened Config

  /** The circular body shared by asteroids, bullets, enemies and enemy
      bullets: a position, a velocity, a collision radius and a liveness
      flag. A dead body takes no further part in the frame and is removed
      when the frame ends. */
  datatype Body = Body(pos: Vec2, vel: Vec2, r: real, alive: bool)

  predicate IsAlive(b: Body) { b.alive }

  function Kill(b: Body): Body { b.(alive := false) }

  datatype PowerUp = PowerUp(body: Body, kind: PowerUpKind)

  predicate PowerUpAlive(p: PowerUp) { p.body.alive }

  datatype Boss = Boss(body: Body, hp: int, maxHp: int)

  datatype Player = Player(pos: Vec2, speed: real, r: real, lives: int, invincibleTimer: real)

  /** What the player's own update and reset code (not part of this model)
      may change: the position and the invincibility countdown. */
  datatype Pose = Pose(pos: Vec2, invincibleTimer: real)

  /** Explosions are presentation only; they live until their timer runs out. */
  datatype Explosion = Explosion(pos: Vec2, timer: real, maxTime: real)

  predicate Burning(e: Explosion) { e.timer > 0.0 }

  // ---------------------------------------------------------------------
  // Random draws, taken as inputs
  // ---------------------------------------------------------------------

  datatype AsteroidDraw = AsteroidDraw(x: real, vx: real, vy: real, r: real)
  datatype EnemyDraw = EnemyDraw(x: real, vx: real, vy: real)
  /** A power-up drop roll: the drop happens when `chance` is at most the
      spawn chance, and then `kind` is the drawn type index. */
  datatype DropDraw = DropDraw(chance: real, kind: KindIndex)

  // ---------------------------------------------------------------------
  // Spawn constructors
  // ---------------------------------------------------------------------

  function NewAsteroid(d: AsteroidDraw): Body
  {
    Body(Vec2(d.x, -30.0), Vec2(d.vx, d.vy), d.r, true)
  }

  function NewEnemy(d: EnemyDraw): Body
  {
    Body(Vec2(d.x, -40.0), Vec2(d.vx, d.vy), EnemyRadius, true)
  }

  function NewBullet(pos: Vec2): Body
  {
    Body(pos, Vec2(0.0, -PlayerBulletSpeed), SpawnedBulletRadius, true)
  }

  function NewEnemyBullet(pos: Vec2): Body
  {
    Body(pos, Vec2(0.0, EnemyBulletSpeed), SpawnedBulletRadius, true)
  }

  function NewBossBullet(pos: Vec2): Body
  {
    Body(pos, Vec2(0.0, BossBulletSpeed), SpawnedBulletRadius, true)
  }

  function NewPowerUp(pos: Vec2, kind: PowerUpKind): PowerUp
  {
    PowerUp(Body(pos, Vec2(0.0, PowerUpSpeed), PowerUpRadius, true), kind)
  }

  function NewExplosion(pos: Vec2, duration: real): Explosion
  {
    Explosion(pos, duration, duration)
  }

  // ---------------------------------------------------------------------
  // Kinematics
  // ---------------------------------------------------------------------

  /** True when a body's top edge is more than `margin` below the bottom of
      a screen `screenH` pixels high. */
  predicate PastBottom(pos: Vec2, r: real, screenH: int, margin: real)
  {
    pos.y - r > screenH as real + margin
  }

  /** Asteroid::Update: move by velocity times dt, then die once past the
      bottom edge by the minimum asteroid radius. */
  function AsteroidUpdate(a: Body, dt: real, screenH: int): Body
  {
    var p := a.pos.Plus(a.vel.Times(dt));
    a.(pos := p, alive := a.alive && !PastBottom(p, a.r, screenH, AsteroidRadiusMin))
  }

  /** PowerUp::Update: the same shape with a fixed margin of 20 pixels. */
  function PowerUpUpdate(p: PowerUp, dt: real, screenH: int): PowerUp
  {
    var q := p.body.pos.Plus(p.body.vel.Times(dt));
    p.(body := p.body.(pos := q, alive := p.body.alive && !PastBottom(q, p.body.r, screenH, 20.0)))
  }

  /** What an asteroid update does: it displaces by exactly `vel * dt`, keeps
      velocity and radius, never revives, and kills exactly when the asteroid
      has left through the bottom; an asteroid above the bottom edge (left
      through the top or a side, or still on screen) stays alive. */
  lemma AsteroidUpdateRules(a: Body, dt: real, screenH: int)
    ensures var u := AsteroidUpdate(a, dt, screenH);
      && u.pos.x - a.pos.x == a.vel.x * dt
      && u.pos.y - a.pos.y == a.vel.y * dt
      && u.vel == a.vel && u.r == a.r
      && (u.alive ==> a.alive)
      && (a.alive && !u.alive <==> a.alive && u.pos.y > screenH as real + AsteroidRadiusMin + a.r)
      && (a.alive && a.r >= 0.0 && screenH >= 0 && u.pos.y <= screenH as real ==> u.alive)
  {
  }

  /** Horizontal position and velocity play no part in asteroid liveness. */
  lemma AsteroidLivenessIgnoresX(a: Body, b: Body, dt: real, screenH: int)
    requires a.pos.y == b.pos.y && a.vel.y == b.vel.y && a.r == b.r && a.alive == b.alive
    ensures AsteroidUpdate(a, dt, screenH).alive == AsteroidUpdate(b, dt, screenH).alive
  {
  }

  /** The power-up update has the same shape: displacement `vel * dt`, no
      revival, death only past the bottom edge (margin 20), kind unchanged. */
  lemma PowerUpUpdateRules(p: PowerUp, dt: real, screenH: int)
    ensures var u := PowerUpUpdate(p, dt, screenH);
      && u.body.pos.x - p.body.pos.x == p.body.vel.x * dt
      && u.body.pos.y - p.body.pos.y == p.body.vel.y * dt
      && u.body.vel == p.body.vel && u.body.r == p.body.r && u.kind == p.kind
      && (u.body.alive ==> p.body.alive)
      && (p.body.alive && !u.body.alive <==> p.body.alive && u.body.pos.y > screenH as real + 20.0 + p.body.r)
  {
  }

  // ---------------------------------------------------------------------
  // Counting and compaction
  // ---------------------------------------------------------------------

  /** Number of elements of `s` satisfying `keep`. */
  function Count<T>(s: seq<T>, keep: T -> bool): nat
  {
    if |s| == 0 then 0 else (if keep(s[0]) then 1 else 0) + Count(s[1..], keep)
  }

  /** Number of live bodies. */
  function Alive(s: seq<Body>): nat
  {
    Count(s, IsAlive)
  }

  lemma {:induction false} CountBound<T>(s: seq<T>, keep: T -> bool)
    ensures Count(s, keep) <= |s|
    ensures Count(s, keep) == |s| <==> forall i :: 0 <= i < |s| ==> keep(s[i])
  {
    if |s| > 0 {
      CountBound(s[1..], keep);
      if !keep(s[0]) {
        assert !(forall i :: 0 <= i < |s| ==> keep(s[i]));
      }
      assert (forall i :: 0 <= i < |s| ==> keep(s[i])) <==>
        keep(s[0]) && (forall i :: 0 <= i < |s[1..]| ==> keep(s[1..][i]));
    }
  }

  lemma {:induction false} CountAppend<T>(a: seq<T>, b: seq<T>, keep: T -> bool)
    ensures Count(a + b, keep) == Count(a, keep) + Count(b, keep)
  {
    if |a| > 0 {
      assert (a + b)[1..] == a[1..] + b;
      CountAppend(a[1..], b, keep);
    } else {
      assert a + b == b;
    }
  }

  /** Replacing one element changes the count by the difference of the two
      elements' memberships. */
  lemma {:induction false} CountUpdate<T>(s: seq<T>, j: nat, x: T, keep: T -> bool)
    requires j < |s|
    ensures Count(s[j := x], keep) + (if keep(s[j]) then 1 else 0)
         == Count(s, keep) + (if keep(x) then 1 else 0)
  {
    if j == 0 {
      assert s[j := x][1..] == s[1..];
    } else {
      assert s[j := x][1..] == s[1..][j - 1 := x];
      CountUpdate(s[1..], j - 1, x, keep);
    }
  }

  /** Compaction: the elements satisfying `keep`, in their original order. */
  function Filter<T>(s: seq<T>, keep: T -> bool): (r: seq<T>)
    ensures |r| == Count(s, keep)
    ensures forall i :: 0 <= i < |r| ==> keep(r[i])
    ensures forall i :: 0 <= i < |r| ==> r[i] in s
    ensures forall i :: 0 <= i < |s| && keep(s[i]) ==> s[i] in r
  {
    if |s| == 0 then []
    else
      var rest := Filter(s[1..], keep);
      assert forall i :: 1 <= i < |s| ==> s[i] == s[1..][i - 1];
      if keep(s[0]) then [s[0]] + rest else rest
  }

  /** Compaction distributes over concatenation: together with the one-element
      case this pins the survivors to their original relative order. */
  lemma {:induction false} FilterAppend<T>(a: seq<T>, b: seq<T>, keep: T -> bool)
    ensures Filter(a + b, keep) == Filter(a, keep) + Filter(b, keep)
  {
    if |a| == 0 {
      assert a + b == b;
    } else {
      assert (a + b)[1..] == a[1..] + b;
      FilterAppend(a[1..], b, keep);
    }
  }

  /** A collection whose every element survives is left as it is; in
      particular compaction is idempotent. */
  lemma {:induction false} FilterKeepsSurvivors<T>(s: seq<T>, keep: T -> bool)
    requires forall i :: 0 <= i < |s| ==> keep(s[i])
    ensures Filter(s, keep) == s
  {
    if |s| > 0 {
      FilterKeepsSurvivors(s[1..], keep);
    }
  }

  lemma FilterIdempotent<T>(s: seq<T>, keep: T -> bool)
    ensures Filter(Filter(s, keep), keep) == Filter(s, keep)
  {
    FilterKeepsSurvivors(Filter(s, keep), keep);
  }

  /** Compacting a body collection keeps exactly its live members: the live
      count is unchanged and every survivor is alive. */
  lemma CompactKeepsLive(s: seq<Body>)
    ensures Alive(Filter(s, IsAlive)) == Alive(s) == |Filter(s, IsAlive)|
  {
    CountBound(Filter(s, IsAlive), IsAlive);
  }

  /** Apply an entity's own update to its live members only, as the frame
      loop does (`if (x.alive) x.Update(...)`). The update may kill but the
      dead are left untouched, so the live count never grows. */
  function AdvanceLive(s: seq<Body>, step: Body -> Body): (r: seq<Body>)
    ensures |r| == |s|
    ensures forall i :: 0 <= i < |s| ==> r[i] == (if s[i].alive then step(s[i]) else s[i])
    ensures Alive(r) <= Alive(s)
  {
    if |s| == 0 then []
    else
      var rest := AdvanceLive(s[1..], step);
      var r := [if s[0].alive then step(s[0]) else s[0]] + rest;
      assert r[1..] == rest;
      r
  }

  function AdvanceAsteroids(s: seq<Body>, dt: real, screenH: int): (r: seq<Body>)
    ensures |r| == |s|
    ensures forall i :: 0 <= i < |s| ==> r[i] == (if s[i].alive then AsteroidUpdate(s[i], dt, screenH) else s[i])
  {
    AdvanceLive(s, a => AsteroidUpdate(a, dt, screenH))
  }

  function AdvancePowerUps(s: seq<PowerUp>, dt: real, screenH: int): (r: seq<PowerUp>)
    ensures |r| == |s|
    ensures forall i :: 0 <= i < |s| ==> r[i] == (if s[i].body.alive then PowerUpUpdate(s[i], dt, screenH) else s[i])
  {
    if |s| == 0 then []
    else [if s[0].body.alive then PowerUpUpdate(s[0], dt, screenH) else s[0]] + AdvancePowerUps(s[1..], dt, screenH)
  }

  /** Every explosion's timer runs down by dt. */
  function AgeExplosions(s: seq<Explosion>, dt: real): (r: seq<Explosion>)
    ensures |r| == |s|
    ensures forall i :: 0 <= i < |s| ==> r[i] == s[i].(timer := s[i].timer - dt)
  {
    if |s| == 0 then [] else [s[0].(timer := s[0].timer - dt)] + AgeExplosions(s[1..], dt)
  }
}

=== FILE: frame.dfy ===
/** One PLAYING frame (updateCurrentLevel) as a chain of phases in the
    source's order: clocks and buffs, player movement, auto-fire, asteroid
    spawning, power-up motion, enemy spawning, entity updates, enemy and boss
    fire, explosion ageing, the eight collision passes, and compaction. */
module Frame {
  import opened Config
  import opened Entities
  import opened Collision
  import opened PowerUps
  import opened Story
  import opened Session

  /** The random draws of one frame. The k-th enemy killed by a bullet in
      this frame rolls `drops(k)` for its power-up drop. */
  datatype Draws = Draws(asteroid: AsteroidDraw, enemy: EnemyDraw, drops: nat -> DropDraw)

  datatype Input = Input(keys: Keys, dt: real, draws: Draws)

  /** Enemies spawned this level that are neither killed by a bullet nor
      still alive: the enemy ledger holds when this is not negative. */
  function Slack(s: Session): int
  {
    s.stats.totalEnemySpawn - s.stats.enemiesKilled - Alive(s.world.enemies)
  }

  /** What every phase of the frame keeps: level and difficulty, a score,
      kill count and high score that never go down, a ledger slack that never
      shrinks, and no state change except into the defeat story. */
  predicate Keeps(s: Session, r: Session)
  {
    && r.level == s.level && r.difficulty == s.difficulty
    && r.stats.score >= s.stats.score
    && r.stats.enemiesKilled >= s.stats.enemiesKilled
    && r.stats.highScore >= s.stats.highScore
    && r.stats.totalEnemySpawn >= s.stats.totalEnemySpawn
    && Slack(r) >= Slack(s)
    && (r.state == s.state || r.state == StoryGameOver)
  }

  /** The phases that touch neither the player nor the enemy ledger. */
  predicate Quiet(s: Session, r: Session)
  {
    && Keeps(s, r) && r.player == s.player && r.buffs == s.buffs && r.state == s.state
    && r.stats.totalEnemySpawn == s.stats.totalEnemySpawn && r.boss == s.boss
  }

  // ---------------------------------------------------------------------
  // Clocks, movement, spawning
  // ---------------------------------------------------------------------

  /** The level clock and updatePowerUpTimers: the clock advances by dt,
      the three buffs and the shake count down, and nothing else changes. */
  function Clocks(s: Session, dt: real): (r: Session)
    ensures Quiet(s.(buffs := r.buffs), r)
    ensures r == s.(timers := r.timers, buffs := r.buffs, shake := r.shake)
    ensures r.timers == s.timers.(levelTime := s.timers.levelTime + dt)
    ensures r.buffs == TickBuffs(s.buffs, dt) && r.shake == TickShake(s.shake, dt)
  {
    s.(timers := s.timers.(levelTime := s.timers.levelTime + dt),
       buffs := TickBuffs(s.buffs, dt), shake := TickShake(s.shake, dt))
  }

  /** The speed the player's own update sees this frame. */
  function MoveSpeed(b: Buffs): (v: real)
    ensures Active(b, SpeedBoost) ==> v == PlayerSpeed * SpeedBoostMultiplier
    ensures !Active(b, SpeedBoost) ==> v == PlayerSpeed
  {
    if Active(b, SpeedBoost) then PlayerSpeed * SpeedBoostMultiplier else PlayerSpeed
  }

  /** Player::Update runs with the boosted speed; the stored speed is then
      restored, so only position and invincibility countdown change, both
      as the update left them. */
  function MovePlayer(s: Session, k: Keys, dt: real, u: Unseen): (r: Session)
    ensures Quiet(s.(player := r.player), r)
    ensures r == s.(player := r.player)
    ensures r.player.lives == s.player.lives && r.player.speed == s.player.speed && r.player.r == s.player.r
    ensures var pose := u.playerUpdate(s.player.(speed := MoveSpeed(s.buffs)), k, dt);
      r.player.pos == pose.pos && r.player.invincibleTimer == pose.invincibleTimer
  {
    var pose := u.playerUpdate(s.player.(speed := MoveSpeed(s.buffs)), k, dt);
    s.(player := s.player.(pos := pose.pos, invincibleTimer := pose.invincibleTimer))
  }

  /** Auto-fire: the fire countdown runs down and, once it reaches zero,
      the player's volley is appended and the countdown restarts. Only the
      bullets and the fire countdown change. */
  function AutoFire(s: Session, dt: real): (r: Session)
    ensures Quiet(s, r)
    ensures r == s.(world := r.world, timers := r.timers)
    ensures r.world == s.world.(bullets := r.world.bullets)
    ensures r.timers == s.timers.(fireTimer := r.timers.fireTimer)
    ensures s.timers.fireTimer - dt <= 0.0 ==>
      r.world.bullets == s.world.bullets + PlayerVolley(s.player, s.buffs) && r.timers.fireTimer == s.timers.fireCoolDown
    ensures s.timers.fireTimer - dt > 0.0 ==> r.world == s.world && r.timers.fireTimer == s.timers.fireTimer - dt
  {
    var t := s.timers.fireTimer - dt;
    if t <= 0.0 then
      s.(world := s.world.(bullets := s.world.bullets + PlayerVolley(s.player, s.buffs)),
         timers := s.timers.(fireTimer := s.timers.fireCoolDown))
    else s.(timers := s.timers.(fireTimer := t))
  }

  /** Asteroid spawning: the countdown restarts at the spawn rate divided by
      the difficulty multiplier. Only the asteroids and the spawn countdown
      change. */
  function SpawnAsteroids(s: Session, dt: real, d: AsteroidDraw): (r: Session)
    ensures Quiet(s, r)
    ensures r == s.(world := r.world, timers := r.timers)
    ensures r.world == s.world.(asteroids := r.world.asteroids)
    ensures r.timers == s.timers.(spawnTimer := r.timers.spawnTimer)
    ensures s.timers.spawnTimer - dt <= 0.0 ==>
      r.world.asteroids == s.world.asteroids + [NewAsteroid(d)]
      && r.timers.spawnTimer == SpawnInterval(s.timers.spawnRate, s.difficulty)
    ensures s.timers.spawnTimer - dt > 0.0 ==> r.world == s.world && r.timers.spawnTimer == s.timers.spawnTimer - dt
  {
    var t := s.timers.spawnTimer - dt;
    if t <= 0.0 then
      s.(world := s.world.(asteroids := s.world.asteroids + [NewAsteroid(d)]),
         timers := s.timers.(spawnTimer := SpawnInterval(s.timers.spawnRate, s.difficulty)))
    else s.(timers := s.timers.(spawnTimer := t))
  }

  /** The power-ups drift: each live one takes one PowerUpUpdate step. */
  function MovePowerUps(s: Session, dt: real, sc: Screen): (r: Session)
    ensures Quiet(s, r)
    ensures r == s.(world := s.world.(powerups := AdvancePowerUps(s.world.powerups, dt, sc.h)))
  {
    s.(world := s.world.(powerups := AdvancePowerUps(s.world.powerups, dt, sc.h)))
  }

  predicate EnemyLevel(lvl: int) { lvl == 2 || lvl == 3 }

  /** The spawn gate: level 2 stops once its total spawn count reaches the
      kill target, and no level spawns past the on-screen ceiling. */
  predicate MaySpawnEnemy(s: Session)
  {
    && !(s.level == 2 && s.stats.totalEnemySpawn >= Level2KillTarget)
    && Alive(s.world.enemies) < s.timers.maxEnemies
  }

  /** Enemy spawning, levels 2 and 3 only. When the countdown expires the
      gate is consulted; an enemy is spawned (and counted) only if it is
      open, and the countdown restarts at the spawn rate either way. */
  function SpawnEnemies(s: Session, dt: real, d: EnemyDraw): (r: Session)
    ensures Keeps(s, r) && r.player == s.player && r.buffs == s.buffs && r.state == s.state && r.boss == s.boss
    ensures r == s.(world := r.world, timers := r.timers, stats := r.stats)
    ensures r.world == s.world.(enemies := r.world.enemies)
    ensures r.timers == s.timers.(enemySpawnTimer := r.timers.enemySpawnTimer)
    ensures !EnemyLevel(s.level) ==> r == s
    ensures EnemyLevel(s.level) ==> (r.timers.enemySpawnTimer ==
      (if s.timers.enemySpawnTimer - dt > 0.0 then s.timers.enemySpawnTimer - dt else s.timers.enemySpawnRate))
    ensures r.stats == s.stats.(totalEnemySpawn := r.stats.totalEnemySpawn)
    ensures r.stats.totalEnemySpawn == s.stats.totalEnemySpawn + (|r.world.enemies| - |s.world.enemies|)
    ensures r.world.enemies == s.world.enemies || r.world.enemies == s.world.enemies + [NewEnemy(d)]
    ensures r.world.enemies != s.world.enemies <==>
      EnemyLevel(s.level) && s.timers.enemySpawnTimer - dt <= 0.0 && MaySpawnEnemy(s)
    ensures Slack(r) == Slack(s)
  {
    if !EnemyLevel(s.level) then s
    else
      var t := s.timers.enemySpawnTimer - dt;
      if t > 0.0 then s.(timers := s.timers.(enemySpawnTimer := t))
      else
        var t1 := s.timers.(enemySpawnTimer := s.timers.enemySpawnRate);
        if MaySpawnEnemy(s) then
          CountAppend(s.world.enemies, [NewEnemy(d)], IsAlive);
          s.(world := s.world.(enemies := s.world.enemies + [NewEnemy(d)]),
             stats := s.stats.(totalEnemySpawn := s.stats.totalEnemySpawn + 1), timers := t1)
        else s.(timers := t1)
  }

  /** The per-body updates of bullets, enemies and enemy bullets. */
  function BulletStep(u: Unseen, dt: real): Body -> Body
  {
    b => u.bulletUpdate(b, dt)
  }

  function EnemyStep(u: Unseen, dt: real, sc: Screen): Body -> Body
  {
    e => u.enemyUpdate(e, dt, sc)
  }

  function EnemyBulletStep(u: Unseen, dt: real, h: int): Body -> Body
  {
    b => u.enemyBulletUpdate(b, dt, h)
  }

  /** The live bullets, asteroids and enemies run their own updates. */
  function MoveBodies(s: Session, dt: real, sc: Screen, u: Unseen): (r: Session)
    ensures Quiet(s, r)
    ensures r == s.(world := s.world.(
      bullets := AdvanceLive(s.world.bullets, BulletStep(u, dt)),
      asteroids := AdvanceAsteroids(s.world.asteroids, dt, sc.h),
      enemies := AdvanceLive(s.world.enemies, EnemyStep(u, dt, sc))))
  {
    s.(world := s.world.(
      bullets := AdvanceLive(s.world.bullets, BulletStep(u, dt)),
      asteroids := AdvanceAsteroids(s.world.asteroids, dt, sc.h),
      enemies := AdvanceLive(s.world.enemies, EnemyStep(u, dt, sc))))
  }

  /** Enemy fire, levels 2 and 3 only: when the countdown expires every live
      enemy fires one bullet and the countdown restarts. */
  function EnemiesFire(s: Session, dt: real): (r: Session)
    ensures Quiet(s, r) && r.world.(enemyBullets := s.world.enemyBullets) == s.world
    ensures r == s.(world := r.world, timers := r.timers)
    ensures r.timers == s.timers.(enemyFireTimer := r.timers.enemyFireTimer)
    ensures !EnemyLevel(s.level) ==> r == s
    ensures EnemyLevel(s.level) && s.timers.enemyFireTimer - dt <= 0.0 ==>
      && r.world.enemyBullets == s.world.enemyBullets + EnemyVolley(s.world.enemies)
      && r.timers.enemyFireTimer == s.timers.enemyFireCooldown
    ensures EnemyLevel(s.level) && s.timers.enemyFireTimer - dt > 0.0 ==>
      r.world == s.world && r.timers.enemyFireTimer == s.timers.enemyFireTimer - dt
  {
    if !EnemyLevel(s.level) then s
    else
      var t := s.timers.enemyFireTimer - dt;
      if t <= 0.0 then
        s.(world := s.world.(enemyBullets := s.world.enemyBullets + EnemyVolley(s.world.enemies)),
           timers := s.timers.(enemyFireTimer := s.timers.enemyFireCooldown))
      else s.(timers := s.timers.(enemyFireTimer := t))
  }

  /** The live enemy bullets run their own update. */
  function MoveEnemyBullets(s: Session, dt: real, sc: Screen, u: Unseen): (r: Session)
    ensures Quiet(s, r)
    ensures r == s.(world := s.world.(enemyBullets := AdvanceLive(s.world.enemyBullets, EnemyBulletStep(u, dt, sc.h))))
  {
    s.(world := s.world.(enemyBullets := AdvanceLive(s.world.enemyBullets, EnemyBulletStep(u, dt, sc.h))))
  }

  /** The boss, on level 3 while it is alive: its own update moves it, and
      its gun fires a pair when its countdown expires. */
  function BossTurn(s: Session, dt: real, sc: Screen, u: Unseen): (r: Session)
    ensures Quiet(s.(boss := r.boss), r) && r.boss.hp == s.boss.hp && r.boss.maxHp == s.boss.maxHp
    ensures r == s.(world := r.world, timers := r.timers, boss := r.boss)
    ensures r.timers == s.timers.(bossFireTimer := r.timers.bossFireTimer)
    ensures !(s.level == 3 && s.boss.body.alive) ==> r == s
    ensures s.level == 3 && s.boss.body.alive ==> r.boss.body == u.bossUpdate(s.boss.body, dt, sc.w)
    ensures s.level == 3 && s.boss.body.alive && s.timers.bossFireTimer - dt <= 0.0 ==>
      && r.world == s.world.(enemyBullets := s.world.enemyBullets + BossPair(r.boss.body))
      && r.timers.bossFireTimer == s.timers.bossFireCooldown
    ensures s.level == 3 && s.boss.body.alive && s.timers.bossFireTimer - dt > 0.0 ==>
      r.world == s.world && r.timers.bossFireTimer == s.timers.bossFireTimer - dt
  {
    if s.level == 3 && s.boss.body.alive then
      var body := u.bossUpdate(s.boss.body, dt, sc.w);
      var s1 := s.(boss := s.boss.(body := body));
      var t := s.timers.bossFireTimer - dt;
      if t <= 0.0 then
        s1.(world := s1.world.(enemyBullets := s1.world.enemyBullets + BossPair(body)),
            timers := s1.timers.(bossFireTimer := s1.timers.bossFireCooldown))
      else s1.(timers := s1.timers.(bossFireTimer := t))
    else s
  }

  /** Every explosion's timer runs down by dt. */
  function AgeAll(s: Session, dt: real): (r: Session)
    ensures Quiet(s, r)
    ensures r == s.(world := s.world.(explosions := AgeExplosions(s.world.explosions, dt)))
  {
    s.(world := s.world.(explosions := AgeExplosions(s.world.explosions, dt)))
  }

  // ---------------------------------------------------------------------
  // Collisions
  // ---------------------------------------------------------------------

  /** One explosion per position, in order. */
  function Booms(at: seq<Vec2>, duration: real): (r: seq<Explosion>)
    ensures |r| == |at|
    ensures forall i :: 0 <= i < |r| ==> r[i] == NewExplosion(at[i], duration)
  {
    if |at| == 0 then [] else [NewExplosion(at[0], duration)] + Booms(at[1..], duration)
  }

  /** No drop roll names the EXTRA_LIFE kind. */
  ghost predicate NoLifeDrops(drops: nat -> DropDraw)
  {
    forall k: nat :: drops(k).kind != KindOrdinal(ExtraLife)
  }

  /** The power-ups dropped by the enemies killed at `at`, the i-th kill
      rolling `drops(from + i)`. */
  function Drops(at: seq<Vec2>, drops: nat -> DropDraw, from: nat): (r: seq<PowerUp>)
    ensures |r| <= |at|
    ensures forall i :: 0 <= i < |r| ==> r[i].body.alive
    ensures NoLifeDrops(drops) ==> NoExtraLife(r)
    decreases |at|
  {
    if |at| == 0 then [] else Drop(drops(from), at[0]) + Drops(at[1..], drops, from + 1)
  }

  /** Bullets against asteroids: each hit kills both, scores SCORE_ASTEROID
      and leaves a small explosion. */
  function ShootAsteroids(s: Session): (r: Session)
    ensures Quiet(s, r)
    ensures r == s.(world := r.world, stats := r.stats)
    ensures r.stats == s.stats.(score := r.stats.score)
    ensures var v := Fire(s.world.bullets, s.world.asteroids);
      && r.stats.score == s.stats.score + ScoreAsteroid * |v.hits|
      && Alive(s.world.asteroids) == Alive(r.world.asteroids) + |v.hits|
      && Alive(s.world.bullets) == Alive(r.world.bullets) + |v.hits|
    ensures var v := Fire(s.world.bullets, s.world.asteroids);
      r.world == s.world.(bullets := v.shots, asteroids := v.targets,
                          explosions := s.world.explosions + Booms(v.hits, ExplosionAsteroidDuration))
  {
    var v := Fire(s.world.bullets, s.world.asteroids);
    var r := s.(world := s.world.(bullets := v.shots, asteroids := v.targets,
                                  explosions := s.world.explosions + Booms(v.hits, ExplosionAsteroidDuration)),
                stats := s.stats.(score := s.stats.score + ScoreAsteroid * |v.hits|));
    assert Slack(r) == Slack(s);
    r
  }

  /** Bullets against enemies: each hit kills both, scores SCORE_ENEMY,
      counts one kill, leaves a ship explosion and rolls a power-up drop. */
  function ShootEnemies(s: Session, drops: nat -> DropDraw): (r: Session)
    ensures Keeps(s, r) && r.player == s.player && r.buffs == s.buffs && r.state == s.state && r.boss == s.boss
    ensures r.stats.totalEnemySpawn == s.stats.totalEnemySpawn
    ensures r == s.(world := r.world, stats := r.stats)
    ensures r.stats == s.stats.(score := r.stats.score, enemiesKilled := r.stats.enemiesKilled)
    ensures var v := Fire(s.world.bullets, s.world.enemies);
      && r.stats.score == s.stats.score + ScoreEnemy * |v.hits|
      && r.stats.enemiesKilled == s.stats.enemiesKilled + |v.hits|
      && Alive(s.world.enemies) == Alive(r.world.enemies) + |v.hits|
      && Alive(s.world.bullets) == Alive(r.world.bullets) + |v.hits|
    ensures var v := Fire(s.world.bullets, s.world.enemies);
      r.world == s.world.(bullets := v.shots, enemies := v.targets,
                          explosions := s.world.explosions + Booms(v.hits, ExplosionShipDuration),
                          powerups := s.world.powerups + Drops(v.hits, drops, 0))
    ensures Slack(r) == Slack(s)
  {
    var v := Fire(s.world.bullets, s.world.enemies);
    var r := s.(world := s.world.(bullets := v.shots, enemies := v.targets,
                                  explosions := s.world.explosions + Booms(v.hits, ExplosionShipDuration),
                                  powerups := s.world.powerups + Drops(v.hits, drops, 0)),
                stats := s.stats.(score := s.stats.score + ScoreEnemy * |v.hits|,
                                  enemiesKilled := s.stats.enemiesKilled + |v.hits|));
    EnemyKillsBalance(s, v, r);
    r
  }

  /** Each enemy a volley kills moves from the live count to the kill count,
      so the ledger slack is unchanged. */
  lemma EnemyKillsBalance(s: Session, v: Volley, r: Session)
    requires Alive(s.world.enemies) == Alive(v.targets) + |v.hits|
    requires r.world.enemies == v.targets && r.stats.totalEnemySpawn == s.stats.totalEnemySpawn
    requires r.stats.enemiesKilled == s.stats.enemiesKilled + |v.hits|
    ensures Slack(r) == Slack(s)
  {
  }

  /** Power-ups against the player: every live one touching the player is
      consumed and applied, and each EXTRA_LIFE among them adds a life. */
  function PickUp(s: Session): (r: Session)
    ensures Keeps(s, r) && r.state == s.state && r.boss == s.boss
    ensures r == s.(world := r.world, player := r.player, buffs := r.buffs)
    ensures r.player.lives == s.player.lives + Count(GrabbedKinds(s.world.powerups, s.player.pos, s.player.r), IsExtraLife)
    ensures r.stats.totalEnemySpawn == s.stats.totalEnemySpawn
    ensures r.player.lives >= s.player.lives && r.player.invincibleTimer == s.player.invincibleTimer
    ensures r.player.pos == s.player.pos && r.player.r == s.player.r
    ensures r.buffs.shield == s.buffs.shield || r.buffs.shield == PowerUpDuration
    ensures var c := Collect(s.world.powerups, Loadout(s.player, s.buffs));
      r.world == s.world.(powerups := c.powerups) && r.player == c.loadout.player && r.buffs == c.loadout.buffs
  {
    var c := Collect(s.world.powerups, Loadout(s.player, s.buffs));
    assert TimerOf(c.loadout.buffs, Shield) == c.loadout.buffs.shield;
    s.(world := s.world.(powerups := c.powerups), player := c.loadout.player, buffs := c.loadout.buffs)
  }

  /** The player's damage ledger: lives drop by at most one over any run of
      hits, and once a life is lost the player is guarded for the rest. */
  predicate Bruised(s: Session, r: Session)
  {
    && Keeps(s, r) && r.boss == s.boss && r.buffs == s.buffs && r.timers == s.timers
    && r.stats.score == s.stats.score && r.stats.totalEnemySpawn == s.stats.totalEnemySpawn
    && r.player.pos == s.player.pos && r.player.r == s.player.r && r.player.speed == s.player.speed
    && s.player.lives - 1 <= r.player.lives <= s.player.lives
    && (r.player.lives < s.player.lives ==> Guarded(r))
    && (Guarded(s) ==> r.player == s.player)
    && (Guarded(s) ==> Guarded(r))
  }

  /** The explosions the rammers at `at` leave, when rammers of that kind
      explode (`boom` is their explosion's duration). */
  function Blasts(at: seq<Vec2>, boom: Option<real>): seq<Explosion>
  {
    if boom.Some? then Booms(at, boom.value) else []
  }

  lemma BlastsSplit(at: seq<Vec2>, boom: Option<real>)
    requires |at| > 0
    ensures Blasts(at, boom) == Blasts(at[..1], boom) + Blasts(at[1..], boom)
  {
    if boom.Some? {
      assert at[..1][1..] == [];
    }
  }

  /** The ship explosion an unguarded hit on the last life leaves. */
  function Wreck(s: Session): seq<Explosion>
  {
    if !Guarded(s) && s.player.lives <= 1 then [NewExplosion(s.player.pos, ExplosionShipDuration)] else []
  }

  /** handlePlayerHit does not look at the explosions: adding some first
      only puts them ahead of the ones the hit adds. */
  lemma HitAfterBlast(s: Session, e: seq<Explosion>)
    ensures HandlePlayerHit(s.(world := s.world.(explosions := s.world.explosions + e)))
         == HandlePlayerHit(s).(world := s.world.(explosions := s.world.explosions + e + Wreck(s)))
  {
  }

  /** Apply the hits a ram pass recorded, in order: each leaves an explosion
      when the rammer explodes, then goes through handlePlayerHit. Only the
      first hit on an unguarded player counts (it starts the invincibility
      window), so apart from the explosions the pass is one handlePlayerHit;
      the explosions are the rammers' in order, with the ship's own after
      the first rammer's when that hit ends the game. */
  function Suffer(s: Session, at: seq<Vec2>, boom: Option<real>): (r: Session)
    ensures Bruised(s, r)
    ensures |at| == 0 ==> r == s
    ensures |at| > 0 && !Guarded(s) ==> r.player.lives == s.player.lives - 1
    ensures Guarded(s) ==> r == s.(world := s.world.(explosions := s.world.explosions + Blasts(at, boom)))
    ensures |at| > 0 ==> r == HandlePlayerHit(s).(world := s.world.(explosions :=
      s.world.explosions + Blasts(at[..1], boom) + Wreck(s) + Blasts(at[1..], boom)))
    decreases |at|
  {
    if |at| == 0 then s
    else
      var s1 := s.(world := s.world.(explosions := s.world.explosions + Blasts(at[..1], boom)));
      var r := Suffer(HandlePlayerHit(s1), at[1..], boom);
      SufferStep(s, at, boom, r);
      r
  }

  /** One step of `Suffer`: the first hit, then the rest against a player
      the first hit left guarded. */
  lemma SufferStep(s: Session, at: seq<Vec2>, boom: Option<real>, r: Session)
    requires |at| > 0
    requires var s2 := HandlePlayerHit(s.(world := s.world.(explosions := s.world.explosions + Blasts(at[..1], boom))));
      && Bruised(s2, r)
      && (Guarded(s2) ==> r == s2.(world := s2.world.(explosions := s2.world.explosions + Blasts(at[1..], boom))))
    ensures Bruised(s, r)
    ensures !Guarded(s) ==> r.player.lives == s.player.lives - 1
    ensures Guarded(s) ==> r == s.(world := s.world.(explosions := s.world.explosions + Blasts(at, boom)))
    ensures r == HandlePlayerHit(s).(world := s.world.(explosions :=
      s.world.explosions + Blasts(at[..1], boom) + Wreck(s) + Blasts(at[1..], boom)))
  {
    var e, b0, b1 := s.world.explosions, Blasts(at[..1], boom), Blasts(at[1..], boom);
    var h := HandlePlayerHit(s);
    var s2 := HandlePlayerHit(s.(world := s.world.(explosions := e + b0)));
    HitAfterBlast(s, b0);
    assert s2 == h.(world := s.world.(explosions := e + b0 + Wreck(s)));
    assert Guarded(s2);
    assert r == h.(world := s.world.(explosions := e + b0 + Wreck(s) + b1));
    HitBruises(s, r);
    if Guarded(s) {
      assert Wreck(s) == [];
      BlastsSplit(at, boom);
      AppendAssoc(e, b0, b1);
      assert e + b0 + [] == e + b0;
    }
  }

  /** A hit with any explosions list is bruising. */
  lemma HitBruises(s: Session, r: Session)
    requires r == HandlePlayerHit(s).(world := r.world)
    requires r.world.(explosions := s.world.explosions) == s.world
    ensures Bruised(s, r)
  {
  }

  /** Some live asteroid, enemy or enemy bullet touches the player. */
  predicate Endangered(s: Session)
  {
    || Endangers(s.world.asteroids, s.player.pos, s.player.r)
    || Endangers(s.world.enemies, s.player.pos, s.player.r)
    || Endangers(s.world.enemyBullets, s.player.pos, s.player.r)
  }

  /** One hazard pass: `t` is `s` with the rammed collection swapped in. A
      pass with a rammer is one handlePlayerHit apart from the world; a pass
      against a guarded player only adds the rammers' explosions; a pass
      without a rammer leaves the collection and the session as they were. */
  lemma RamStage(s: Session, bodies: seq<Body>, ra: RamPass, t: Session, boom: Option<real>, r: Session)
    requires ra == Ram(bodies, s.player.pos, s.player.r)
    requires t == s.(world := t.world) && t.world.explosions == s.world.explosions
    requires Alive(t.world.enemies) <= Alive(s.world.enemies)
    requires r == Suffer(t, ra.hits, boom)
    ensures Bruised(s, r)
    ensures r.world.(explosions := t.world.explosions) == t.world
    ensures Endangers(bodies, s.player.pos, s.player.r) && !Guarded(s) ==> r.player.lives == s.player.lives - 1
    ensures Endangers(bodies, s.player.pos, s.player.r) ==> r == HandlePlayerHit(s).(world := r.world)
    ensures Guarded(s) ==> r == s.(world := t.world.(explosions := s.world.explosions + Blasts(ra.hits, boom)))
    ensures !Endangers(bodies, s.player.pos, s.player.r) ==> r == t && ra.bodies == bodies
  {
    assert Bruised(s, r) by {
      SwapBruised(s, t, r);
    }
    HitsOfEmpty(bodies, s.player.pos, s.player.r);
    if !Endangers(bodies, s.player.pos, s.player.r) {
      assert ra.hits == [];
      assert ra.bodies == bodies;
    }
  }

  /** Swapping in a collection with no more live enemies before a run of
      hits keeps the damage ledger. */
  lemma SwapBruised(s: Session, t: Session, r: Session)
    requires t == s.(world := t.world) && Alive(t.world.enemies) <= Alive(s.world.enemies)
    requires Bruised(t, r)
    ensures Bruised(s, r)
  {
  }

  /** The explosions of a ram pass with a rammer: the rammers', in order,
      with the ship's wreck after the first when that hit ends the game. */
  lemma RamBlasts(s: Session, bodies: seq<Body>, ra: RamPass, t: Session, boom: Option<real>, r: Session)
    requires ra == Ram(bodies, s.player.pos, s.player.r)
    requires t == s.(world := t.world) && t.world.explosions == s.world.explosions
    requires r == Suffer(t, ra.hits, boom)
    ensures r.world.explosions == s.world.explosions + SufferBlasts(ra.hits, Wreck(s), boom)
  {
    var e, at := s.world.explosions, ra.hits;
    if |at| == 0 {
      assert e + [] == e;
    } else {
      var b0, w, b1 := Blasts(at[..1], boom), Wreck(s), Blasts(at[1..], boom);
      assert Wreck(t) == w;
      assert r.world.explosions == e + b0 + w + b1;
      assert SufferBlasts(at, w, boom) == b0 + w + b1;
      AppendAssoc3(e, b0, w, b1);
    }
  }

  /** The explosions a run of hits at `at` adds: the first rammer's, then
      `wreck` (the ship's, when that first hit ends the game), then the
      rest's; nothing without a hit. */
  function SufferBlasts(at: seq<Vec2>, wreck: seq<Explosion>, boom: Option<real>): (r: seq<Explosion>)
    ensures |at| == 0 ==> r == []
    ensures wreck == [] ==> r == Blasts(at, boom)
    ensures |at| > 0 && boom.None? ==> r == wreck
    ensures |r| == (if |at| == 0 then 0 else |wreck| + (if boom.Some? then |at| else 0))
  {
    if |at| == 0 then []
    else
      BlastsSplit(at, boom);
      Blasts(at[..1], boom) + wreck + Blasts(at[1..], boom)
  }

  /** Asteroids against the player: each rammer dies and explodes and is one
      hit. */
  function RamAsteroids(s: Session): (r: Session)
    ensures Bruised(s, r)
    ensures r.world.(explosions := s.world.explosions)
         == s.world.(asteroids := Ram(s.world.asteroids, s.player.pos, s.player.r).bodies)
    ensures Endangers(s.world.asteroids, s.player.pos, s.player.r) && !Guarded(s) ==> r.player.lives == s.player.lives - 1
    ensures Endangers(s.world.asteroids, s.player.pos, s.player.r) ==> r == HandlePlayerHit(s).(world := r.world)
    ensures Guarded(s) ==> (r == s.(world := r.world) && r.world.explosions ==
      s.world.explosions + Booms(Ram(s.world.asteroids, s.player.pos, s.player.r).hits, ExplosionAsteroidDuration))
    ensures !Endangers(s.world.asteroids, s.player.pos, s.player.r) ==> r == s
    ensures r.world.explosions == s.world.explosions
      + SufferBlasts(Ram(s.world.asteroids, s.player.pos, s.player.r).hits, Wreck(s), Some(ExplosionAsteroidDuration))
  {
    var ra := Ram(s.world.asteroids, s.player.pos, s.player.r);
    var t := s.(world := s.world.(asteroids := ra.bodies));
    var r := Suffer(t, ra.hits, Some(ExplosionAsteroidDuration));
    RamStage(s, s.world.asteroids, ra, t, Some(ExplosionAsteroidDuration), r);
    RamBlasts(s, s.world.asteroids, ra, t, Some(ExplosionAsteroidDuration), r);
    r
  }

  /** Enemies against the player: each rammer dies and explodes and is one
      hit. */
  function RamEnemies(s: Session): (r: Session)
    ensures Bruised(s, r)
    ensures r.world.(explosions := s.world.explosions)
         == s.world.(enemies := Ram(s.world.enemies, s.player.pos, s.player.r).bodies)
    ensures Endangers(s.world.enemies, s.player.pos, s.player.r) && !Guarded(s) ==> r.player.lives == s.player.lives - 1
    ensures Endangers(s.world.enemies, s.player.pos, s.player.r) ==> r == HandlePlayerHit(s).(world := r.world)
    ensures Guarded(s) ==> (r == s.(world := r.world) && r.world.explosions ==
      s.world.explosions + Booms(Ram(s.world.enemies, s.player.pos, s.player.r).hits, ExplosionShipDuration))
    ensures !Endangers(s.world.enemies, s.player.pos, s.player.r) ==> r == s
    ensures r.world.explosions == s.world.explosions
      + SufferBlasts(Ram(s.world.enemies, s.player.pos, s.player.r).hits, Wreck(s), Some(ExplosionShipDuration))
  {
    var re := Ram(s.world.enemies, s.player.pos, s.player.r);
    var t := s.(world := s.world.(enemies := re.bodies));
    var r := Suffer(t, re.hits, Some(ExplosionShipDuration));
    RamStage(s, s.world.enemies, re, t, Some(ExplosionShipDuration), r);
    RamBlasts(s, s.world.enemies, re, t, Some(ExplosionShipDuration), r);
    r
  }

  /** Enemy bullets against the player: each one that lands dies and is one
      hit, with no explosion of its own. */
  function RamEnemyBullets(s: Session): (r: Session)
    ensures Bruised(s, r)
    ensures r.world.(explosions := s.world.explosions)
         == s.world.(enemyBullets := Ram(s.world.enemyBullets, s.player.pos, s.player.r).bodies)
    ensures Endangers(s.world.enemyBullets, s.player.pos, s.player.r) && !Guarded(s) ==> r.player.lives == s.player.lives - 1
    ensures Endangers(s.world.enemyBullets, s.player.pos, s.player.r) ==> r == HandlePlayerHit(s).(world := r.world)
    ensures Guarded(s) ==> r == s.(world := s.world.(enemyBullets := Ram(s.world.enemyBullets, s.player.pos, s.player.r).bodies))
    ensures !Endangers(s.world.enemyBullets, s.player.pos, s.player.r) ==> r == s
    ensures r.world.explosions == s.world.explosions
      + SufferBlasts(Ram(s.world.enemyBullets, s.player.pos, s.player.r).hits, Wreck(s), None)
  {
    var rb := Ram(s.world.enemyBullets, s.player.pos, s.player.r);
    var t := s.(world := s.world.(enemyBullets := rb.bodies));
    var r := Suffer(t, rb.hits, None);
    RamStage(s, s.world.enemyBullets, rb, t, None, r);
    RamBlasts(s, s.world.enemyBullets, rb, t, None, r);
    r
  }

  /** Asteroids, enemies and enemy bullets against the player, in that order.
      Every live hazard touching the player dies; an unguarded player touched
      by any of them loses exactly one life (the first hit guards the rest),
      and apart from the world the three passes are that one
      handlePlayerHit. The explosions gained are RamExplosions of the three
      passes' hits. With no hazard touching, nothing changes. */
  function RamPlayer(s: Session): (r: Session)
    ensures Bruised(s, r)
    ensures r.world.(explosions := s.world.explosions) == s.world.(
      asteroids := Ram(s.world.asteroids, s.player.pos, s.player.r).bodies,
      enemies := Ram(s.world.enemies, s.player.pos, s.player.r).bodies,
      enemyBullets := Ram(s.world.enemyBullets, s.player.pos, s.player.r).bodies)
    ensures Endangered(s) && !Guarded(s) ==> r.player.lives == s.player.lives - 1
    ensures Endangered(s) ==> r == HandlePlayerHit(s).(world := r.world)
    ensures !Endangered(s) ==> r == s
    ensures r.world.explosions == s.world.explosions + RamExplosions(
      Ram(s.world.asteroids, s.player.pos, s.player.r).hits,
      Ram(s.world.enemies, s.player.pos, s.player.r).hits,
      Ram(s.world.enemyBullets, s.player.pos, s.player.r).hits, Wreck(s))
    ensures |r.world.explosions| == |s.world.explosions| + (if Endangered(s) then |Wreck(s)| else 0)
      + |Ram(s.world.asteroids, s.player.pos, s.player.r).hits| + |Ram(s.world.enemies, s.player.pos, s.player.r).hits|
  {
    var r1 := RamAsteroids(s);
    var r2 := RamEnemies(r1);
    var r3 := RamEnemyBullets(r2);
    HitIdempotent(s);
    RamPlayerExplosions(s, r1, r2, r3);
    HitsOfEmpty(s.world.asteroids, s.player.pos, s.player.r);
    HitsOfEmpty(s.world.enemies, s.player.pos, s.player.r);
    HitsOfEmpty(s.world.enemyBullets, s.player.pos, s.player.r);
    r3
  }

  /** The explosions the three ram passes add, given their hits in pass
      order: an explosion per rammed asteroid, then one per rammed enemy
      (enemy bullets leave none), with the ship's wreck, when the first hit
      ends the game, right after the explosion of the first rammer. Each
      pass after one with a rammer meets a guarded player, so only the first
      pass with a rammer can place the wreck. */
  function RamExplosions(ha: seq<Vec2>, he: seq<Vec2>, hb: seq<Vec2>, wreck: seq<Explosion>): (r: seq<Explosion>)
    ensures |r| == |ha| + |he| + (if |ha| + |he| + |hb| > 0 then |wreck| else 0)
    ensures wreck == [] ==> r == Booms(ha, ExplosionAsteroidDuration) + Booms(he, ExplosionShipDuration)
  {
    var w2 := if |ha| > 0 then [] else wreck;
    var w3 := if |ha| + |he| > 0 then [] else wreck;
    var r := SufferBlasts(ha, wreck, Some(ExplosionAsteroidDuration)) + SufferBlasts(he, w2, Some(ExplosionShipDuration))
      + SufferBlasts(hb, w3, None);
    assert wreck == [] ==> r == Booms(ha, ExplosionAsteroidDuration) + Booms(he, ExplosionShipDuration) + [];
    r
  }

  /** The explosion lists of the three ram passes chain into RamExplosions:
      the first pass with a rammer places the wreck, and the passes after it
      meet a guarded player. */
  lemma RamPlayerExplosions(s: Session, r1: Session, r2: Session, r3: Session)
    requires r1 == RamAsteroids(s) && r2 == RamEnemies(r1) && r3 == RamEnemyBullets(r2)
    ensures r3.world.explosions == s.world.explosions + RamExplosions(
      Ram(s.world.asteroids, s.player.pos, s.player.r).hits,
      Ram(s.world.enemies, s.player.pos, s.player.r).hits,
      Ram(s.world.enemyBullets, s.player.pos, s.player.r).hits, Wreck(s))
  {
    var ha := Ram(s.world.asteroids, s.player.pos, s.player.r).hits;
    var he := Ram(s.world.enemies, s.player.pos, s.player.r).hits;
    var hb := Ram(s.world.enemyBullets, s.player.pos, s.player.r).hits;
    HitsOfEmpty(s.world.asteroids, s.player.pos, s.player.r);
    HitsOfEmpty(s.world.enemies, s.player.pos, s.player.r);
    assert Wreck(r1) == (if |ha| > 0 then [] else Wreck(s));
    assert Ram(r1.world.enemies, r1.player.pos, r1.player.r).hits == he;
    assert Wreck(r2) == (if |ha| + |he| > 0 then [] else Wreck(s));
    assert Ram(r2.world.enemyBullets, r2.player.pos, r2.player.r).hits == hb;
    AppendAssoc3(s.world.explosions, SufferBlasts(ha, Wreck(s), Some(ExplosionAsteroidDuration)),
                 SufferBlasts(he, Wreck(r1), Some(ExplosionShipDuration)), SufferBlasts(hb, Wreck(r2), None));
  }

  lemma AppendAssoc3<T>(a: seq<T>, b: seq<T>, c: seq<T>, d: seq<T>)
    ensures a + b + c + d == a + (b + c + d)
  {
  }


  /** Bullets against the boss (level 3, boss alive): at most one hit per
      frame, scoring SCORE_BOSS_HIT with a small shake; a killing hit adds the
      boss explosion and a large shake. */
  function ShootBoss(s: Session): (r: Session)
    ensures Quiet(s.(boss := r.boss), r) && r.boss.maxHp == s.boss.maxHp
    ensures r == s.(world := r.world, boss := r.boss, stats := r.stats, shake := r.shake)
    ensures !(s.level == 3 && s.boss.body.alive) ==> r == s
    ensures s.level == 3 && s.boss.body.alive ==> r.boss == BossFire(s.world.bullets, s.boss).boss
    ensures r.boss.hp == s.boss.hp || r.boss.hp == Damaged(s.boss.hp)
    ensures r.boss.hp != s.boss.hp ==> r.stats.score == s.stats.score + ScoreBossHit
    ensures s.level == 3 && s.boss.body.alive && FirstStriker(s.world.bullets, s.boss.body, 0).None? ==> r == s
    ensures s.level == 3 && s.boss.body.alive && FirstStriker(s.world.bullets, s.boss.body, 0).Some? ==>
      var j := FirstStriker(s.world.bullets, s.boss.body, 0).value;
      && r.world == s.world.(bullets := s.world.bullets[j := Kill(s.world.bullets[j])],
                             explosions := s.world.explosions +
                               (if r.boss.body.alive then [] else [NewExplosion(s.boss.body.pos, ExplosionShipDuration)]))
      && r.boss.hp == Damaged(s.boss.hp)
      && r.stats == s.stats.(score := s.stats.score + ScoreBossHit)
      && r.shake == (if r.boss.body.alive then TriggerShake(ShakeIntensitySmall, ShakeDurationShort)
                     else TriggerShake(ShakeIntensityLarge, ShakeDurationMedium))
  {
    if s.level == 3 && s.boss.body.alive then
      var bf := BossFire(s.world.bullets, s.boss);
      match bf.striker
      case None => s
      case Some(_) =>
        var s1 := s.(world := s.world.(bullets := bf.shots), boss := bf.boss,
                     stats := s.stats.(score := s.stats.score + ScoreBossHit),
                     shake := TriggerShake(ShakeIntensitySmall, ShakeDurationShort));
        if bf.boss.body.alive then s1
        else s1.(world := s1.world.(explosions := s1.world.explosions + [NewExplosion(s.boss.body.pos, ExplosionShipDuration)]),
                 shake := TriggerShake(ShakeIntensityLarge, ShakeDurationMedium))
    else s
  }

  /** The live level-3 boss's disc touches the player's. */
  predicate BossTouches(s: Session)
  {
    s.level == 3 && s.boss.body.alive && Touching(s.boss.body.pos, s.boss.body.r, s.player.pos, s.player.r)
  }

  /** The boss against the player (level 3, boss still alive): a touch is
      one player hit, and an unguarded player loses a life to it. */
  function BossRamsPlayer(s: Session): (r: Session)
    ensures Bruised(s, r)
    ensures BossTouches(s) ==> r == HandlePlayerHit(s)
    ensures !BossTouches(s) ==> r == s
    ensures BossTouches(s) && !Guarded(s) ==> r.player.lives == s.player.lives - 1
  {
    if s.level == 3 && s.boss.body.alive
       && Touching(s.boss.body.pos, s.boss.body.r, s.player.pos, s.player.r)
    then HandlePlayerHit(s)
    else s
  }

  // ---------------------------------------------------------------------
  // Compaction
  // ---------------------------------------------------------------------

  predicate Compacted(w: World)
  {
    && (forall i :: 0 <= i < |w.asteroids| ==> w.asteroids[i].alive)
    && (forall i :: 0 <= i < |w.bullets| ==> w.bullets[i].alive)
    && (forall i :: 0 <= i < |w.enemies| ==> w.enemies[i].alive)
    && (forall i :: 0 <= i < |w.enemyBullets| ==> w.enemyBullets[i].alive)
    && (forall i :: 0 <= i < |w.explosions| ==> w.explosions[i].timer > 0.0)
    && (forall i :: 0 <= i < |w.powerups| ==> w.powerups[i].body.alive)
  }

  /** The end-of-frame cleanup: dead bodies and burnt-out explosions go,
      survivors keep their order. */
  function Compact(s: Session): (r: Session)
    ensures Quiet(s, r) && Compacted(r.world)
    ensures r == s.(world := r.world)
    ensures r.world.asteroids == Filter(s.world.asteroids, IsAlive)
    ensures r.world.bullets == Filter(s.world.bullets, IsAlive)
    ensures r.world.enemies == Filter(s.world.enemies, IsAlive)
    ensures r.world.enemyBullets == Filter(s.world.enemyBullets, IsAlive)
    ensures r.world.explosions == Filter(s.world.explosions, Burning)
    ensures r.world.powerups == Filter(s.world.powerups, PowerUpAlive)
  {
    CompactKeepsLive(s.world.enemies);
    s.(world := World(
      Filter(s.world.asteroids, IsAlive), Filter(s.world.bullets, IsAlive),
      Filter(s.world.enemies, IsAlive), Filter(s.world.enemyBullets, IsAlive),
      Filter(s.world.explosions, Burning), Filter(s.world.powerups, PowerUpAlive)))
  }

  // ---------------------------------------------------------------------
  // The frame
  // ---------------------------------------------------------------------

  /** The simulation half of the frame, before any collision. */
  function Simulate(s: Session, i: Input, sc: Screen, u: Unseen): Session
  {
    var s1 := Clocks(s, i.dt);
    var s2 := MovePlayer(s1, i.keys, i.dt, u);
    var s3 := AutoFire(s2, i.dt);
    var s4 := SpawnAsteroids(s3, i.dt, i.draws.asteroid);
    var s5 := MovePowerUps(s4, i.dt, sc);
    var s6 := SpawnEnemies(s5, i.dt, i.draws.enemy);
    var s7 := MoveBodies(s6, i.dt, sc, u);
    var s8 := EnemiesFire(s7, i.dt);
    var s9 := MoveEnemyBullets(s8, i.dt, sc, u);
    var s10 := BossTurn(s9, i.dt, sc, u);
    AgeAll(s10, i.dt)
  }

  /** The collision half of the frame, in the source's pass order. */
  function Resolve(s: Session, drops: nat -> DropDraw): Session
  {
    var s1 := ShootAsteroids(s);
    var s2 := ShootEnemies(s1, drops);
    var s3 := PickUp(s2);
    var s4 := RamPlayer(s3);
    var s5 := ShootBoss(s4);
    BossRamsPlayer(s5)
  }

  /** updateCurrentLevel. A PLAYING frame keeps the level and difficulty,
      never lowers the score, the kill count or the high score, changes state
      only into the defeat story, and ends with every collection compacted. */
  function UpdateCurrentLevel(s: Session, i: Input, sc: Screen, u: Unseen): (r: Session)
    ensures Keeps(s, r)
    ensures Compacted(r.world)
    ensures r.timers.levelTime == s.timers.levelTime + i.dt
    ensures r.boss.hp == s.boss.hp || r.boss.hp == Damaged(s.boss.hp)
    ensures s.level != 3 ==> r.boss == s.boss
  {
    SimulateFacts(s, i, sc, u);
    ResolveFacts(Simulate(s, i, sc, u), i.draws.drops);
    Compact(Resolve(Simulate(s, i, sc, u), i.draws.drops))
  }

  // ---------------------------------------------------------------------
  // What one frame guarantees
  // ---------------------------------------------------------------------

  lemma SimulateFacts(s: Session, i: Input, sc: Screen, u: Unseen)
    ensures TimerOf(Simulate(s, i, sc, u).buffs, Shield) == TickTimer(TimerOf(s.buffs, Shield), i.dt)
    ensures var r := Simulate(s, i, sc, u);
      && Keeps(s, r) && r.state == s.state
      && r.timers.levelTime == s.timers.levelTime + i.dt
      && r.player.lives == s.player.lives && r.player.r == s.player.r && r.player.speed == s.player.speed
      && r.buffs == TickBuffs(s.buffs, i.dt)
      && (s.buffs.shield > 0.0 && s.buffs.shield > i.dt ==> r.buffs.shield > 0.0)
      && r.boss.hp == s.boss.hp && r.boss.maxHp == s.boss.maxHp
      && (s.level != 3 ==> r.boss == s.boss)
      && (!EnemyLevel(s.level) ==> r.stats.totalEnemySpawn == s.stats.totalEnemySpawn)
      && (s.level == 2 && s.stats.totalEnemySpawn >= Level2KillTarget ==> r.stats.totalEnemySpawn == s.stats.totalEnemySpawn)
      && (s.level == 2 && s.stats.totalEnemySpawn <= Level2KillTarget ==> r.stats.totalEnemySpawn <= Level2KillTarget)
  {
    var s1 := Clocks(s, i.dt);
    var s2 := MovePlayer(s1, i.keys, i.dt, u);
    var s3 := AutoFire(s2, i.dt);
    var s4 := SpawnAsteroids(s3, i.dt, i.draws.asteroid);
    var s5 := MovePowerUps(s4, i.dt, sc);
    var s6 := SpawnEnemies(s5, i.dt, i.draws.enemy);
    var s7 := MoveBodies(s6, i.dt, sc, u);
    var s8 := EnemiesFire(s7, i.dt);
    var s9 := MoveEnemyBullets(s8, i.dt, sc, u);
    var s10 := BossTurn(s9, i.dt, sc, u);
    var r := AgeAll(s10, i.dt);
    assert r == Simulate(s, i, sc, u);
    assert TimerOf(s1.buffs, Shield) == s1.buffs.shield && TimerOf(s.buffs, Shield) == s.buffs.shield;
    assert s5.buffs == s1.buffs && s5.stats.totalEnemySpawn == s.stats.totalEnemySpawn;
    assert Keeps(s, s5);
    assert r.buffs == s1.buffs && r.stats.totalEnemySpawn == s6.stats.totalEnemySpawn;
    assert Keeps(s6, r);
  }

  lemma ResolveFacts(s: Session, drops: nat -> DropDraw)
    ensures var r := Resolve(s, drops);
      && Keeps(s, r)
      && r.timers == s.timers
      && r.stats.totalEnemySpawn == s.stats.totalEnemySpawn
      && r.player.lives >= s.player.lives - 1
      && (s.buffs.shield > 0.0 ==> r.player.lives >= s.player.lives)
      && (r.boss.hp == s.boss.hp || r.boss.hp == Damaged(s.boss.hp))
      && (s.level != 3 ==> r.boss == s.boss)
  {
  }

  /** The enemy ledger is a frame invariant, so bullet kills never exceed
      enemies spawned this level. */
  lemma FrameKeepsLedger(s: Session, i: Input, sc: Screen, u: Unseen)
    requires Ledger(s)
    ensures Ledger(UpdateCurrentLevel(s, i, sc, u))
    ensures UpdateCurrentLevel(s, i, sc, u).stats.enemiesKilled <= UpdateCurrentLevel(s, i, sc, u).stats.totalEnemySpawn
  {
  }

  /** However many hazards touch the player in one frame, at most one life
      is lost; with more than a frame's worth of shield left, none is. */
  lemma AtMostOneLifePerFrame(s: Session, i: Input, sc: Screen, u: Unseen)
    ensures UpdateCurrentLevel(s, i, sc, u).player.lives >= s.player.lives - 1
    ensures s.buffs.shield > 0.0 && s.buffs.shield > i.dt ==> UpdateCurrentLevel(s, i, sc, u).player.lives >= s.player.lives
  {
    var m := Simulate(s, i, sc, u);
    SimulateFacts(s, i, sc, u);
    var r := Resolve(m, i.draws.drops);
    ResolveFacts(m, i.draws.drops);
    assert UpdateCurrentLevel(s, i, sc, u) == Compact(r);
  }

  /** Lives come only from EXTRA_LIFE pickups: in a frame with no EXTRA_LIFE
      on the field and no drop roll that could make one, the player never
      gains a life. */
  lemma LivesOnlyFromExtraLife(s: Session, i: Input, sc: Screen, u: Unseen)
    requires NoExtraLife(s.world.powerups) && NoLifeDrops(i.draws.drops)
    ensures UpdateCurrentLevel(s, i, sc, u).player.lives <= s.player.lives
  {
    var m := Simulate(s, i, sc, u);
    SimulateFacts(s, i, sc, u);
    SimulateKeepsKinds(s, i, sc, u);
    ResolveGivesNoLife(m, i.draws.drops);
    assert UpdateCurrentLevel(s, i, sc, u).player == Resolve(m, i.draws.drops).player;
  }

  /** The simulation half moves power-ups but never changes their kinds. */
  lemma SimulateKeepsKinds(s: Session, i: Input, sc: Screen, u: Unseen)
    requires NoExtraLife(s.world.powerups)
    ensures NoExtraLife(Simulate(s, i, sc, u).world.powerups)
  {
    var s4 := SpawnAsteroids(AutoFire(MovePlayer(Clocks(s, i.dt), i.keys, i.dt, u), i.dt), i.dt, i.draws.asteroid);
    assert s4.world.powerups == s.world.powerups;
    var s5 := MovePowerUps(s4, i.dt, sc);
    assert NoExtraLife(s5.world.powerups);
    var s10 := BossTurn(MoveEnemyBullets(EnemiesFire(MoveBodies(SpawnEnemies(s5, i.dt, i.draws.enemy), i.dt, sc, u), i.dt), i.dt, sc, u), i.dt, sc, u);
    assert s10.world.powerups == s5.world.powerups;
    assert Simulate(s, i, sc, u) == AgeAll(s10, i.dt);
  }

  /** Without an EXTRA_LIFE among the power-ups or the drops, the collision
      half never adds a life: the pickup adds none and the hits only take. */
  lemma ResolveGivesNoLife(s: Session, drops: nat -> DropDraw)
    requires NoExtraLife(s.world.powerups) && NoLifeDrops(drops)
    ensures Resolve(s, drops).player.lives <= s.player.lives
  {
    var s1 := ShootAsteroids(s);
    ShootEnemiesNoLife(s1, drops);
    var s2 := ShootEnemies(s1, drops);
    PickUpNoLife(s2);
    HitsOnlyTake(PickUp(s2));
    assert Resolve(s, drops) == BossRamsPlayer(ShootBoss(RamPlayer(PickUp(s2))));
  }

  /** Without an EXTRA_LIFE on the field, the pickup adds no life. */
  lemma PickUpNoLife(s: Session)
    requires NoExtraLife(s.world.powerups)
    ensures PickUp(s).player.lives == s.player.lives
  {
    NoExtraLifeGrabbed(s.world.powerups, s.player.pos, s.player.r);
  }

  /** Ramming, the boss being shot and the boss ramming never add a life. */
  lemma HitsOnlyTake(s: Session)
    ensures BossRamsPlayer(ShootBoss(RamPlayer(s))).player.lives <= s.player.lives
  {
  }

  /** The drops of a frame with no EXTRA_LIFE roll add no EXTRA_LIFE. */
  lemma ShootEnemiesNoLife(s: Session, drops: nat -> DropDraw)
    requires NoExtraLife(s.world.powerups) && NoLifeDrops(drops)
    ensures NoExtraLife(ShootEnemies(s, drops).world.powerups)
  {
    var d := Drops(Fire(s.world.bullets, s.world.enemies).hits, drops, 0);
    NoExtraLifeAppend(s.world.powerups, d);
  }

  /** The boss loses at most one hit's worth of HP per frame, never drops
      below zero from a positive value, and is untouched outside level 3. */
  lemma BossHitOncePerFrame(s: Session, i: Input, sc: Screen, u: Unseen)
    ensures var r := UpdateCurrentLevel(s, i, sc, u);
      && (r.boss.hp == s.boss.hp || r.boss.hp == Damaged(s.boss.hp))
      && r.boss.hp >= s.boss.hp - BossDamagePerHit && (s.boss.hp >= 0 ==> r.boss.hp >= 0)
      && (s.level != 3 ==> r.boss == s.boss)
  {
    var r := UpdateCurrentLevel(s, i, sc, u);
    DamageBounds(s.boss.hp, r.boss.hp);
  }

  lemma DamageBounds(hp: int, after: int)
    requires after == hp || after == Damaged(hp)
    ensures after >= hp - BossDamagePerHit && (hp >= 0 ==> after >= 0)
  {
  }

  /** Enemy spawning is gated: no enemy is counted outside levels 2 and 3,
      and level 2 never counts past its kill target. */
  lemma EnemySpawnGated(s: Session, i: Input, sc: Screen, u: Unseen)
    ensures var r := UpdateCurrentLevel(s, i, sc, u);
      && (!EnemyLevel(s.level) ==>
            r.stats.totalEnemySpawn == s.stats.totalEnemySpawn && Alive(r.world.enemies) <= Alive(s.world.enemies))
      && (s.level == 2 && s.stats.totalEnemySpawn <= Level2KillTarget ==> r.stats.totalEnemySpawn <= Level2KillTarget)
  {
    SimulateFacts(s, i, sc, u);
    ResolveFacts(Simulate(s, i, sc, u), i.draws.drops);
  }

  /** Level 2 can stall: once the spawn count has reached the kill target,
      enemies that left without being shot (rammed, or removed by their own
      update) are never replaced, so kills plus enemies still alive stay
      below the target in every later frame. */
  lemma Level2Stall(s: Session, i: Input, sc: Screen, u: Unseen)
    requires s.level == 2 && s.stats.totalEnemySpawn >= Level2KillTarget
    requires s.stats.enemiesKilled + Alive(s.world.enemies) < Level2KillTarget
    ensures var r := UpdateCurrentLevel(s, i, sc, u);
      && r.level == 2 && r.stats.totalEnemySpawn == s.stats.totalEnemySpawn
      && r.stats.enemiesKilled + Alive(r.world.enemies) < Level2KillTarget
      && r.stats.enemiesKilled < Level2KillTarget
  {
    SimulateFacts(s, i, sc, u);
    ResolveFacts(Simulate(s, i, sc, u), i.draws.drops);
  }
}

=== FILE: powerups.dfy ===
/** Buff timers and power-up pickup: applying a pickup, counting the timers
    down each frame, and the pass in which the player collects power-ups. */
module PowerUps {
  import opened Config
  import opened Entities
  import opened Collision

  /** Seconds left on each timed buff; a buff is active while its timer is
      positive. */
  datatype Buffs = Buffs(doubleShot: real, speedBoost: real, shield: real)

  const NoBuffs: Buffs := Buffs(0.0, 0.0, 0.0)

  /** The kinds that run on a timer; EXTRA_LIFE acts at once. */
  predicate Timed(k: PowerUpKind) { k != ExtraLife }

  function TimerOf(b: Buffs, k: PowerUpKind): real
    requires Timed(k)
  {
    match k
    case DoubleShot => b.doubleShot
    case SpeedBoost => b.speedBoost
    case Shield => b.shield
  }

  /** hasDoubleShot / hasSpeedBoost / hasShield. */
  predicate Active(b: Buffs, k: PowerUpKind)
    requires Timed(k)
  {
    TimerOf(b, k) > 0.0
  }

  datatype Loadout = Loadout(player: Player, buffs: Buffs)

  /** applyPowerUp: a timed kind restarts its own timer at the full duration
      and leaves the other timers alone; EXTRA_LIFE adds exactly one life. */
  function ApplyPowerUp(l: Loadout, k: PowerUpKind): (r: Loadout)
    ensures k == ExtraLife ==> r.player == l.player.(lives := l.player.lives + 1) && r.buffs == l.buffs
    ensures Timed(k) ==> r.player == l.player && TimerOf(r.buffs, k) == PowerUpDuration && Active(r.buffs, k)
    ensures Timed(k) ==> forall k' :: Timed(k') && k' != k ==> TimerOf(r.buffs, k') == TimerOf(l.buffs, k')
  {
    match k
    case DoubleShot => l.(buffs := l.buffs.(doubleShot := PowerUpDuration))
    case SpeedBoost => l.(buffs := l.buffs.(speedBoost := PowerUpDuration))
    case Shield => l.(buffs := l.buffs.(shield := PowerUpDuration))
    case ExtraLife => l.(player := l.player.(lives := l.player.lives + 1))
  }

  /** Picking up a timed kind again while it is active restarts it rather
      than extending it: a second pickup changes nothing, and the result does
      not depend on how much time was left. */
  lemma PickupRestartsTimer(l: Loadout, m: Loadout, k: PowerUpKind)
    requires Timed(k)
    ensures ApplyPowerUp(ApplyPowerUp(l, k), k) == ApplyPowerUp(l, k)
    ensures TimerOf(ApplyPowerUp(l, k).buffs, k) == TimerOf(ApplyPowerUp(m, k).buffs, k)
  {
  }

  /** Extra lives, unlike timers, stack. */
  lemma ExtraLivesStack(l: Loadout)
    ensures ApplyPowerUp(ApplyPowerUp(l, ExtraLife), ExtraLife).player.lives == l.player.lives + 2
  {
  }

  /** updatePowerUpTimers, for one timer: only a positive timer runs down. */
  function TickTimer(t: real, dt: real): real
  {
    if t > 0.0 then t - dt else t
  }

  function TickBuffs(b: Buffs, dt: real): (r: Buffs)
    ensures forall k :: Timed(k) ==> TimerOf(r, k) == TickTimer(TimerOf(b, k), dt)
  {
    Buffs(TickTimer(b.doubleShot, dt), TickTimer(b.speedBoost, dt), TickTimer(b.shield, dt))
  }

  /** Ticking never switches a buff on, and with a positive dt an active
      timer strictly runs down. */
  lemma TickNeverActivates(b: Buffs, dt: real, k: PowerUpKind)
    requires Timed(k)
    ensures !Active(b, k) ==> TimerOf(TickBuffs(b, dt), k) == TimerOf(b, k)
    ensures Active(TickBuffs(b, dt), k) ==> Active(b, k) || dt < 0.0
    ensures dt > 0.0 && Active(b, k) ==> TimerOf(TickBuffs(b, dt), k) < TimerOf(b, k)
  {
  }

  function Sum(dts: seq<real>): real
  {
    if |dts| == 0 then 0.0 else dts[0] + Sum(dts[1..])
  }

  lemma {:induction false} SumNonNegative(dts: seq<real>)
    requires forall i :: 0 <= i < |dts| ==> dts[i] >= 0.0
    ensures Sum(dts) >= 0.0
  {
    if |dts| > 0 {
      SumNonNegative(dts[1..]);
    }
  }

  /** Timers after a run of frames. */
  function TickFrames(b: Buffs, dts: seq<real>): Buffs
    decreases |dts|
  {
    if |dts| == 0 then b else TickFrames(TickBuffs(b, dts[0]), dts[1..])
  }

  /** A buff stays active exactly while the accumulated frame time is below
      what was left on its timer: a fresh pickup lasts POWERUP_DURATION. */
  lemma {:induction false} BuffLastsItsTimer(b: Buffs, dts: seq<real>, k: PowerUpKind)
    requires Timed(k)
    requires forall i :: 0 <= i < |dts| ==> dts[i] >= 0.0
    ensures Active(TickFrames(b, dts), k) <==> Sum(dts) < TimerOf(b, k)
    decreases |dts|
  {
    if |dts| > 0 {
      var b' := TickBuffs(b, dts[0]);
      BuffLastsItsTimer(b', dts[1..], k);
      SumNonNegative(dts[1..]);
    }
  }

  /** A fresh pickup is active for every run of frames shorter than the
      power-up duration and inactive after one at least that long. */
  lemma PickupLastsDuration(l: Loadout, k: PowerUpKind, dts: seq<real>)
    requires Timed(k)
    requires forall i :: 0 <= i < |dts| ==> dts[i] >= 0.0
    ensures Active(TickFrames(ApplyPowerUp(l, k).buffs, dts), k) <==> Sum(dts) < PowerUpDuration
  {
    BuffLastsItsTimer(ApplyPowerUp(l, k).buffs, dts, k);
  }

  /** A live power-up whose disc touches the player's. */
  predicate Grabbed(u: PowerUp, p: Player)
  {
    u.body.alive && Touching(u.body.pos, u.body.r, p.pos, p.r)
  }

  predicate IsExtraLife(k: PowerUpKind) { k == ExtraLife }

  /** The kinds of the live power-ups touching a player disc at `pos` with
      radius `rad`, in collection order: what one pickup pass collects. */
  function GrabbedKinds(pups: seq<PowerUp>, pos: Vec2, rad: real): (r: seq<PowerUpKind>)
    ensures |r| <= |pups|
  {
    if |pups| == 0 then []
    else
      var u := pups[0];
      (if u.body.alive && Touching(u.body.pos, u.body.r, pos, rad) then [u.kind] else [])
        + GrabbedKinds(pups[1..], pos, rad)
  }

  /** No power-up in the collection grants an extra life. */
  predicate NoExtraLife(pups: seq<PowerUp>)
  {
    forall i :: 0 <= i < |pups| ==> pups[i].kind != ExtraLife
  }

  lemma NoExtraLifeAppend(a: seq<PowerUp>, b: seq<PowerUp>)
    requires NoExtraLife(a) && NoExtraLife(b)
    ensures NoExtraLife(a + b)
  {
    forall k | 0 <= k < |a + b| ensures (a + b)[k].kind != ExtraLife {
      if k >= |a| {
        assert (a + b)[k] == b[k - |a|];
      }
    }
  }

  /** With no EXTRA_LIFE on the field, a pickup pass collects none. */
  lemma {:induction false} NoExtraLifeGrabbed(pups: seq<PowerUp>, pos: Vec2, rad: real)
    requires NoExtraLife(pups)
    ensures Count(GrabbedKinds(pups, pos, rad), IsExtraLife) == 0
    decreases |pups|
  {
    if |pups| > 0 {
      var u := pups[0];
      var head := if u.body.alive && Touching(u.body.pos, u.body.r, pos, rad) then [u.kind] else [];
      assert NoExtraLife(pups[1..]) by {
        forall i | 0 <= i < |pups[1..]| ensures pups[1..][i].kind != ExtraLife {
          assert pups[1..][i] == pups[i + 1];
        }
      }
      NoExtraLifeGrabbed(pups[1..], pos, rad);
      CountAppend(head, GrabbedKinds(pups[1..], pos, rad), IsExtraLife);
    }
  }

  datatype Collected = Collected(powerups: seq<PowerUp>, loadout: Loadout, picked: seq<PowerUpKind>)

  /** The power-up-versus-player pass: every live power-up touching the
      player is consumed and applied, in collection order (no break). */
  function Collect(pups: seq<PowerUp>, l: Loadout): (r: Collected)
    ensures |r.powerups| == |pups|
    ensures forall i :: 0 <= i < |pups| ==>
      r.powerups[i] == (if Grabbed(pups[i], l.player) then pups[i].(body := Kill(pups[i].body)) else pups[i])
    ensures r.picked == GrabbedKinds(pups, l.player.pos, l.player.r)
    ensures forall k :: k in r.picked <==> exists i :: 0 <= i < |pups| && Grabbed(pups[i], l.player) && pups[i].kind == k
    ensures |r.picked| + Count(r.powerups, PowerUpAlive) == Count(pups, PowerUpAlive)
    ensures r.loadout.player == l.player.(lives := l.player.lives + Count(r.picked, IsExtraLife))
    ensures forall k :: Timed(k) ==> TimerOf(r.loadout.buffs, k) == (if k in r.picked then PowerUpDuration else TimerOf(l.buffs, k))
    decreases |pups|
  {
    if |pups| == 0 then Collected([], l, [])
    else
      var u := pups[0];
      var grab := Grabbed(u, l.player);
      var l1 := if grab then ApplyPowerUp(l, u.kind) else l;
      var rest := Collect(pups[1..], l1);
      var r := Collected([if grab then u.(body := Kill(u.body)) else u] + rest.powerups,
                         rest.loadout, (if grab then [u.kind] else []) + rest.picked);
      assert l1.player.pos == l.player.pos && l1.player.r == l.player.r;
      assert forall x :: Grabbed(x, l1.player) == Grabbed(x, l.player);
      CollectKills(pups, l, rest, r);
      CollectPicks(pups, l, rest, r);
      CollectLoadout(pups, l, rest, r);
      r
  }

  /** One step of `Collect` for the collection: the head is consumed exactly
      when it is grabbed, and each pickup leaves one fewer live power-up. */
  lemma CollectKills(pups: seq<PowerUp>, l: Loadout, rest: Collected, r: Collected)
    requires |pups| > 0
    requires |rest.powerups| == |pups| - 1
    requires forall i :: 0 <= i < |pups| - 1 ==>
      rest.powerups[i] == (if Grabbed(pups[1..][i], l.player) then pups[1..][i].(body := Kill(pups[1..][i].body)) else pups[1..][i])
    requires |rest.picked| + Count(rest.powerups, PowerUpAlive) == Count(pups[1..], PowerUpAlive)
    requires var u := pups[0]; var grab := Grabbed(u, l.player);
      r.powerups == [if grab then u.(body := Kill(u.body)) else u] + rest.powerups
      && r.picked == (if grab then [u.kind] else []) + rest.picked
    ensures |r.powerups| == |pups|
    ensures forall i :: 0 <= i < |pups| ==>
      r.powerups[i] == (if Grabbed(pups[i], l.player) then pups[i].(body := Kill(pups[i].body)) else pups[i])
    ensures |r.picked| + Count(r.powerups, PowerUpAlive) == Count(pups, PowerUpAlive)
  {
    assert r.powerups[1..] == rest.powerups;
    assert forall i :: 1 <= i < |pups| ==> pups[i] == pups[1..][i - 1];
  }

  /** One step of `Collect` for the picked kinds: a kind is picked exactly
      when some grabbed power-up has it. */
  lemma CollectPicks(pups: seq<PowerUp>, l: Loadout, rest: Collected, r: Collected)
    requires |pups| > 0
    requires forall k :: k in rest.picked <==> exists i :: 0 <= i < |pups| - 1 && Grabbed(pups[1..][i], l.player) && pups[1..][i].kind == k
    requires var u := pups[0]; var grab := Grabbed(u, l.player);
      r.picked == (if grab then [u.kind] else []) + rest.picked
    ensures forall k :: k in r.picked <==> exists i :: 0 <= i < |pups| && Grabbed(pups[i], l.player) && pups[i].kind == k
  {
    assert forall i :: 1 <= i < |pups| ==> pups[i] == pups[1..][i - 1];
    forall k | k in r.picked
      ensures exists i :: 0 <= i < |pups| && Grabbed(pups[i], l.player) && pups[i].kind == k
    {
      if k !in rest.picked {
        assert Grabbed(pups[0], l.player) && pups[0].kind == k;
      } else {
        var i :| 0 <= i < |pups| - 1 && Grabbed(pups[1..][i], l.player) && pups[1..][i].kind == k;
        assert pups[i + 1] == pups[1..][i];
      }
    }
    forall k, i | 0 <= i < |pups| && Grabbed(pups[i], l.player) && pups[i].kind == k
      ensures k in r.picked
    {
      if i > 0 {
        assert pups[1..][i - 1] == pups[i];
      }
    }
  }

  /** One step of `Collect` for the loadout: every extra life picked adds a
      life, and every timed kind picked restarts its timer. */
  lemma CollectLoadout(pups: seq<PowerUp>, l: Loadout, rest: Collected, r: Collected)
    requires |pups| > 0
    requires var u := pups[0]; var l1 := if Grabbed(u, l.player) then ApplyPowerUp(l, u.kind) else l;
      && rest.loadout.player == l1.player.(lives := l1.player.lives + Count(rest.picked, IsExtraLife))
      && (forall k :: Timed(k) ==> TimerOf(rest.loadout.buffs, k) == (if k in rest.picked then PowerUpDuration else TimerOf(l1.buffs, k)))
    requires var u := pups[0]; var grab := Grabbed(u, l.player);
      r.loadout == rest.loadout && r.picked == (if grab then [u.kind] else []) + rest.picked
    ensures r.loadout.player == l.player.(lives := l.player.lives + Count(r.picked, IsExtraLife))
    ensures forall k :: Timed(k) ==> TimerOf(r.loadout.buffs, k) == (if k in r.picked then PowerUpDuration else TimerOf(l.buffs, k))
  {
    var u := pups[0];
    var grab := Grabbed(u, l.player);
    CountAppend(if grab then [u.kind] else [], rest.picked, IsExtraLife);
  }
}

=== FILE: screens.dfy ===
/** The per-frame screen state machine (OnUserUpdate): the menu with its
    saturating difficulty selector, the five story arcs, the level intro,
    playing with its level-complete check, pause, and the game-over screen. */
module Screens {
  import opened Config
  import opened Entities
  import opened PowerUps
  import opened Story
  import opened Session
  import opened Frame

  /** The session after the frame, and whether the game keeps running. */
  datatype Outcome = Outcome(session: Session, running: bool)

  // ---------------------------------------------------------------------
  // Difficulty selector
  // ---------------------------------------------------------------------

  /** LEFT: one step easier, saturating at EASY. */
  function Easier(d: Difficulty): Difficulty
  {
    match d
    case Easy => Easy
    case Normal => Easy
    case Hard => Normal
  }

  /** RIGHT: one step harder, saturating at HARD. */
  function Harder(d: Difficulty): Difficulty
  {
    match d
    case Easy => Normal
    case Normal => Hard
    case Hard => Hard
  }

  /** Both arrows move one place along the selector and saturate at its
      ends, and away from the ends each undoes the other. */
  lemma SelectorSaturates(d: Difficulty)
    ensures Rank(Easier(d)) == if Rank(d) == 0 then 0 else Rank(d) - 1
    ensures Rank(Harder(d)) == if Rank(d) == 2 then 2 else Rank(d) + 1
    ensures d != Easy ==> Harder(Easier(d)) == d
    ensures d != Hard ==> Easier(Harder(d)) == d
  {
  }

  /** A frame's arrow presses: LEFT is handled before RIGHT. */
  function Select(d: Difficulty, k: Keys): Difficulty
  {
    var d1 := if k.left then Easier(d) else d;
    if k.right then Harder(d1) else d1
  }

  /** Both arrows in one frame: LEFT is applied first, so EASY moves to
      NORMAL and every other setting comes back to itself. */
  lemma BothArrows(d: Difficulty, k: Keys)
    requires k.left && k.right
    ensures Select(d, k) == (if d == Easy then Normal else d)
    ensures Rank(Select(d, k)) >= Rank(d)
  {
  }

  // ---------------------------------------------------------------------
  // Menu
  // ---------------------------------------------------------------------

  function EnterStory(s: Session): Session
  {
    s.(state := StoryIntro, indices := s.indices.(intro := 0), slide := ResetSlide(s.slide))
  }

  /** The menu as the source writes it: ENTER or SPACE goes to the opening
      story without resetting the previous game. */
  function MenuAsWritten(s: Session, k: Keys): (o: Outcome)
    ensures o.running <==> !k.q
    ensures o.session.difficulty == Select(s.difficulty, k)
    ensures (k.enter || k.space) ==> o.session.state == StoryIntro && o.session.indices.intro == 0
    ensures !(k.enter || k.space) ==> o.session == s.(difficulty := Select(s.difficulty, k))
    ensures (k.enter || k.space) ==>
      o.session.stats == s.stats && o.session.player == s.player && o.session.world == s.world
      && o.session.buffs == s.buffs && o.session.level == s.level
    ensures (k.enter || k.space) ==>
      && o.session.slide == ResetSlide(s.slide) && o.session.indices == s.indices.(intro := 0)
      && o.session == s.(difficulty := o.session.difficulty, state := o.session.state,
                         indices := o.session.indices, slide := o.session.slide)
  {
    var s1 := s.(difficulty := Select(s.difficulty, k));
    Outcome(if k.enter || k.space then EnterStory(s1) else s1, !k.q)
  }

  /** As written, the score, hit count and lives of a finished game reach the
      next one: starting a game from the menu and leaving the opening story
      (which starts level 1) keeps them. A game lost with score 50 starts the
      next game with score 50 and no lives. */
  lemma MenuKeepsOldGame(s: Session, k: Keys, sc: Screen, u: Unseen)
    requires k.enter
    ensures var n := StartLevel(MenuAsWritten(s, k).session, 1, sc, u);
      n.stats.score == s.stats.score && n.stats.hits == s.stats.hits && n.player.lives == s.player.lives
  {
  }

  lemma MenuKeepsOldGameExample(s: Session, k: Keys, sc: Screen, u: Unseen)
    requires s.state == Menu && s.stats.score == 50 && s.player.lives == 0
    requires k.enter
    ensures var n := StartLevel(MenuAsWritten(s, k).session, 1, sc, u);
      n.stats.score == 50 && n.player.lives == 0 && !NewGame(n)
  {
    MenuKeepsOldGame(s, k, sc, u);
  }

  /** The menu as evidently intended: starting a game resets the session
      first (ResetGame, defined but never called in the source). */
  function MenuStep(s: Session, k: Keys, sc: Screen, u: Unseen): (o: Outcome)
    ensures o.running <==> !k.q
    ensures o.session.difficulty == Select(s.difficulty, k)
    ensures (k.enter || k.space) ==> o.session.state == StoryIntro && o.session.indices.intro == 0
    ensures !(k.enter || k.space) ==> o.session == s.(difficulty := Select(s.difficulty, k))
    ensures (k.enter || k.space) ==> NewGame(o.session) && o.session.stats.highScore == s.stats.highScore
    ensures (k.enter || k.space) ==>
      o.session.slide == ResetSlide(s.slide) && o.session.indices == s.indices.(intro := 0)
  {
    var s1 := s.(difficulty := Select(s.difficulty, k));
    Outcome(if k.enter || k.space then EnterStory(ResetGame(s1, sc, u)) else s1, !k.q)
  }

  /** With the reset in place, every game starts new: score and hits zero,
      full lives, no power-ups or buffs, whatever the previous game left;
      the high score and chosen difficulty carry over. */
  lemma MenuStartsNewGame(s: Session, k: Keys, sc: Screen, u: Unseen)
    requires k.enter || k.space
    ensures var n := MenuStep(s, k, sc, u).session;
      && n.stats.score == 0 && n.stats.hits == 0 && n.player.lives == PlayerStartingLives
      && n.buffs == NoBuffs && n.world.powerups == [] && Ledger(n)
      && n.stats.highScore == s.stats.highScore && n.difficulty == Select(s.difficulty, k)
  {
  }

  // ---------------------------------------------------------------------
  // Story arcs
  // ---------------------------------------------------------------------

  function ArcState(a: Arc): GameState
  {
    match a
    case Intro => StoryIntro
    case BeforeLevel2 => StoryLevel2
    case BeforeLevel3 => StoryLevel3
    case Defeat => StoryGameOver
    case Victory => StoryVictory
  }

  function IndexOf(ix: Indices, a: Arc): nat
  {
    match a
    case Intro => ix.intro
    case BeforeLevel2 => ix.level2
    case BeforeLevel3 => ix.level3
    case Defeat => ix.defeat
    case Victory => ix.victory
  }

  function WithIndex(ix: Indices, a: Arc, n: nat): (r: Indices)
    ensures IndexOf(r, a) == n
    ensures forall b :: b != a ==> IndexOf(r, b) == IndexOf(ix, b)
  {
    match a
    case Intro => ix.(intro := n)
    case BeforeLevel2 => ix.(level2 := n)
    case BeforeLevel3 => ix.(level3 := n)
    case Defeat => ix.(defeat := n)
    case Victory => ix.(victory := n)
  }

  /** Leaving an arc: the pre-level arcs start their level and show its
      intro card, the closing arcs go to the game-over screen. */
  function LeaveArc(s: Session, a: Arc, sc: Screen, u: Unseen): (r: Session)
    ensures ExitOf(a).ToLevel? ==> r.state == LevelIntro && r.level == ExitOf(a).level && r.timers.introTimer == 0.0 && LevelFresh(r)
    ensures ExitOf(a).ToGameOver? ==> r == s.(state := GameOver)
    ensures ExitOf(a).ToLevel? ==>
      && r.stats == s.stats.(enemiesKilled := 0, totalEnemySpawn := 0)
      && r.player.lives == s.player.lives && r.buffs == s.buffs && r.shake == s.shake
      && r.world.powerups == s.world.powerups && r.world.explosions == s.world.explosions
      && r.indices == s.indices && r.slide == s.slide && r.difficulty == s.difficulty
  {
    match ExitOf(a)
    case ToLevel(n) =>
      var s1 := StartLevel(s, n, sc, u);
      s1.(state := LevelIntro, timers := s1.timers.(introTimer := 0.0))
    case ToGameOver => s.(state := GameOver)
  }

  /** One frame of a story state. */
  function StoryStep(s: Session, a: Arc, k: Keys, dt: real, sc: Screen, u: Unseen): (r: Session)
    ensures r.state == ArcState(a) || r.state == LevelIntro || r.state == GameOver
    ensures r.state == ArcState(a) ==> r.stats == s.stats && r.world == s.world && r.level == s.level
    ensures var af := ArcFrame(a, IndexOf(s.indices, a), s.slide, k, dt);
      r.state == ArcState(a) <==> af.Stay?
    ensures var af := ArcFrame(a, IndexOf(s.indices, a), s.slide, k, dt);
      af.Stay? ==>
        && IndexOf(r.indices, a) == af.index && r.slide == af.slide
        && (forall b :: b != a ==> IndexOf(r.indices, b) == IndexOf(s.indices, b))
    ensures var af := ArcFrame(a, IndexOf(s.indices, a), s.slide, k, dt);
      af.Leave? ==>
        && r.slide == af.slide
        && IndexOf(r.indices, a) == (if af.skipped then IndexOf(s.indices, a) else IndexOf(s.indices, a) + 1)
        && (forall b :: b != a ==> IndexOf(r.indices, b) == IndexOf(s.indices, b))
        && r.stats == (if ExitOf(a).ToLevel? then s.stats.(enemiesKilled := 0, totalEnemySpawn := 0) else s.stats)
        && r.player.lives == s.player.lives && r.buffs == s.buffs && r.difficulty == s.difficulty
  {
    var i := IndexOf(s.indices, a);
    match ArcFrame(a, i, s.slide, k, dt)
    case Stay(i', sl) => s.(state := ArcState(a), indices := WithIndex(s.indices, a, i'), slide := sl)
    case Leave(sl, skipped) =>
      var ix := if skipped then s.indices else WithIndex(s.indices, a, i + 1);
      LeaveArc(s.(indices := ix, slide := sl), a, sc, u)
  }

  /** A pre-level arc always ends in that level's intro card, freshly
      started, whether it was read to the end or skipped. */
  lemma ArcLeadsToItsLevel(s: Session, a: Arc, k: Keys, dt: real, sc: Screen, u: Unseen)
    requires ExitOf(a).ToLevel?
    requires StoryStep(s, a, k, dt, sc, u).state != ArcState(a)
    ensures var r := StoryStep(s, a, k, dt, sc, u);
      r.state == LevelIntro && r.level == ExitOf(a).level && LevelFresh(r)
  {
  }

  /** Skipping a pre-level arc by holding ESC carries the session into its
      level with the score, hit count and lives untouched and the skip timer
      still past the hold time, so the next arc is skipped at once while ESC
      stays held (Story.SkipCarriesIntoNextArc). */
  lemma SkipCarriesIntoLevel(s: Session, a: Arc, k: Keys, dt: real, sc: Screen, u: Unseen)
    requires ExitOf(a).ToLevel? && IndexOf(s.indices, a) < SlideCount(a)
    requires Skipping(RenderSlide(s.slide, k, dt).slide)
    ensures var r := StoryStep(s, a, k, dt, sc, u);
      && r.state == LevelIntro && r.level == ExitOf(a).level
      && r.slide == RenderSlide(s.slide, k, dt).slide && Skipping(r.slide)
      && IndexOf(r.indices, a) == IndexOf(s.indices, a)
      && r.stats.score == s.stats.score && r.stats.hits == s.stats.hits && r.player.lives == s.player.lives
  {
  }

  // ---------------------------------------------------------------------
  // Playing and the level-complete check
  // ---------------------------------------------------------------------

  /** The completion condition of the current level. */
  predicate LevelDone(s: Session)
  {
    || (s.level == 1 && s.timers.levelTime >= Level1Duration)
    || (s.level == 2 && s.stats.enemiesKilled >= Level2KillTarget)
    || (s.level == 3 && !s.boss.body.alive)
  }

  /** The arc that follows each level. */
  function NextArc(level: int): Arc
    requires 1 <= level <= 3
  {
    if level == 1 then BeforeLevel2 else if level == 2 then BeforeLevel3 else Victory
  }

  /** The level-complete check, evaluated only while the player has lives
      left: a finished level moves to the next arc at its first slide; the
      last level also records the win and saves the high score. */
  function LevelComplete(s: Session): (r: Session)
    ensures !(s.player.lives > 0 && LevelDone(s)) ==> r == s
    ensures s.player.lives > 0 && LevelDone(s) ==>
      && 1 <= s.level <= 3
      && r.state == ArcState(NextArc(s.level))
      && IndexOf(r.indices, NextArc(s.level)) == 0
      && r.slide == ResetSlide(s.slide)
      && r.world == s.world && r.player == s.player && r.level == s.level
      && (s.level == 3 ==> r.stats.wins)
      && (s.level != 3 ==> r.stats == s.stats)
      && r.stats.highScore >= s.stats.highScore
      && (s.level == 3 ==> r.stats.highScore >= s.stats.score)
      && (s.level == 3 ==> r.stats == SaveHighScore(s.stats.(wins := true)))
      && r == s.(state := r.state, indices := r.indices, slide := r.slide, stats := r.stats)
      && (forall b :: b != NextArc(s.level) ==> IndexOf(r.indices, b) == IndexOf(s.indices, b))
  {
    if s.player.lives > 0 then
      if s.level == 1 then
        if s.timers.levelTime >= Level1Duration then
          s.(state := StoryLevel2, indices := s.indices.(level2 := 0), slide := ResetSlide(s.slide))
        else s
      else if s.level == 2 then
        if s.stats.enemiesKilled >= Level2KillTarget then
          s.(state := StoryLevel3, indices := s.indices.(level3 := 0), slide := ResetSlide(s.slide))
        else s
      else if s.level == 3 then
        if !s.boss.body.alive then
          s.(state := StoryVictory, indices := s.indices.(victory := 0), slide := ResetSlide(s.slide),
             stats := SaveHighScore(s.stats.(wins := true)))
        else s
      else s
    else s
  }

  /** PLAYING: ESC or P pauses before anything is simulated; otherwise the
      frame runs and then the level-complete check, so play either goes on
      or moves to a story that can follow a level, on the same level, with
      a score that has not gone down and every collection compacted. */
  function PlayingStep(s: Session, i: Input, sc: Screen, u: Unseen): (r: Session)
    ensures (i.keys.escapePressed || i.keys.p) ==> r == s.(state := Paused)
    ensures !(i.keys.escapePressed || i.keys.p) ==>
      && r.level == s.level && r.difficulty == s.difficulty
      && r.stats.score >= s.stats.score && r.stats.highScore >= s.stats.highScore
      && Compacted(r.world)
    ensures s.state == Playing ==> r.state == Playing || Edge(Playing, r.state)
  {
    if i.keys.escapePressed || i.keys.p then s.(state := Paused)
    else
      var f := UpdateCurrentLevel(s, i, sc, u);
      CompleteFollowsGraph(s, f);
      LevelComplete(f)
  }

  /** PAUSED: ESC or P resumes; Q then saves the high score and returns to
      the menu. Nothing is simulated. */
  function PausedStep(s: Session, k: Keys): (r: Session)
    ensures r.world == s.world && r.player == s.player && r.timers == s.timers && r.level == s.level
    ensures r.state == (if k.q then Menu else if k.escapePressed || k.p then Playing else s.state)
    ensures r.stats == (if k.q then SaveHighScore(s.stats) else s.stats)
    ensures r == s.(state := r.state, stats := r.stats)
  {
    var s1 := if k.escapePressed || k.p then s.(state := Playing) else s;
    if k.q then s1.(stats := SaveHighScore(s1.stats), state := Menu) else s1
  }

  /** GAME_OVER: the high score is saved every frame; ENTER returns to the menu. */
  function GameOverStep(s: Session, k: Keys): (r: Session)
    ensures r.stats == SaveHighScore(s.stats)
    ensures r.state == (if k.enter then Menu else s.state)
    ensures r == s.(state := r.state, stats := r.stats)
  {
    var s1 := s.(stats := SaveHighScore(s.stats));
    if k.enter then s1.(state := Menu) else s1
  }

  /** OnUserUpdate: one frame of whichever screen is current. Every frame
      either stays on its screen or follows an edge of the screen graph, only
      the menu can stop the game, and the intro card, the pause screen and
      the game-over screen simulate nothing. */
  function Step(s: Session, i: Input, sc: Screen, u: Unseen): (o: Outcome)
    ensures o.session.state == s.state || Edge(s.state, o.session.state)
    ensures o.running <==> !(s.state == Menu && i.keys.q)
    ensures s.state in {LevelIntro, Paused, GameOver} ==>
      o.session.world == s.world && o.session.player == s.player && o.session.level == s.level
  {
    match s.state
    case Menu => MenuStep(s, i.keys, sc, u)
    case StoryIntro => Outcome(StoryStep(s, Intro, i.keys, i.dt, sc, u), true)
    case StoryLevel2 => Outcome(StoryStep(s, BeforeLevel2, i.keys, i.dt, sc, u), true)
    case StoryLevel3 => Outcome(StoryStep(s, BeforeLevel3, i.keys, i.dt, sc, u), true)
    case StoryGameOver => Outcome(StoryStep(s, Defeat, i.keys, i.dt, sc, u), true)
    case StoryVictory => Outcome(StoryStep(s, Victory, i.keys, i.dt, sc, u), true)
    case LevelIntro =>
      var s1 := s.(timers := s.timers.(introTimer := s.timers.introTimer + i.dt));
      Outcome(if i.keys.enter then s1.(state := Playing) else s1, true)
    case Playing => Outcome(PlayingStep(s, i, sc, u), true)
    case Paused => Outcome(PausedStep(s, i.keys), true)
    case GameOver => Outcome(GameOverStep(s, i.keys), true)
  }

  // ---------------------------------------------------------------------
  // The transition graph
  // ---------------------------------------------------------------------

  /** The screen graph, as an independent table: menu to the opening story,
      each pre-level story to the level intro, the closing stories to the
      game-over screen, intro to playing, playing to pause or to any story
      that can follow a level, pause back to playing or to the menu, and the
      game-over screen to the menu. */
  predicate Edge(from: GameState, to: GameState)
  {
    match from
    case Menu => to == StoryIntro
    case StoryIntro => to == LevelIntro
    case StoryLevel2 => to == LevelIntro
    case StoryLevel3 => to == LevelIntro
    case StoryGameOver => to == GameOver
    case StoryVictory => to == GameOver
    case LevelIntro => to == Playing
    case Playing => to in {Paused, StoryLevel2, StoryLevel3, StoryVictory, StoryGameOver}
    case Paused => to in {Playing, Menu}
    case GameOver => to == Menu
  }

  /** The level-complete check after a frame `f` of play from `s` keeps what
      the frame kept and only ever moves to a story that follows a level. */
  lemma CompleteFollowsGraph(s: Session, f: Session)
    requires Keeps(s, f) && Compacted(f.world)
    ensures var r := LevelComplete(f);
      && r.level == s.level && r.difficulty == s.difficulty
      && r.stats.score >= s.stats.score && r.stats.highScore >= s.stats.highScore
      && Compacted(r.world)
      && (s.state == Playing ==> r.state == Playing || Edge(Playing, r.state))
  {
  }

  /** The enemy ledger survives every screen: frames of play keep it, new
      levels and new games start it afresh, and every other screen leaves
      kills, spawns and enemies alone. */
  lemma StepKeepsLedger(s: Session, i: Input, sc: Screen, u: Unseen)
    requires Ledger(s)
    ensures Ledger(Step(s, i, sc, u).session)
  {
    match s.state
    case Menu => MenuKeepsLedger(s, i.keys, sc, u);
    case StoryIntro => StoryKeepsLedger(s, Intro, i.keys, i.dt, sc, u);
    case StoryLevel2 => StoryKeepsLedger(s, BeforeLevel2, i.keys, i.dt, sc, u);
    case StoryLevel3 => StoryKeepsLedger(s, BeforeLevel3, i.keys, i.dt, sc, u);
    case StoryGameOver => StoryKeepsLedger(s, Defeat, i.keys, i.dt, sc, u);
    case StoryVictory => StoryKeepsLedger(s, Victory, i.keys, i.dt, sc, u);
    case Playing => PlayingKeepsLedger(s, i, sc, u);
    case LevelIntro =>
    case Paused =>
    case GameOver =>
  }

  lemma MenuKeepsLedger(s: Session, k: Keys, sc: Screen, u: Unseen)
    requires Ledger(s)
    ensures Ledger(MenuStep(s, k, sc, u).session)
  {
  }

  lemma StoryKeepsLedger(s: Session, a: Arc, k: Keys, dt: real, sc: Screen, u: Unseen)
    requires Ledger(s)
    ensures Ledger(StoryStep(s, a, k, dt, sc, u))
  {
  }

  lemma PlayingKeepsLedger(s: Session, i: Input, sc: Screen, u: Unseen)
    requires Ledger(s)
    ensures Ledger(PlayingStep(s, i, sc, u))
  {
    if !(i.keys.escapePressed || i.keys.p) {
      FrameKeepsLedger(s, i, sc, u);
      CompleteKeepsLedger(UpdateCurrentLevel(s, i, sc, u));
    }
  }

  lemma CompleteKeepsLedger(f: Session)
    requires Ledger(f)
    ensures Ledger(LevelComplete(f))
  {
  }

  /** The level-intro card only counts its timer up, and play starts exactly
      when ENTER is pressed; the level set up by the story is untouched. */
  lemma IntroWaitsForEnter(s: Session, i: Input, sc: Screen, u: Unseen)
    requires s.state == LevelIntro
    ensures var r := Step(s, i, sc, u).session;
      && (r.state == Playing <==> i.keys.enter)
      && (!i.keys.enter ==> r.state == LevelIntro)
      && r.timers.introTimer == s.timers.introTimer + i.dt
      && r.world == s.world && r.player == s.player && r.stats == s.stats && r.level == s.level
  {
  }

  /** Pausing and resuming is a round trip: the session comes back exactly
      as it was, with nothing simulated in between. */
  lemma PauseRoundTrip(s: Session, i: Input, j: Input, sc: Screen, u: Unseen)
    requires s.state == Playing
    requires i.keys.escapePressed || i.keys.p
    requires (j.keys.escapePressed || j.keys.p) && !j.keys.q
    ensures Step(s, i, sc, u).session == s.(state := Paused)
    ensures Step(Step(s, i, sc, u).session, j, sc, u).session == s
  {
  }

  /** Level 1 hands over to the level-2 story exactly in the frame whose
      clock reaches LEVEL1_DURATION with the player still alive. */
  lemma Level1EndsOnTime(s: Session, i: Input, sc: Screen, u: Unseen)
    requires s.level == 1 && s.state != StoryLevel2
    requires !(i.keys.escapePressed || i.keys.p)
    ensures var f := UpdateCurrentLevel(s, i, sc, u);
      (PlayingStep(s, i, sc, u).state == StoryLevel2) <==> (f.player.lives > 0 && f.timers.levelTime >= Level1Duration)
  {
    var f := UpdateCurrentLevel(s, i, sc, u);
    assert f.level == 1 && f.state != StoryLevel2;
    Level1Complete(f);
  }

  /** On level 1, completion is the clock alone, with the player alive. */
  lemma Level1Complete(f: Session)
    requires f.level == 1 && f.state != StoryLevel2
    ensures LevelComplete(f).state == StoryLevel2 <==> (f.player.lives > 0 && f.timers.levelTime >= Level1Duration)
  {
  }

  /** Level 2 below its kill target is never reported complete. */
  lemma StalledLevelStays(f: Session)
    requires f.level == 2 && f.stats.enemiesKilled < Level2KillTarget && f.state != StoryLevel3
    ensures LevelComplete(f).state != StoryLevel3
  {
  }

  /** A level-2 game in the stalled position never reaches the level-3
      story, frame after frame. */
  lemma Level2StallNeverCompletes(s: Session, i: Input, sc: Screen, u: Unseen)
    requires s.state == Playing && s.level == 2 && s.stats.totalEnemySpawn >= Level2KillTarget
    requires s.stats.enemiesKilled + Alive(s.world.enemies) < Level2KillTarget
    ensures PlayingStep(s, i, sc, u).state != StoryLevel3
  {
    if !(i.keys.escapePressed || i.keys.p) {
      StalledFrame(s, i, sc, u);
      assert PlayingStep(s, i, sc, u) == LevelComplete(UpdateCurrentLevel(s, i, sc, u));
    }
  }

  /** One stalled level-2 update is not reported complete. */
  lemma StalledFrame(s: Session, i: Input, sc: Screen, u: Unseen)
    requires s.state == Playing && s.level == 2 && s.stats.totalEnemySpawn >= Level2KillTarget
    requires s.stats.enemiesKilled + Alive(s.world.enemies) < Level2KillTarget
    ensures LevelComplete(UpdateCurrentLevel(s, i, sc, u)).state != StoryLevel3
  {
    var f := UpdateCurrentLevel(s, i, sc, u);
    Level2Stall(s, i, sc, u);
    StalledLevelStays(f);
  }
}

=== FILE: session.dfy ===
/** The session record the game loop mutates, and the rule helpers that act
    on it: player damage, the high score, level start and full reset, and the
    spawners for player, enemy and boss bullets and power-up drops. */
module Session {
  import opened Config
  import opened Entities
  import opened Collision
  import opened PowerUps
  import opened Story

  datatype GameState =
    | Menu
    | StoryIntro | StoryLevel2 | StoryLevel3 | StoryGameOver | StoryVictory
    | LevelIntro | Playing | Paused | GameOver

  datatype Screen = Screen(w: int, h: int)

  datatype Shake = Shake(intensity: real, timer: real)

  /** Countdowns and rates of the spawners and of the level clock. */
  datatype Timers = Timers(
    levelTime: real, introTimer: real,
    spawnTimer: real, spawnRate: real,
    fireTimer: real, fireCoolDown: real,
    enemySpawnTimer: real, enemySpawnRate: real, maxEnemies: int,
    enemyFireTimer: real, enemyFireCooldown: real,
    bossFireTimer: real, bossFireCooldown: real)

  datatype Stats = Stats(score: int, hits: int, wins: bool,
                         enemiesKilled: int, totalEnemySpawn: int, highScore: int)

  datatype World = World(asteroids: seq<Body>, bullets: seq<Body>, enemies: seq<Body>,
                         enemyBullets: seq<Body>, explosions: seq<Explosion>, powerups: seq<PowerUp>)

  /** The slide index of each story arc. */
  datatype Indices = Indices(intro: nat, level2: nat, level3: nat, defeat: nat, victory: nat)

  datatype Session = Session(
    state: GameState, difficulty: Difficulty, level: int,
    player: Player, boss: Boss, buffs: Buffs, shake: Shake,
    timers: Timers, stats: Stats, world: World,
    indices: Indices, slide: Slide)

  /** Entity code whose bodies are not part of this model, as functions. The
      player's update and reset return only the position and invincibility
      countdown; the boss update acts on the boss body, not on its HP. */
  datatype Unseen = Unseen(
    playerUpdate: (Player, Keys, real) -> Pose,
    playerReset: Vec2 -> Pose,
    bulletUpdate: (Body, real) -> Body,
    enemyUpdate: (Body, real, Screen) -> Body,
    enemyBulletUpdate: (Body, real, int) -> Body,
    bossUpdate: (Body, real, int) -> Body,
    bossReset: Vec2 -> Boss)

  /** triggerScreenShake: a new shake replaces the old one outright. */
  function TriggerShake(intensity: real, duration: real): (r: Shake)
    ensures r.intensity == intensity && r.timer == duration
  {
    Shake(intensity, duration)
  }

  /** updatePowerUpTimers' last line: the shake timer runs down like a buff,
      and only while it is positive; the intensity is left alone. */
  function TickShake(sh: Shake, dt: real): (r: Shake)
    ensures r.intensity == sh.intensity
    ensures sh.timer > 0.0 ==> r.timer == sh.timer - dt
    ensures sh.timer <= 0.0 ==> r.timer == sh.timer
  {
    sh.(timer := TickTimer(sh.timer, dt))
  }

  /** The shake after a run of frames. */
  function ShakeFrames(sh: Shake, dts: seq<real>): Shake
    decreases |dts|
  {
    if |dts| == 0 then sh else ShakeFrames(TickShake(sh, dts[0]), dts[1..])
  }

  /** The screen shakes exactly while the accumulated frame time is below
      what was left on the shake timer, and keeps its intensity throughout. */
  lemma {:induction false} ShakeLastsItsTimer(sh: Shake, dts: seq<real>)
    requires forall i :: 0 <= i < |dts| ==> dts[i] >= 0.0
    ensures ShakeFrames(sh, dts).timer > 0.0 <==> Sum(dts) < sh.timer
    ensures ShakeFrames(sh, dts).intensity == sh.intensity
    decreases |dts|
  {
    if |dts| > 0 {
      ShakeLastsItsTimer(TickShake(sh, dts[0]), dts[1..]);
      SumNonNegative(dts[1..]);
    }
  }

  /** A triggered shake lasts its duration, whatever shake it replaced. */
  lemma ShakeLastsDuration(intensity: real, duration: real, dts: seq<real>)
    requires forall i :: 0 <= i < |dts| ==> dts[i] >= 0.0
    ensures ShakeFrames(TriggerShake(intensity, duration), dts).timer > 0.0 <==> Sum(dts) < duration
    ensures ShakeFrames(TriggerShake(intensity, duration), dts).intensity == intensity
  {
    ShakeLastsItsTimer(TriggerShake(intensity, duration), dts);
  }

  // ---------------------------------------------------------------------
  // High score
  // ---------------------------------------------------------------------

  /** saveHighScore, without the file write: the high score becomes the
      larger of itself and the score, and nothing else changes. */
  function SaveHighScore(st: Stats): (r: Stats)
    ensures r.highScore >= st.highScore && r.highScore >= st.score
    ensures r.highScore == st.highScore || r.highScore == st.score
    ensures r == st.(highScore := r.highScore)
  {
    if st.score > st.highScore then st.(highScore := st.score) else st
  }

  /** Saving is idempotent, so saving on every GAME_OVER frame is harmless,
      and it never lowers the high score. */
  lemma SaveHighScoreIdempotent(st: Stats)
    ensures SaveHighScore(SaveHighScore(st)) == SaveHighScore(st)
  {
  }

  lemma SaveHighScoreMonotone(st: Stats, score: int)
    requires score >= st.score
    ensures SaveHighScore(st.(score := score)).highScore >= SaveHighScore(st).highScore
  {
  }

  // ---------------------------------------------------------------------
  // Player damage
  // ---------------------------------------------------------------------

  /** A hit is a no-op while the shield buff or the invincibility window is on. */
  predicate Guarded(s: Session)
  {
    s.buffs.shield > 0.0 || s.player.invincibleTimer > 0.0
  }

  /** Everything a player hit leaves alone. */
  predicate HitLeavesAlone(s: Session, r: Session)
  {
    && r.difficulty == s.difficulty && r.level == s.level && r.boss == s.boss
    && r.buffs == s.buffs && r.timers == s.timers
    && r.stats.score == s.stats.score && r.stats.enemiesKilled == s.stats.enemiesKilled
    && r.stats.totalEnemySpawn == s.stats.totalEnemySpawn
    && r.world.(explosions := s.world.explosions) == s.world
    && r.player.pos == s.player.pos && r.player.speed == s.player.speed && r.player.r == s.player.r
  }

  /** handlePlayerHit. An unguarded hit costs one life, counts one hit and
      starts the invincibility window; if it leaves no lives the session
      enters the defeat story at its first slide, with the ship's explosion,
      a large shake, `wins` cleared and the high score saved. */
  function HandlePlayerHit(s: Session): (r: Session)
    ensures Guarded(s) ==> r == s
    ensures !Guarded(s) ==>
      && r.player.lives == s.player.lives - 1
      && r.player.invincibleTimer == InvincibilityDuration
      && r.stats.hits == s.stats.hits + 1
      && Guarded(r)
    ensures !Guarded(s) && r.player.lives <= 0 ==>
      && r.state == StoryGameOver && r.indices == s.indices.(defeat := 0)
      && r.slide == ResetSlide(s.slide)
      && r.stats == SaveHighScore(s.stats.(hits := s.stats.hits + 1, wins := false))
      && r.stats.highScore >= s.stats.score && r.stats.highScore >= s.stats.highScore
      && r.world.explosions == s.world.explosions + [NewExplosion(s.player.pos, ExplosionShipDuration)]
      && r.shake == TriggerShake(ShakeIntensityLarge, ShakeDurationMedium)
    ensures !Guarded(s) && r.player.lives > 0 ==>
      && r.state == s.state && r.indices == s.indices && r.slide == s.slide
      && r.world == s.world && r.stats == s.stats.(hits := s.stats.hits + 1)
      && r.shake == TriggerShake(ShakeIntensityMedium, ShakeDurationMedium)
    ensures HitLeavesAlone(s, r)
  {
    if s.buffs.shield > 0.0 then s
    else if s.player.invincibleTimer > 0.0 then s
    else
      var p := s.player.(lives := s.player.lives - 1, invincibleTimer := InvincibilityDuration);
      var s1 := s.(player := p, stats := s.stats.(hits := s.stats.hits + 1),
                   shake := TriggerShake(ShakeIntensityMedium, ShakeDurationMedium));
      if p.lives <= 0 then
        s1.(world := s1.world.(explosions := s1.world.explosions + [NewExplosion(p.pos, ExplosionShipDuration)]),
            shake := TriggerShake(ShakeIntensityLarge, ShakeDurationMedium),
            state := StoryGameOver, indices := s1.indices.(defeat := 0),
            slide := ResetSlide(s1.slide),
            stats := SaveHighScore(s1.stats.(wins := false)))
      else s1
  }

  /** A second hit in the same frame does nothing: the first one started the
      invincibility window. */
  lemma HitIdempotent(s: Session)
    ensures HandlePlayerHit(HandlePlayerHit(s)) == HandlePlayerHit(s)
  {
  }

  /** The defeat transition happens exactly when an unguarded hit takes the
      last life (lives at most one before the hit). */
  lemma DefeatExactlyOnLastLife(s: Session)
    requires s.state != StoryGameOver
    ensures HandlePlayerHit(s).state == StoryGameOver <==> !Guarded(s) && s.player.lives <= 1
  {
  }

  /** One player hit: a life is lost only by an unguarded hit, and never more
      than one. */
  lemma HitCostsAtMostOneLife(s: Session)
    ensures s.player.lives - 1 <= HandlePlayerHit(s).player.lives <= s.player.lives
    ensures HandlePlayerHit(s).player.lives < s.player.lives <==> !Guarded(s)
  {
  }

  // ---------------------------------------------------------------------
  // Spawners
  // ---------------------------------------------------------------------

  /** spawnPlayerBullets: from the nose of the ship (radius above its
      centre), one bullet, or two spread symmetrically to either side when
      the double-shot buff is active. */
  function PlayerVolley(p: Player, b: Buffs): (r: seq<Body>)
    ensures |r| == (if Active(b, DoubleShot) then 2 else 1)
    ensures forall i :: 0 <= i < |r| ==>
      r[i].alive && r[i].vel == Vec2(0.0, -PlayerBulletSpeed) && r[i].r == SpawnedBulletRadius
      && r[i].pos.y == p.pos.y - p.r
    ensures r[0].pos.x + r[|r| - 1].pos.x == 2.0 * p.pos.x
    ensures |r| == 2 ==> r[1].pos.x - r[0].pos.x == 2.0 * DoubleShotSpread
  {
    var base := p.pos.Plus(Vec2(0.0, -p.r));
    if Active(b, DoubleShot) then
      [NewBullet(base.Plus(Vec2(-DoubleShotSpread, 0.0))), NewBullet(base.Plus(Vec2(DoubleShotSpread, 0.0)))]
    else [NewBullet(base)]
  }

  /** spawnBossBullets: nothing from a dead boss; otherwise a pair, left
      muzzle first, 30 pixels either side of the boss and half its radius
      below its centre, falling at the boss bullet speed. */
  const BossMuzzleOffset: real := 30.0

  function BossPair(boss: Body): (r: seq<Body>)
    ensures |r| == (if boss.alive then 2 else 0)
    ensures forall i :: 0 <= i < |r| ==>
      r[i].alive && r[i].vel == Vec2(0.0, BossBulletSpeed) && r[i].r == SpawnedBulletRadius
      && r[i].pos.y == boss.pos.y + boss.r * 0.5
    ensures |r| == 2 ==> r[0].pos.x + r[1].pos.x == 2.0 * boss.pos.x && r[0].pos.x < r[1].pos.x
    ensures |r| == 2 ==>
      && r[0].pos == boss.pos.Plus(Vec2(-BossMuzzleOffset, boss.r * 0.5))
      && r[1].pos == boss.pos.Plus(Vec2(BossMuzzleOffset, boss.r * 0.5))
  {
    if !boss.alive then []
    else
      [NewBossBullet(boss.pos.Plus(Vec2(-BossMuzzleOffset, boss.r * 0.5))),
       NewBossBullet(boss.pos.Plus(Vec2(BossMuzzleOffset, boss.r * 0.5)))]
  }

  /** The pair follows the boss: moving a live boss by `v` moves both
      bullets by `v`, and the muzzles stay 60 pixels apart. */
  lemma BossPairFollowsBoss(boss: Body, v: Vec2)
    requires boss.alive
    ensures var r := BossPair(boss); var m := BossPair(boss.(pos := boss.pos.Plus(v)));
      && |m| == |r| == 2
      && m[0] == r[0].(pos := r[0].pos.Plus(v)) && m[1] == r[1].(pos := r[1].pos.Plus(v))
      && r[1].pos.x - r[0].pos.x == 2.0 * BossMuzzleOffset
  {
  }

  /** The muzzle of an enemy: its centre moved down by its radius. */
  function Muzzle(e: Body): Vec2
  {
    e.pos.Plus(Vec2(0.0, e.r))
  }

  /** The enemy volley: one bullet per live enemy, from each live enemy's
      muzzle, in enemy order. */
  function EnemyVolley(enemies: seq<Body>): (r: seq<Body>)
    ensures |r| == Alive(enemies)
    ensures forall i :: 0 <= i < |r| ==> r[i] == NewEnemyBullet(Muzzle(Filter(enemies, IsAlive)[i]))
  {
    if |enemies| == 0 then []
    else
      var e := enemies[0];
      var rest := EnemyVolley(enemies[1..]);
      if e.alive then [NewEnemyBullet(Muzzle(e))] + rest else rest
  }

  /** spawnPowerUp: a drop happens when the roll is within the spawn
      chance, with the drawn kind, at the killed enemy's position. */
  function Drop(d: DropDraw, pos: Vec2): (r: seq<PowerUp>)
    ensures |r| <= 1
    ensures |r| == 1 <==> d.chance <= PowerUpSpawnChance
    ensures |r| == 1 ==>
      && r[0].body.pos == pos && r[0].body.alive && KindOrdinal(r[0].kind) == d.kind
      && r[0].body.vel == Vec2(0.0, PowerUpSpeed) && r[0].body.r == PowerUpRadius
  {
    if d.chance > PowerUpSpawnChance then [] else [NewPowerUp(pos, KindFromIndex(d.kind))]
  }

  // ---------------------------------------------------------------------
  // Level start and full reset
  // ---------------------------------------------------------------------

  const Level1SpawnRate: real := 0.5
  const Level2SpawnRate: real := 0.7
  const Level3SpawnRate: real := 0.9
  const Level2EnemySpawnRate: real := 2.0
  const Level3EnemySpawnRate: real := 2.5
  const Level3BossFireCooldown: real := 1.2
  const Level3BossFirstShot: real := 1.0

  /** The enemy ledger: kills plus enemies still alive never exceed the
      enemies spawned this level. */
  predicate Ledger(s: Session)
  {
    s.stats.enemiesKilled + Alive(s.world.enemies) <= s.stats.totalEnemySpawn
  }

  /** A freshly started level: clock and counters at zero, no bullets,
      asteroids, enemies or enemy bullets. */
  predicate LevelFresh(s: Session)
  {
    && s.timers.levelTime == 0.0 && s.timers.spawnTimer == 0.0
    && s.timers.enemySpawnTimer == 0.0 && s.timers.enemyFireTimer == 0.0
    && s.stats.enemiesKilled == 0 && s.stats.totalEnemySpawn == 0
    && s.world.bullets == [] && s.world.asteroids == [] && s.world.enemies == [] && s.world.enemyBullets == []
  }

  function Centre(sc: Screen): real { sc.w as real / 2.0 }

  /** startLevel. Levels 1 to 3 set their asteroid rate (and, from level 2,
      the enemy rate); level 3 also resets the boss at the top centre and arms
      its gun. Power-ups and explosions survive the level change, and the
      player keeps lives, speed and radius while its reset places it. */
  function StartLevel(s: Session, lvl: int, sc: Screen, u: Unseen): (r: Session)
    ensures r.level == lvl && LevelFresh(r) && Ledger(r)
    ensures r.world.powerups == s.world.powerups && r.world.explosions == s.world.explosions
    ensures r.state == s.state && r.difficulty == s.difficulty && r.buffs == s.buffs && r.shake == s.shake
    ensures r.stats == s.stats.(enemiesKilled := 0, totalEnemySpawn := 0)
    ensures r.player.lives == s.player.lives && r.player.speed == s.player.speed && r.player.r == s.player.r
    ensures r.player.pos == u.playerReset(Vec2(Centre(sc), sc.h as real - 60.0)).pos
    ensures lvl == 1 ==> r.timers.spawnRate == Level1SpawnRate
    ensures lvl == 2 ==> r.timers.spawnRate == Level2SpawnRate && r.timers.enemySpawnRate == Level2EnemySpawnRate
    ensures lvl == 3 ==>
      && r.timers.spawnRate == Level3SpawnRate && r.timers.enemySpawnRate == Level3EnemySpawnRate
      && r.boss == u.bossReset(Vec2(Centre(sc), -60.0))
      && r.timers.bossFireCooldown == Level3BossFireCooldown && r.timers.bossFireTimer == Level3BossFirstShot
    ensures lvl != 3 ==> r.boss == s.boss && r.timers.bossFireTimer == s.timers.bossFireTimer
    ensures lvl !in {1, 2, 3} ==> r.timers.spawnRate == s.timers.spawnRate
    ensures r.timers.fireTimer == s.timers.fireTimer && r.timers.fireCoolDown == s.timers.fireCoolDown
    ensures r == s.(level := lvl, timers := r.timers, boss := r.boss, stats := r.stats,
                    world := r.world, player := r.player)
    ensures var pose := u.playerReset(Vec2(Centre(sc), sc.h as real - 60.0));
      r.player == s.player.(pos := pose.pos, invincibleTimer := pose.invincibleTimer)
    ensures r.world == s.world.(bullets := [], asteroids := [], enemies := [], enemyBullets := [])
    ensures r.timers == s.timers.(levelTime := 0.0, spawnTimer := 0.0, enemySpawnTimer := 0.0,
                                  enemyFireTimer := 0.0, spawnRate := r.timers.spawnRate,
                                  enemySpawnRate := r.timers.enemySpawnRate,
                                  bossFireTimer := r.timers.bossFireTimer,
                                  bossFireCooldown := r.timers.bossFireCooldown)
    ensures lvl !in {2, 3} ==> r.timers.enemySpawnRate == s.timers.enemySpawnRate
    ensures lvl != 3 ==> r.timers.bossFireCooldown == s.timers.bossFireCooldown
  {
    var t := s.timers.(levelTime := 0.0, spawnTimer := 0.0, enemySpawnTimer := 0.0, enemyFireTimer := 0.0);
    var t1 :=
      if lvl == 1 then t.(spawnRate := Level1SpawnRate)
      else if lvl == 2 then t.(spawnRate := Level2SpawnRate, enemySpawnRate := Level2EnemySpawnRate)
      else if lvl == 3 then
        t.(spawnRate := Level3SpawnRate, enemySpawnRate := Level3EnemySpawnRate,
           bossFireCooldown := Level3BossFireCooldown, bossFireTimer := Level3BossFirstShot)
      else t;
    var boss := if lvl == 3 then u.bossReset(Vec2(Centre(sc), -60.0)) else s.boss;
    var pose := u.playerReset(Vec2(Centre(sc), sc.h as real - 60.0));
    s.(level := lvl, timers := t1, boss := boss,
       stats := s.stats.(enemiesKilled := 0, totalEnemySpawn := 0),
       world := s.world.(bullets := [], asteroids := [], enemies := [], enemyBullets := []),
       player := s.player.(pos := pose.pos, invincibleTimer := pose.invincibleTimer))
  }

  /** Starting a level twice is the same as starting it once, and what the
      previous level left on the field (bullets, asteroids, enemies, enemy
      bullets, kill and spawn counters) has no influence on the result. */
  lemma StartLevelForgetsField(s: Session, lvl: int, sc: Screen, u: Unseen, w: World, kills: int, spawned: int)
    requires w.powerups == s.world.powerups && w.explosions == s.world.explosions
    ensures StartLevel(StartLevel(s, lvl, sc, u), lvl, sc, u) == StartLevel(s, lvl, sc, u)
    ensures StartLevel(s.(world := w, stats := s.stats.(enemiesKilled := kills, totalEnemySpawn := spawned)), lvl, sc, u)
         == StartLevel(s, lvl, sc, u)
  {
  }

  /** What a new game starts from. */
  predicate NewGame(s: Session)
  {
    && s.level == 1 && LevelFresh(s)
    && s.stats.score == 0 && s.stats.hits == 0 && !s.stats.wins
    && s.player.lives == PlayerStartingLives
    && s.world.powerups == []
    && s.buffs == NoBuffs && s.shake.timer == 0.0
    && !s.boss.body.alive && s.boss.hp == s.boss.maxHp
  }

  /** ResetGame: clears the score, hits, lives, every collection but the
      explosions, every buff and the shake, the enemy and boss timers, and
      the boss, then starts level 1. The high score, difficulty and state
      are kept. */
  function ResetGame(s: Session, sc: Screen, u: Unseen): (r: Session)
    ensures NewGame(r) && Ledger(r)
    ensures r.state == s.state && r.difficulty == s.difficulty
    ensures r.stats.highScore == s.stats.highScore
    ensures r.world.explosions == s.world.explosions
    ensures r.indices == s.indices && r.slide == s.slide
    ensures r.level == 1 && r.buffs == NoBuffs && r.shake == s.shake.(timer := 0.0)
    ensures r.stats == s.stats.(score := 0, hits := 0, wins := false, enemiesKilled := 0, totalEnemySpawn := 0)
    ensures r.world == World([], [], [], [], s.world.explosions, [])
    ensures r.boss == s.boss.(hp := s.boss.maxHp, body := Kill(s.boss.body))
    ensures var pose := u.playerReset(Vec2(Centre(sc), sc.h as real - 60.0));
      r.player == s.player.(lives := PlayerStartingLives, pos := pose.pos, invincibleTimer := pose.invincibleTimer)
    ensures r.timers == s.timers.(levelTime := 0.0, spawnTimer := 0.0, spawnRate := Level1SpawnRate,
                                  enemySpawnTimer := 0.0, enemyFireTimer := 0.0, bossFireTimer := 0.0)
  {
    var s1 := s.(
      stats := s.stats.(score := 0, hits := 0, enemiesKilled := 0, totalEnemySpawn := 0, wins := false),
      player := s.player.(lives := PlayerStartingLives),
      world := s.world.(asteroids := [], bullets := [], enemies := [], enemyBullets := [], powerups := []),
      buffs := NoBuffs, shake := s.shake.(timer := 0.0),
      timers := s.timers.(enemySpawnTimer := 0.0, enemyFireTimer := 0.0, bossFireTimer := 0.0),
      boss := s.boss.(hp := s.boss.maxHp, body := Kill(s.boss.body)));
    StartLevel(s1, 1, sc, u)
  }

  /** A reset game does not depend on the finished game's score, hits,
      lives, field or buffs: two sessions that differ only there reset to
      the same session, and resetting twice equals resetting once. */
  lemma ResetGameForgetsSession(s: Session, sc: Screen, u: Unseen, st: Stats, p: Player, w: World, b: Buffs)
    requires st.highScore == s.stats.highScore
    requires p.pos == s.player.pos && p.speed == s.player.speed && p.r == s.player.r
    requires w.explosions == s.world.explosions
    ensures ResetGame(s.(stats := st, player := p, world := w, buffs := b), sc, u) == ResetGame(s, sc, u)
    ensures ResetGame(ResetGame(s, sc, u), sc, u) == ResetGame(s, sc, u)
  {
  }
}

=== FILE: story.dfy ===
/** The story-slide sequencer shared by the five narrative arcs: per-slide
    timers, the advance signal (ENTER/SPACE, the auto-advance timeout, or
    holding ESC to skip the whole arc), and the walk through an arc's slides. */
module Story {
  import opened Config

  /** This frame's keyboard state, as the game loop reads it. `escapePressed`
      is the ESC key's press edge, `escapeHeld` its level. */
  datatype Keys = Keys(left: bool, right: bool, enter: bool, space: bool,
                       escapePressed: bool, escapeHeld: bool, p: bool, q: bool)

  const NoKeys: Keys := Keys(false, false, false, false, false, false, false, false)

  const AutoAdvanceTime: real := 8.0
  const SkipHoldTime: real := 1.5

  /** The five arcs: the opening story, the two between-level stories, the
      defeat story and the victory story. */
  datatype Arc = Intro | BeforeLevel2 | BeforeLevel3 | Defeat | Victory

  /** Number of slides each arc loads. */
  function SlideCount(a: Arc): nat
  {
    match a
    case Intro => 5
    case BeforeLevel2 => 3
    case BeforeLevel3 => 3
    case Defeat => 3
    case Victory => 4
  }

  /** Where an arc hands over once it is finished or skipped: the three
      pre-level arcs start their level, the two closing arcs go to the
      game-over screen. */
  datatype Exit = ToLevel(level: int) | ToGameOver

  function ExitOf(a: Arc): Exit
  {
    match a
    case Intro => ToLevel(1)
    case BeforeLevel2 => ToLevel(2)
    case BeforeLevel3 => ToLevel(3)
    case Defeat => ToGameOver
    case Victory => ToGameOver
  }

  /** The slide timers. */
  datatype Slide = Slide(typewriter: real, fade: real, slide: real, parallax: real,
                         skip: real, fadingIn: bool)

  /** resetStorySlideState: restarts the typewriter, fade and slide timers
      and the fade-in, and deliberately keeps the parallax and skip timers. */
  function ResetSlide(s: Slide): (r: Slide)
    ensures r.typewriter == 0.0 && r.fade == 0.0 && r.slide == 0.0 && r.fadingIn
    ensures r.parallax == s.parallax && r.skip == s.skip
  {
    s.(typewriter := 0.0, fade := 0.0, slide := 0.0, fadingIn := true)
  }

  datatype Render = Render(slide: Slide, advance: bool)

  /** The state-changing part of renderStorySlide: every timer runs on by dt;
      holding ESC accumulates the skip timer, releasing it clears it; the
      slide asks to advance on a skip, on ENTER or SPACE, or on timeout. */
  function RenderSlide(s: Slide, k: Keys, dt: real): (r: Render)
    ensures r.slide.typewriter == s.typewriter + dt && r.slide.fade == s.fade + dt
    ensures r.slide.slide == s.slide + dt && r.slide.parallax == s.parallax + dt
    ensures r.slide.fadingIn == s.fadingIn
    ensures r.slide.skip == (if k.escapeHeld then s.skip + dt else 0.0)
    ensures r.advance <==> r.slide.skip >= SkipHoldTime || k.enter || k.space || s.slide + dt >= AutoAdvanceTime
  {
    var t := s.(slide := s.slide + dt, typewriter := s.typewriter + dt,
                parallax := s.parallax + dt, fade := s.fade + dt);
    if k.escapeHeld then
      var t' := t.(skip := t.skip + dt);
      if t'.skip >= SkipHoldTime then Render(t', true)
      else Render(t', k.enter || k.space || t'.slide >= AutoAdvanceTime)
    else
      var t' := t.(skip := 0.0);
      Render(t', k.enter || k.space || t'.slide >= AutoAdvanceTime)
  }

  /** An arc frame either stays in the arc on some slide or leaves it. */
  datatype ArcStep = Stay(index: nat, slide: Slide) | Leave(slide: Slide, skipped: bool)

  predicate Skipping(s: Slide) { s.skip >= SkipHoldTime }

  /** One frame of an arc's state: out-of-range indices do nothing at all;
      otherwise the slide renders and, on an advance, the arc is left when the
      skip timer has reached the hold time, else the index moves on (and the
      arc is left after the last slide). */
  function ArcFrame(a: Arc, index: nat, s: Slide, k: Keys, dt: real): (r: ArcStep)
    ensures index >= SlideCount(a) ==> r == Stay(index, s)
    ensures index < SlideCount(a) ==>
      var rs := RenderSlide(s, k, dt);
      && (!rs.advance <==> r == Stay(index, rs.slide))
      && (r.Leave? && r.skipped <==> Skipping(rs.slide))
      && (r.Leave? && !r.skipped <==> rs.advance && !Skipping(rs.slide) && index + 1 == SlideCount(a))
      && (r.Stay? ==> r.index < SlideCount(a))
      && (r.Stay? && r.index != index ==> r == Stay(index + 1, ResetSlide(rs.slide)))
      && (rs.advance && !Skipping(rs.slide) && index + 1 < SlideCount(a) ==> r == Stay(index + 1, ResetSlide(rs.slide)))
      && (r.Leave? && r.skipped ==> r.slide == rs.slide)
      && (r.Leave? && !r.skipped ==> r.slide == ResetSlide(rs.slide))
  {
    if index >= SlideCount(a) then Stay(index, s)
    else
      var rs := RenderSlide(s, k, dt);
      if !rs.advance then Stay(index, rs.slide)
      else if Skipping(rs.slide) then Leave(rs.slide, true)
      else
        var s' := ResetSlide(rs.slide);
        if index + 1 >= SlideCount(a) then Leave(s', false) else Stay(index + 1, s')
  }

  datatype Frame = Frame(keys: Keys, dt: real)

  /** Several frames of one arc; once the arc is left the remaining frames
      belong to another state and are not consumed here. */
  function RunArc(a: Arc, index: nat, s: Slide, frames: seq<Frame>): ArcStep
    decreases |frames|
  {
    if |frames| == 0 then Stay(index, s)
    else
      match ArcFrame(a, index, s, frames[0].keys, frames[0].dt)
      case Leave(s', skipped) => Leave(s', skipped)
      case Stay(i', s') => RunArc(a, i', s', frames[1..])
  }

  function SumDt(frames: seq<Frame>): real
  {
    if |frames| == 0 then 0.0 else frames[0].dt + SumDt(frames[1..])
  }

  predicate HoldsEscape(frames: seq<Frame>)
  {
    forall i :: 0 <= i < |frames| ==> frames[i].keys.escapeHeld && frames[i].dt >= 0.0
  }

  /** Holding ESC skips the whole arc: the skip timer survives slide changes,
      so once the held time (plus whatever was already on the skip timer)
      reaches 1.5 seconds the arc has been left. */
  lemma {:induction false} HoldingEscapeLeaves(a: Arc, index: nat, s: Slide, frames: seq<Frame>)
    requires index < SlideCount(a)
    requires HoldsEscape(frames)
    requires s.skip + SumDt(frames) >= SkipHoldTime
    requires |frames| > 0
    ensures RunArc(a, index, s, frames).Leave?
    decreases |frames|
  {
    var f := frames[0];
    var rs := RenderSlide(s, f.keys, f.dt);
    match ArcFrame(a, index, s, f.keys, f.dt)
    case Leave(_, _) =>
    case Stay(i', s') =>
      if |frames| > 1 {
        assert s'.skip == s.skip + f.dt;
        assert HoldsEscape(frames[1..]) by {
          forall i | 0 <= i < |frames[1..]|
            ensures frames[1..][i].keys.escapeHeld && frames[1..][i].dt >= 0.0
          {
            assert frames[1..][i] == frames[i + 1];
          }
        }
        HoldingEscapeLeaves(a, i', s', frames[1..]);
      }
  }

  predicate PressesEnter(frames: seq<Frame>)
  {
    forall i :: 0 <= i < |frames| ==> frames[i].keys.enter && !frames[i].keys.escapeHeld
  }

  /** Pressing ENTER on every frame (without holding ESC) walks through the
      remaining slides one per frame: the arc is still running after fewer
      presses than there are slides left and has been left, not skipped,
      after exactly that many. */
  lemma {:induction false} EnterWalksSlides(a: Arc, index: nat, s: Slide, frames: seq<Frame>)
    requires index < SlideCount(a)
    requires PressesEnter(frames)
    ensures |frames| < SlideCount(a) - index ==> RunArc(a, index, s, frames).Stay?
    ensures |frames| < SlideCount(a) - index ==> RunArc(a, index, s, frames).index == index + |frames|
    ensures |frames| >= SlideCount(a) - index ==> RunArc(a, index, s, frames).Leave?
    ensures |frames| >= SlideCount(a) - index ==> !RunArc(a, index, s, frames).skipped
    decreases |frames|
  {
    if |frames| > 0 {
      var f := frames[0];
      var rs := RenderSlide(s, f.keys, f.dt);
      assert rs.advance && !Skipping(rs.slide);
      if index + 1 < SlideCount(a) {
        assert PressesEnter(frames[1..]) by {
          forall i | 0 <= i < |frames[1..]|
            ensures frames[1..][i].keys.enter && !frames[1..][i].keys.escapeHeld
          {
            assert frames[1..][i] == frames[i + 1];
          }
        }
        EnterWalksSlides(a, index + 1, ResetSlide(rs.slide), frames[1..]);
      }
    }
  }

  /** Without any key the current slide stays up while its timer is below
      the auto-advance time and moves on in the frame that reaches it. */
  lemma AutoAdvance(a: Arc, index: nat, s: Slide, dt: real)
    requires index < SlideCount(a)
    ensures ArcFrame(a, index, s, NoKeys, dt).Stay? && ArcFrame(a, index, s, NoKeys, dt).index == index
        <==> s.slide + dt < AutoAdvanceTime
  {
  }

  /** The skip timer is not reset between arcs: when a new arc starts while
      ESC is still held and the previous skip left the timer at the hold
      time, the new arc is skipped in its first frame. */
  lemma SkipCarriesIntoNextArc(a: Arc, s: Slide, k: Keys, dt: real)
    requires Skipping(s) && k.escapeHeld && dt >= 0.0
    ensures ArcFrame(a, 0, ResetSlide(s), k, dt) == Leave(RenderSlide(ResetSlide(s), k, dt).slide, true)
  {
  }
}
